=== FILE: README.md ===
# BigClown Core Module SDK — radio and drivers, modelled in Dafny

This project models the firmware core of the BigClown Core Module SDK:

- the sub-GHz radio layer: the peer directory, its triple-redundant
  EEPROM store, the scan cache, the over-the-air frame format with its
  publishing and dispatch, the transmit-budget and anti-replay rules, and
  the radio task;
- the drivers built around it: button, LED, relay module, HDC2080
  humidity sensor, LIS2DH12 accelerometer, WS2812B LED strip, Sensor
  Module, the I2C bus layer, and the USB CDC serial port.

Each driver is a pure state machine over an immutable record. The
scheduler, GPIO, I2C transactions, EEPROM, the radio chip and the USB
stack are visible only as the ordered list of effects an operation
issues. What the hardware answers is a parameter: whether a write
succeeds, the index of the first failing transfer, the bytes a read
returns, whether a transmission is accepted, the random retransmission
delay.

Files and modules:

- `common.dfy` (`Common`): byte and word types, the little-endian codec,
  and bit helpers.
- `bounded_queue.dfy` (`BoundedQueue`): the byte-budgeted FIFO used for
  the publish and receive queues.
- `peer_directory.dfy` (`PeerDirectory`): the array of peers with their
  last message ids.
- `scan_cache.dfy` (`ScanCache`): the ring of recently reported strangers.
- `radio_frame.dfy` (`RadioFrame`): the frame header and the typed queue
  items.
- `peer_store.dfy` (`PeerStore`): persistence of the peer directory in
  EEPROM.
- `radio.dfy` (`Radio`): the radio state and its public operations,
  interrupt handlers and task.
- `button.dfy`, `led.dfy`, `relay.dfy`, `hdc2080.dfy`, `lis2dh12.dfy`,
  `ws2812b.dfy`, `module_sensor.dfy`, `i2c.dfy`, `usb_cdc.dfy`: one module
  per driver.

Behaviour of the code worth noting:

- The EEPROM record inverts its 32-bit words 2 and 5: the low half of
  the second copy and the high half of the third.
- `bc_radio_peer_device_purge_all` always answers true, because the
  remove it calls answers true even when the save fails.
- `bc_radio_pub_info` refuses an over-long name; it never truncates it.
- The "save peer devices" flag is raised on a failed save and never
  lowered.

## Model

| member | source | states |
|---|---|---|
| BoundedQueue.Put | bcl/src/bc_radio.c:267-421 | an item is queued exactly when its bytes plus per-item overhead fit the remaining budget; a refused put changes nothing, an accepted one appends at the tail |
| BoundedQueue.Get | bcl/src/bc_radio.c:505-512 | the oldest item comes out, the rest keep their order, and an empty queue yields nothing |
| BoundedQueue.FifoOrder | bcl/src/bc_radio.c:592-616 | an item put behind waiting items does not overtake them: the next get still returns the oldest |
| PeerDirectory.IsPeerDevice | bcl/src/bc_radio.c:255-265 | the linear scan answers true exactly when some peer has the address |
| PeerDirectory.Find | bcl/src/bc_radio.c:714-740 | the index found is the first peer with the address, and none exists when no peer has it |
| PeerDirectory.SwapRemove | bcl/src/bc_radio.c:944-970 | removal moves the last peer into the freed slot and leaves every other slot as it was |
| PeerDirectory.SwapRemoveMultiset | bcl/src/bc_radio.c:944-970 | the peers after removal plus the removed one are exactly the peers before |
| PeerDirectory.SwapRemoveUnique | bcl/src/bc_radio.c:944-970 | in a duplicate-free directory the removed address is gone and no duplicate appears |
| PeerDirectory.AppendUnique | bcl/src/bc_radio.c:912-942 | appending an absent address keeps the directory free of duplicates |
| PeerDirectory.GetAddresses | bcl/src/bc_radio.c:209-220 | the output holds the peers' addresses in order, then zeros up to the requested length |
| ScanCache.Start | bcl/src/bc_radio.c:222-228 | a scan starts with nothing remembered |
| ScanCache.Push | bcl/src/bc_radio.c:625-648 | an address is new exactly when it is not among the remembered ones; a new address overwrites the slot at the head, the head advances modulo four and the length saturates at four; a known address changes nothing |
| ScanCache.PushTwiceReportsOnce | bcl/src/bc_radio.c:625-648 | the same stranger heard twice in a row is reported once |
| ScanCache.RememberedUntilFull | bcl/src/bc_radio.c:625-648 | until the ring is full, every address pushed stays remembered and nothing remembered is forgotten |
| RadioFrame.HeaderRoundTrip | bcl/src/bc_radio.c:592-605 | the receiver reads back the low 48 bits of the sender's address and the exact message id from the header |
| RadioFrame.CString | bcl/src/bc_radio.c:583-587 | a C string reader sees the text up to the first NUL, which holds no NUL |
| RadioFrame.Encode | bcl/src/bc_radio.c:267-445 | every published item starts with the type byte of its message (`Tag`) |
| RadioFrame.AttachItem | bcl/src/bc_radio.c:153-192 | the attach and detach items are the ATTACH or DETACH type byte followed by the full 64-bit address, little-endian |
| RadioFrame.Decode | bcl/src/bc_radio.c:505-590 | a delivered message is attributed to the frame's sender, never comes from an enrollment, attach, detach or unknown tag, and carries a well-formed name; the message is of the type named by the frame's type byte |
| RadioFrame.DecodeItem | bcl/src/bc_radio.c:518-590 | only tags with a handler yield a message, of the type the tag names, and every message has a well-formed name |
| RadioFrame.DecodeEncode | bcl/src/bc_radio.c:267-590 | every message a node publishes reaches the receiver's handler intact, whatever its address and message id |
| RadioFrame.DecodeItemEncode | bcl/src/bc_radio.c:518-590 | decoding an encoded item gives back the message it was built from |
| RadioFrame.DecodePushButton | bcl/src/bc_radio.c:518-525 | a push-button item carries its 16-bit event count |
| RadioFrame.DecodeOneFloat | bcl/src/bc_radio.c:526-549 | thermometer, humidity and lux-meter items carry their channel and their float unchanged |
| RadioFrame.DecodeTwoFloats | bcl/src/bc_radio.c:550-577 | barometer and battery items carry their channel or format byte and both floats unchanged |
| RadioFrame.DecodeInfo | bcl/src/bc_radio.c:583-587 | an info item gives back the firmware name sent with its terminator |
| RadioFrame.ControlFramesNotDelivered | bcl/src/bc_radio.c:505-590 | attach, detach and enrollment frames never reach an application handler |
| PeerStore.Write | bcl/src/bc_radio.c:837-878 | an EEPROM write succeeds unless its offset is faulty; it changes only the bytes it covers, and a failed write changes nothing |
| PeerStore.Flip | bcl/src/bc_radio.c:837-878 | exactly the bytes of 32-bit words 2 and 5 of a record are inverted |
| PeerStore.FlipInvolution | bcl/src/bc_radio.c:785-878 | the inversion load undoes is the inversion save applies |
| PeerStore.MajorityOf | bcl/src/bc_radio.c:785-835 | an address is accepted exactly when two of the three copies agree, and a repair is flagged exactly when the first copy is outvoted |
| PeerStore.ReadEncodedRecord | bcl/src/bc_radio.c:785-878 | a record as save writes it reads back as its address with no repair |
| PeerStore.OneCopyDamaged | bcl/src/bc_radio.c:785-835 | damage confined to any one of the three copies still yields the stored address |
| PeerStore.LoadRecords | bcl/src/bc_radio.c:785-835 | load yields at most the stored count of addresses, none of them zero |
| PeerStore.LoadOld | bcl/src/bc_radio.c:758-783 | the legacy table yields at most the maximum count of addresses, none of them zero |
| PeerStore.LoadOldAcceptsChecksummed | bcl/src/bc_radio.c:758-783 | a legacy table whose last word is the xor of the others loads as its nonzero addresses, in order |
| PeerStore.Load | bcl/src/bc_radio.c:785-835 | at most the maximum of peers, nonzero and unsynced; an empty result asks for a save |
| PeerStore.LoadCount | bcl/src/bc_radio.c:792-796 | load reads the stored count of records, capped at the directory's maximum |
| PeerStore.LoadRecordsCollects | bcl/src/bc_radio.c:796-827 | the load loop is the in-order collection of each record's majority vote |
| PeerStore.CollectContents | bcl/src/bc_radio.c:805-826 | the loop keeps exactly the nonzero addresses some record's vote accepts; a rejected record contributes nothing |
| PeerStore.CollectRepaired | bcl/src/bc_radio.c:805-813 | one record read from its second and third copies marks the load as repaired |
| PeerStore.LoadRepairSaves | bcl/src/bc_radio.c:805-813 | a record that needed repair makes load request a save |
| PeerStore.LoadFromRecords | bcl/src/bc_radio.c:796-834 | when the records yield a peer the legacy table is ignored, and the peers are exactly the nonzero addresses the records' votes accept |
| PeerStore.Save | bcl/src/bc_radio.c:837-878 | the save succeeds exactly when none of the writes it issued hit a faulty offset |
| PeerStore.SaveOne | bcl/src/bc_radio.c:846-867 | a record already in place is not rewritten; otherwise the write succeeds unless its offset is faulty and touches only that record's bytes |
| PeerStore.SaveOutcome | bcl/src/bc_radio.c:837-878 | the success of a save is the conjunction of the successes of its writes |
| PeerStore.SaveFrame | bcl/src/bc_radio.c:837-878 | bytes outside the record area and the count byte are never disturbed |
| PeerStore.SavePlacesRecords | bcl/src/bc_radio.c:837-878 | after a successful save every record holds its peer's encoding |
| PeerStore.LoadEncodedRecords | bcl/src/bc_radio.c:785-835 | records that all read back cleanly load as their addresses, in order, without a repair |
| PeerStore.LoadStored | bcl/src/bc_radio.c:785-835 | an EEPROM holding a directory's records and count loads as that directory, unsynced |
| PeerStore.SaveLoadRoundTrip | bcl/src/bc_radio.c:785-878 | with a healthy EEPROM, what save stores, load reads back as the same addresses in the same order |
| PeerStore.SaveUnchangedWritesCountOnly | bcl/src/bc_radio.c:844-877 | saving records that are already stored writes only the count byte |
| PeerStore.SaveTwice | bcl/src/bc_radio.c:837-878 | a second save of the same directory finds everything in place and changes nothing |
| Radio.Init | bcl/src/bc_radio.c:97-114 | the radio starts asleep with no device address, the peers loaded from the EEPROM, and a request for the serial number |
| Radio.SavePeers | bcl/src/bc_radio.c:837-878 | the directory is kept and written to the EEPROM; a failed save raises the save flag and plans the task, a successful one plans nothing and leaves the flag as it was |
| Radio.TaskRetriesSave | bcl/src/bc_radio.c:447-454 | with the save flag raised, the next task run writes the whole directory again and keeps the flag; on an EEPROM without faulty cells that save succeeds and places every record and the count |
| Radio.AddPeer | bcl/src/bc_radio.c:912-942 | a peer is added exactly when the directory has room and lacks the address; whenever there is room the address is present afterwards; the new directory is saved and nothing outside the store changes (corrected; see ## Findings) |
| Radio.AddPeerUnique | bcl/src/bc_radio.c:912-942 | adding never creates a duplicate address |
| Radio.RemovePeer | bcl/src/bc_radio.c:944-970 | a peer is removed exactly when present, by moving the last record into its slot; the directory shrinks by one, the new directory is saved and a detach event is reported |
| Radio.RemovePeerUnique | bcl/src/bc_radio.c:944-970 | after removal the address is absent and no duplicate appears |
| Radio.PeerDeviceChange | bcl/src/bc_radio.c:153-192 | a successful public add or remove also queues the attach or detach item and plans the task; a failed one does only what the inner operation did |
| Radio.Purge | bcl/src/bc_radio.c:194-207 | purge always answers true and keeps the radio consistent |
| Radio.PurgeClears | bcl/src/bc_radio.c:194-207 | purging a duplicate-free directory leaves no nonzero address |
| Radio.PurgeLeavesDuplicate | bcl/src/bc_radio.c:194-207 | on a directory holding one address twice ahead of a zero entry, purge answers true yet leaves that address in place |
| Radio.PurgeFromClears | bcl/src/bc_radio.c:194-207 | the purge loop, walking down from any index above which all addresses are zero, clears the rest |
| Radio.OnPeerFrame | bcl/src/bc_radio.c:714-740 | a known peer's frame is accepted when its id is new or the peer is unsynced; it then updates the id and, if it has a payload, is queued for the task; a repeated frame changes nothing |
| Radio.OnRxDone | bcl/src/bc_radio.c:674-755 | any received frame keeps the radio consistent |
| Radio.OnStrangerFrame | bcl/src/bc_radio.c:742-753 | a frame from an unknown sender is reported as a scan find exactly when scanning with a handler and the sender is not in the scan cache; with automatic pairing the sender is added when there is room, and otherwise the directory and queues are untouched |
| Radio.ShortFrameIgnored | bcl/src/bc_radio.c:676-680 | a frame shorter than a header and a type byte changes nothing |
| Radio.EnrollFrameAdds | bcl/src/bc_radio.c:689-694 | an enrollment frame adds its sender only in enrollment mode and is otherwise handled like any other frame |
| Radio.AttachFrameClassified | bcl/src/bc_radio.c:696-712 | an attach or detach frame changes the directory only when it names this device, and never publishes anything |
| Radio.ReplayDropped | bcl/src/bc_radio.c:714-740 | a frame accepted from a known peer is dropped without a trace when it arrives again |
| Radio.ScanReportsStranger | bcl/src/bc_radio.c:742-753 | right after a scan starts, the first frame of an unknown sender is reported as a found device |
| Radio.OnTxDone | bcl/src/bc_radio.c:654-673 | after a transmission the budget drops by one with a random retransmit delay below 100 ticks, or the task is planned at once when the budget is spent |
| Radio.OnSerialNumber | bcl/src/bc_radio.c:880-908 | a serial number read becomes the device address and is reported as init done; a failed read is reported as init failure and changes nothing |
| Radio.Send | bcl/src/bc_radio.c:592-616 | the frame sent is this device's header followed by the payload, and the message id advances modulo 2^16 |
| Radio.Dispatch | bcl/src/bc_radio.c:505-590 | dispatch delivers at most one message per received item and does nothing else |
| Radio.DispatchAll | bcl/src/bc_radio.c:505-590 | every decodable received item is delivered, in arrival order |
| Radio.Task | bcl/src/bc_radio.c:447-623 | the task keeps the radio consistent and never changes the configuration, the pairing state, the device address or the directory |
| Radio.TaskSave | bcl/src/bc_radio.c:451-454 | the save at the start of the task keeps the directory |
| Radio.TaskWithoutAddress | bcl/src/bc_radio.c:456-461 | without a device address the task only asks for the serial number again |
| Radio.TaskRetransmits | bcl/src/bc_radio.c:463-473 | while a transmit budget remains, the task repeats the last frame and does nothing else |
| Radio.TaskEnrolls | bcl/src/bc_radio.c:475-502 | a pending enrollment is sent as a header and the enroll tag with the enrollment budget, and the request is cleared |
| Radio.TaskPublishes | bcl/src/bc_radio.c:504-622 | the task delivers all received items, then sends the oldest queued item as one frame with the publish budget, or goes back to sleep after a finished transmission |
| Radio.RoundRepeats | bcl/src/bc_radio.c:654-673 | with two or more transmissions left, one TX-done round repeats the frame once and spends one transmission |
| Radio.LastRoundMovesOn | bcl/src/bc_radio.c:654-673 | the last transmission of a budget is not repeated: the task moves on to the next frame |
| Radio.BudgetRepeats | bcl/src/bc_radio.c:463-473 | a frame sent with a budget of c transmissions is repeated in exactly the next c - 1 rounds, with no queue touched |
| Radio.AddPersists | bcl/src/bc_radio.c:912-942 | with a healthy EEPROM, a peer added is found again when the EEPROM is next loaded |
| Radio.AddGuardsAgreeBelowMax | bcl/src/bc_radio.c:914 | the corrected add guard and the guard as written agree on every directory below the maximum |
| Radio.AddGuardAsWrittenOverruns | bcl/src/bc_radio.c:914 | a directory that load filled to the maximum passes the guard as written, but the corrected guard refuses it |
| Radio.InfoGuardAsWrittenOverruns | bcl/src/bc_radio.c:423-445 | a name of `BC_SPIRIT1_MAX_PACKET_SIZE - 9` bytes passes the guard as written, though its item overruns the local buffer by one byte; the corrected guard refuses it |
| Radio.Pub | bcl/src/bc_radio.c:267-445 | a publication is queued exactly when it passes its length check and fits in the queue, and then the task is planned; a refused one changes nothing (corrected; see ## Findings) |
| Radio.PubFrameFits | bcl/src/bc_radio.c:395-445 | every item the length checks admit fits in one packet after its header |
| Radio.PublishedMessageArrives | bcl/src/bc_radio.c:267-616 | a message published on an idle radio goes out in the next task run and decodes to itself at the receiver |
| Radio.SetEventHandler | bcl/src/bc_radio.c:116-120 | only whether a handler is set changes |
| Radio.SetListening | bcl/src/bc_radio.c:122-134 | listening turns on or off and the task is planned; nothing else changes |
| Radio.EnrollToGateway | bcl/src/bc_radio.c:136-141 | an enrollment is requested for the next task run; nothing else changes |
| Radio.SetEnrollmentMode | bcl/src/bc_radio.c:143-151 | enrollment mode is switched and nothing else changes |
| Radio.ScanStop | bcl/src/bc_radio.c:230-233 | scanning is turned off and the scan cache is kept |
| Radio.SetAutomaticPairing | bcl/src/bc_radio.c:235-243 | automatic pairing is switched and nothing else changes |
| Radio.ScanStart | bcl/src/bc_radio.c:222-228 | scanning starts with an empty scan cache |
| Button.Init | src/bc_button.c:13-31 | a new button is released, has no handler, and has the default scan, debounce, click and hold times |
| Button.PressedLevel | src/bc_button.c:58-120 | a button reads as pressed exactly when its level differs from the idle level |
| Button.Task | src/bc_button.c:58-120 | a state change needs a differing level and an expired debounce; press, click and hold are reported exactly in their cases, at most two events per run, and the next run is one scan interval later |
| Button.HoldAtMostOncePerPress | src/bc_button.c:58-120 | across any run of samples without a new press, hold is reported at most once |
| Button.RestingButtonIsSilent | src/bc_button.c:58-120 | a released button at its idle level reports nothing and stays released |
| Button.ClickIffQuickRelease | src/bc_button.c:58-120 | a press followed by a release reports a click exactly when the release comes before the click timeout |
| Led.Init | src/bc_led.c:9-35 | a new LED is dark, has no pattern and no pulse, and its task is registered with the default slot interval |
| Led.ModePattern | src/bc_led.c:42-89 | mode off is the empty pattern and mode on the all-ones pattern |
| Led.SetPattern | src/bc_led.c:91-99 | a new pattern restarts from its top bit; setting the current pattern changes nothing |
| Led.SetMode | src/bc_led.c:42-89 | setting a mode is setting its pattern |
| Led.SetModeIdempotent | src/bc_led.c:42-99 | setting the same mode twice is setting it once |
| Led.Task | src/bc_led.c:117-143 | while a pulse is active the pattern is frozen; otherwise each run drives one level and runs again one slot interval later |
| Led.SlotShowsBit | src/bc_led.c:117-143 | each slot drives the LED lit exactly when the selected pattern bit is set, then selects the next lower bit |
| Led.SlotsFromBit | src/bc_led.c:117-143 | the runs from bit k down show bits k to 0 of the pattern in order |
| Led.PatternPeriod | src/bc_led.c:117-143 | a pattern is shown from bit 31 down to bit 0 in 32 runs, after which the LED is back where it started |
| Led.Pulse | src/bc_led.c:101-115 | a pulse lights the LED and schedules its end; a pulse already running only has its end moved |
| Led.PulseTask | src/bc_led.c:145-156 | the end of a pulse darkens the LED and removes the pulse task |
| Led.PulseRestores | src/bc_led.c:101-156 | a pulse followed by its end leaves the LED as before, dark |
| Led.PulseFreezesPattern | src/bc_led.c:117-143 | while a pulse is active the pattern task drives nothing and keeps its place |
| Relay.Polarity | src/bc_module_relay.c:65-81 | the expander is driven with the closing polarity exactly for the closed position |
| Relay.HardwareInit | src/bc_module_relay.c:16-31 | a successful expander initialisation de-energises the coil and makes the position unknown; a failed one stops after the first step |
| Relay.Init | src/bc_module_relay.c:33-38 | a new relay is idle with no command or task, and knows its position only as unknown, on success |
| Relay.RegisterTask | src/bc_module_relay.c:54-63 | the task is registered at most once |
| Relay.UnregisterTask | src/bc_module_relay.c:41-52 | an active task is unregistered; an inactive one is left alone |
| Relay.SetState | src/bc_module_relay.c:202-209 | a set command records the desired position and registers the task if needed, without touching the running state machine |
| Relay.PulseCommandOf | src/bc_module_relay.c:223-231 | a pulse command records the desired position and duration and registers the task if needed |
| Relay.CommandsRegisterOnce | src/bc_module_relay.c:202-231 | a second command registers nothing more, and the last set command wins |
| Relay.Toggle | src/bc_module_relay.c:211-221 | toggling sets the opposite of a known position and does nothing when the position is unknown |
| Relay.SetOutput | src/bc_module_relay.c:65-81 | driving the coil writes the position's polarity, and a failed write latches the error |
| Relay.Disable | src/bc_module_relay.c:83-89 | de-energising writes the neutral polarity, and a failed write latches the error |
| Relay.Step | src/bc_module_relay.c:133-188 | each non-idle state makes exactly one coil write: energise towards the desired position for 20 ticks, de-energise (for the pulse duration after the first pulse), reverse for 20 ticks, and return to idle 100 ticks after the last de-energising; a failed write raises the error flag |
| Relay.Task | src/bc_module_relay.c:91-200 | an idle relay with an error first re-initialises the expander; commands are consumed only in the idle state; the desired position and pulse duration are never altered |
| Relay.SetSequence | src/bc_module_relay.c:130-149 | a set energises the coil towards the desired position for 20 ticks, then de-energises it for 100 ticks and ends idle in that position |
| Relay.PulseSequence | src/bc_module_relay.c:152-188 | a pulse holds the desired position for the pulse duration, then reverses it, and ends idle |
| Relay.ErrorRecovery | src/bc_module_relay.c:99-107 | a latched error is cleared exactly when re-initialisation succeeds, and the position is then unknown |
| Hdc2080.Init | src/bc_hdc2080.c:11-19 | a new sensor starts by initialising, with no valid measurement |
| Hdc2080.Swap | src/bc_hdc2080.c:128-131 | the humidity register is read with its two bytes exchanged |
| Hdc2080.SwapInvolution | src/bc_hdc2080.c:128-131 | exchanging the bytes twice restores the value |
| Hdc2080.DataReadyIsTopBit | src/bc_hdc2080.c:120 | data is ready exactly when the interrupt register has its top bit set |
| Hdc2080.Task | src/bc_hdc2080.c:62-156 | any failing bus transfer leads to the error state and an error event; each state issues its transfers and moves to the next state otherwise; the humidity register changes only on a successful read |
| Hdc2080.GetHumidityRaw | src/bc_hdc2080.c:31-41 | the raw humidity is available exactly when the last measurement is valid |
| Hdc2080.MeasurementCycle | src/bc_hdc2080.c:62-156 | with a healthy bus, one cycle from initialisation yields the byte-swapped humidity and an update event |
| Hdc2080.NotReadyIsError | src/bc_hdc2080.c:109-125 | a read while the data-ready bit is clear is an error and leaves no measurement |
| Lis2dh12.Init | src/bc_lis2dh12.c:16-49 | a new accelerometer starts by initialising, with no result, no alarm and a 50-tick update interval |
| Lis2dh12.StoreAxes | src/bc_lis2dh12.c:252-298 | the output registers read before a failure are stored, the rest keep their old values |
| Lis2dh12.UpdateRun | src/bc_lis2dh12.c:184-224 | the update state reports the update, then, with an alarm set, reads the interrupt source, reports the alarm once per interrupt, and fails on a bus error |
| Lis2dh12.ReadRun | src/bc_lis2dh12.c:160-183 | reading the result powers the sensor down unless an alarm is set; a failure goes to the error state |
| Lis2dh12.Task | src/bc_lis2dh12.c:101-224 | each state moves forward exactly when its transfers succeed; an alarm is reported only with an alarm set and an interrupt pending, and clears the interrupt flag; errors are reported exactly on entry to the error path |
| Lis2dh12.Signalize | src/bc_lis2dh12.c:381-384 | the interrupt line raises the interrupt flag and nothing else |
| Lis2dh12.InterruptConfigBits | src/bc_lis2dh12.c:353-360 | bits 5 to 0 of the interrupt configuration enable exactly the selected axis directions |
| Lis2dh12.AlarmWrites | src/bc_lis2dh12.c:300-379 | clearing an alarm only disables the interrupt; setting one disables it, writes the threshold and duration registers, and enables it last |
| Lis2dh12.SetAlarm | src/bc_lis2dh12.c:300-379 | the alarm flag follows the request whatever the bus does, and the call succeeds exactly when every write does |
| Lis2dh12.HealthyCycle | src/bc_lis2dh12.c:101-298 | with a healthy bus, the states from initialisation to update yield the axes read and an update event |
| Lis2dh12.AlarmOncePerInterrupt | src/bc_lis2dh12.c:184-224 | one interrupt is reported as at most one alarm, however many update runs follow |
| Ws2812b.PulseTabBytes | bcl/src/bc_ws2812b.c:35-52 | each table entry lays out the four pulses of its four bits, most significant first, in memory order |
| Ws2812b.PulseTabReceived | bcl/src/bc_ws2812b.c:35-52 | the pulses of each table entry are received as the entry's index |
| Ws2812b.ChannelRoundTrip | bcl/src/bc_ws2812b.c:177-239 | the eight pulses written for a colour byte are received as that byte |
| Ws2812b.ChannelPulses | bcl/src/bc_ws2812b.c:7-8 | a colour byte is sent as short and long pulses only |
| Ws2812b.Init | bcl/src/bc_ws2812b.c:241-320 | a new strip has one pulse byte per colour bit of every pixel, all short, with no transfer in progress; an event handler installed before init is kept |
| Ws2812b.InitShowsDark | bcl/src/bc_ws2812b.c:241-320 | a new strip shows every channel of every pixel at zero |
| Ws2812b.SetPixel | bcl/src/bc_ws2812b.c:177-239 | setting a pixel rewrites exactly that pixel's slice of the buffer with its pulses |
| Ws2812b.SetPixelShows | bcl/src/bc_ws2812b.c:177-239 | after setting a pixel, the strip shows green, red, blue and, on RGBW strips, white as given |
| Ws2812b.SetPixelKeepsOthers | bcl/src/bc_ws2812b.c:177-239 | setting one pixel leaves what every other pixel shows |
| Ws2812b.OffsetOrder | bcl/src/bc_ws2812b.c:177-239 | distinct pixels occupy disjoint slices of the buffer, in position order |
| Ws2812b.Send | bcl/src/bc_ws2812b.c:59-103 | a frame is started exactly when no transfer is in progress |
| Ws2812b.ResetDone | bcl/src/bc_ws2812b.c:155-175 | the end of the reset pulse ends the transfer and plans the task |
| Ws2812b.Task | bcl/src/bc_ws2812b.c:328-334 | the end of a frame is reported exactly when a handler is set |
| Ws2812b.OneFrameAtATime | bcl/src/bc_ws2812b.c:59-175 | a second send during a transfer is refused, and sending works again once the reset pulse has ended |
| ModuleSensor.Init | bcl/src/bc_module_sensor.c:20-40 | initialisation succeeds exactly when the expander set-up, the port write and the direction write all succeed, stopping at the first failure |
| ModuleSensor.PullDirectionBits | bcl/src/bc_module_sensor.c:78-108 | the enable bit is driven exactly for the 4.7 kOhm pull-up and the supply bit exactly for the 56 Ohm one; other bits are kept |
| ModuleSensor.SetPull | bcl/src/bc_module_sensor.c:78-108 | the cached direction register is updated and written to the expander, whose answer is returned |
| ModuleSensor.SetPullIdempotent | bcl/src/bc_module_sensor.c:78-108 | setting the same pull twice is setting it once |
| ModuleSensor.PullChannelsIndependent | bcl/src/bc_module_sensor.c:78-108 | the pulls of the two channels do not interfere |
| ModuleSensor.ChannelButton | bcl/src/bc_module_sensor.c:42-59 | the button attached to a channel is idle at the high level |
| ModuleSensor.SetButtonInputMode | bcl/src/bc_module_sensor.c:42-59 | channels A and B get the 4.7 kOhm pull-up and a button on their own pin, without touching the other channel's button; other channels are refused with nothing done |
| ModuleSensor.ChannelPin | bcl/src/bc_module_sensor.c:61-76 | channel A uses pin P4 and channel B pin P5; other channels have no pin |
| ModuleSensor.SetDigitalOutputMode | bcl/src/bc_module_sensor.c:61-76 | the channel's pin becomes an output, and other channels are refused |
| ModuleSensor.DigitalOutputAsWrittenMissesB | bcl/src/bc_module_sensor.c:111-123 | as written, channel B's output goes to pin P4 although its output mode configured P5 |
| ModuleSensor.SetDigitalOutput | bcl/src/bc_module_sensor.c:111-123 | the output goes to the channel's pin with the requested level (corrected; see ## Findings) |
| ModuleSensor.DigitalOutputUsesConfiguredPin | bcl/src/bc_module_sensor.c:61-123 | corrected, an output goes to the pin its channel's output mode configured |
| I2c.SetSpeed | hio/src/hio_i2c.c:194-235 | an uninitialised channel is left alone; an initialised one takes the speed, through the bridge for the 1-Wire channel, and no other channel changes |
| I2c.Init | hio/src/hio_i2c.c:56-137 | init is reference-counted: only the first call configures and enables the peripheral at the requested speed, later ones only count |
| I2c.Deinit | hio/src/hio_i2c.c:139-187 | deinit is reference-counted: only the last call disables the peripheral and its clock, or shuts down the bridge (corrected; see ## Findings) |
| I2c.InitDeinitRestores | hio/src/hio_i2c.c:56-187 | a first init followed by the last deinit leaves the channel disabled and unclocked, as before |
| I2c.DeinitAsWrittenLeavesI2c0Enabled | hio/src/hio_i2c.c:146-149 | as written, the last deinit of I2C0 leaves the peripheral enabled |
| I2c.NestedInitDeinit | hio/src/hio_i2c.c:56-187 | on an initialised channel, a further init and deinit touch no hardware and restore the state |
| I2c.TimeoutUs | hio/src/hio_i2c.c:708-718 | the transfer time budget is at least that of the address and register bytes |
| I2c.TimeoutUsRatio | hio/src/hio_i2c.c:21-22 | at 100 kHz a transfer gets four times the budget it gets at 400 kHz |
| I2c.TimeoutMs | hio/src/hio_i2c.c:701-706 | the millisecond timeout covers the microsecond budget with about 10 ms of margin |
| I2c.AdjustedTimeout | hio/src/hio_i2c.c:11-12 | the timeout a transfer starts is the millisecond timeout times 1.5, truncated |
| I2c.TimeoutMonotone | hio/src/hio_i2c.c:701-718 | a longer transfer never gets a shorter timeout, and a faster bus never a longer one |
| I2c.AddressByte | hio/src/hio_i2c.c:264 | the 7-bit device address is sent shifted left, with the direction bit clear |
| I2c.AddressLength | hio/src/hio_i2c.c:344-345 | a register address is two bytes exactly when it carries the 16-bit flag, one otherwise |
| I2c.AddressLengthIsFlag | hio/src/hio_i2c.c:344-345 | testing the flag bit is the same as comparing with the flag |
| I2c.AddressBytes | hio/src/hio_i2c.c:344-348 | a register address is sent high byte first, and its low byte is always last |
| I2c.Write | hio/src/hio_i2c.c:237-281 | an uninitialised channel refuses; otherwise the transfer goes out as one transaction with its timeout, or through the bridge, and the result is the bus's |
| I2c.Read | hio/src/hio_i2c.c:283-325 | an uninitialised channel refuses; otherwise the read is one transaction with its timeout, or goes through the bridge, and returns what the bus returned |
| I2c.MemoryWrite | hio/src/hio_i2c.c:327-363 | an uninitialised channel refuses; otherwise the register address and data go out as one transaction, or through the bridge |
| I2c.MemoryRead | hio/src/hio_i2c.c:365-400 | an uninitialised channel refuses; otherwise the register is read in one transaction, or through the bridge |
| I2c.MemoryWrite8 | hio/src/hio_i2c.c:402-412 | an uninitialised channel refuses; otherwise one transaction carries the register address bytes and then the data byte, and the outcome is the bus's |
| I2c.MemoryWrite16 | hio/src/hio_i2c.c:414-429 | an uninitialised channel refuses; otherwise one transaction carries the register address bytes and then the data's high and low byte, and the outcome is the bus's |
| I2c.MemoryRead8 | hio/src/hio_i2c.c:431-441 | an 8-bit register read returns the byte read, exactly when the channel is initialised and the read succeeds |
| I2c.MemoryRead16 | hio/src/hio_i2c.c:443-462 | a 16-bit register read returns the value whose high-first bytes were read |
| I2c.Decode16Encode16 | hio/src/hio_i2c.c:414-462 | a 16-bit value written high byte first is read back as itself |
| I2c.Encode16Decode16 | hio/src/hio_i2c.c:414-462 | any two bytes read are what writing their value sends |
| I2c.MemoryRoundTrip8 | hio/src/hio_i2c.c:402-412 | an 8-bit register write sends the byte that an 8-bit read of the same register returns |
| I2c.MemoryRoundTrip16 | hio/src/hio_i2c.c:414-462 | a 16-bit register write sends the bytes from which a 16-bit read reconstructs the value |
| I2c.UninitialisedRefuses | hio/src/hio_i2c.c:194-400 | every transfer and speed change on an uninitialised channel is refused and touches no hardware |
| UsbCdc.Init | src/bc_usb_cdc.c:25-39 | the port starts with both buffers empty, the USB device started and the task registered |
| UsbCdc.Write | src/bc_usb_cdc.c:41-53 | a write is accepted exactly when it fits in what is left of the buffer; it is then appended after the bytes waiting, and otherwise nothing changes |
| UsbCdc.Task | src/bc_usb_cdc.c:87-108 | the task hands the whole waiting buffer to the USB stack with its interrupt masked and empties the buffer only if the stack accepted it |
| UsbCdc.WritesFlushInOrder | src/bc_usb_cdc.c:41-108 | bytes written before a flush leave in one transmission in the order written, and a refused transmission is retried unchanged |
| UsbCdc.ReceivedData | src/bc_usb_cdc.c:82-85 | received bytes the FIFO accepts are appended after those already waiting |
| UsbCdc.Read | src/bc_usb_cdc.c:55-80 | a read returns the oldest waiting bytes, as many as requested or available, and no byte is lost |

## Left out

- Setters that only store a field (the event-handler setters and the interval and timing setters of button, LED, HDC2080 and LIS2DH12) are modelled as record updates, not as operations. `bc_module_relay_get_state` is a field read.
- Headers that are not part of this model define some enumerations. Where a zeroed structure starts a state machine, the first enumerator is assumed: relay position false and state idle, HDC2080 and LIS2DH12 state initialize. The WS2812B pixel types are assumed to equal their bytes per pixel (RGB 3, RGBW 4). The I2C 16-bit memory-address flag is assumed to be 0x80000000, with two speeds.
- Tick arithmetic is unbounded: the 64-bit wrap-around of `bc_tick_t` is not modelled, because the tick counter does not wrap in practice.
- Floating point is left out:
  - `bc_hdc2080_get_humidity_percentage` and `bc_lis2dh12_get_result_g`;
  - the float threshold and duration of `bc_lis2dh12_set_alarm`, whose register values are parameters;
  - the floats of radio messages, which are carried as opaque groups of four bytes.
- `bc_lis2dh12_get_result_raw` (src/bc_lis2dh12.c:61-79) is left out. It converts the stored registers and adds no behaviour.
- RadioFrame.DecodeItem: a frame shorter than its tag's layout is refused. The code reads stale bytes of the receive buffer instead, and their values are not modelled.
- PeerStore.Load: an EEPROM read is assumed to succeed. The driver's read cannot fail on the target.
- PeerStore.Write: a write either succeeds whole or changes no byte, and whether it fails depends only on its offset being in the EEPROM's faulty set. A real write that fails halfway may leave part of the bytes written; the model does not cover that.
- Radio.Init: when a record needs repair, `_bc_radio_load_peer_devices` also calls `bc_scheduler_plan_now` with the task id. The task is not registered yet at that point, so the call plans whatever task holds id 0. The model drops this effect. The raised save flag still makes the first task run save.
- Radio.Pub: a firmware name of exactly `BC_SPIRIT1_MAX_PACKET_SIZE - 10` bytes leaves `strncpy` without a terminator in the queue item. The model writes the NUL, as the receiver overwrites that byte with NUL anyway. The model also refuses a name of exactly `BC_SPIRIT1_MAX_PACKET_SIZE - 9` bytes, which the code queues; see ## Findings.
- Radio.PurgeClears: proved only for directories without duplicate addresses. Add keeps a duplicate-free directory duplicate-free (Radio.AddPeerUnique), but load does not check for duplicates, so an EEPROM holding the same address twice yields a directory this lemma does not cover. With such a directory and a zero entry (an add of address 0 is accepted), purge answers true and leaves a nonzero peer (Radio.PurgeLeavesDuplicate).
- The scheduler, `rand()`, the SPIRIT1 transceiver and the ATSHA204 serial-number chip are effects or parameters. The random delay is a parameter of Radio.OnTxDone.
- Interrupt concurrency is not modelled. Every interrupt handler runs atomically between task runs.
- The pairing-button glue of the radio is left out. It only calls the modelled enrollment operations.
- The relay state machine's default case has no effect and is left out.
- The WS2812B DMA and timer set-up, and the double-buffered refill of the DMA half buffers, are left out. A transfer is modelled as the buffer it sends.
- Led.SetMode: `Mode` holds only the six modes of the enumeration. A mode value outside it takes the `default` branch and acts as Off (pattern 0), which the model cannot express.
- Ws2812b.SetPixel: requires the position to be below the pixel count. The source does not check it and would write past the buffer.
- The I2C register-level code is left out: flag polling, bus restore and the STM32 register configuration. A transaction is an effect whose outcome is a parameter.
- I2c.TimeoutMs: the 32-bit wrap-around of the timeout arithmetic is not modelled. It needs transfers of millions of bytes.
- UsbCdc.ReceivedData: the receive FIFO `bc_fifo` is not part of this model. The receive side is a sequence, and the number of bytes the FIFO takes is a parameter.
- BoundedQueue: `bc_queue` is not part of this model. Its behaviour is assumed: a FIFO of items in a fixed byte budget with a per-item overhead.
- The SC16IS740 UART bridge, the radio node layer, and header-only files are outside the modelled core.

## Findings

| source | as written | input that shows it | evidently intended | confidence | as-written member | corrected member |
|---|---|---|---|---|---|---|
| bcl/src/bc_radio.c:914 | the add guard refuses only when `length + 1 == BC_RADIO_MAX_DEVICES` | a directory that load filled to the maximum (max 1, one stored peer) passes the guard, and the add writes past the peer array | refuse whenever `length + 1 >= BC_RADIO_MAX_DEVICES` | not executed | Radio.AddGuardAsWrittenOverruns | Radio.AddPeer |
| bcl/src/bc_radio.c:428 | `bc_radio_pub_info` refuses names longer than `BC_SPIRIT1_MAX_PACKET_SIZE - 9` | a name of exactly `BC_SPIRIT1_MAX_PACKET_SIZE - 9` bytes is queued with `length + 2` bytes from a buffer of `BC_SPIRIT1_MAX_PACKET_SIZE - 8` bytes, and its frame is one byte longer than a packet | refuse names longer than `BC_SPIRIT1_MAX_PACKET_SIZE - 10` | not executed | Radio.InfoGuardAsWrittenOverruns | Radio.Pub, Radio.PubFrameFits |
| bcl/src/bc_module_sensor.c:111-123 | the `switch` on the channel has no `break`, so every case falls through to the default | channel B sets pin P4, although its output mode configured P5 | set P4 for channel A and P5 for channel B | not executed | ModuleSensor.DigitalOutputAsWrittenMissesB | ModuleSensor.DigitalOutputUsesConfiguredPin |
| hio/src/hio_i2c.c:146-149 | the last deinit of I2C0 sets the peripheral-enable bit (`CR1 \|= I2C_CR1_PE`) | a first init of I2C0 followed by its deinit leaves the peripheral enabled | clear the bit, as the deinit of the other channel does | not executed | I2c.DeinitAsWrittenLeavesI2c0Enabled | I2c.InitDeinitRestores |

=== FILE: bounded_queue.dfy ===
/** The firmware's `bc_queue`: a FIFO of variable-length byte messages
    stored in a fixed byte buffer. Its implementation is not part of this
    model; it is abstracted as a byte budget in which every stored item
    costs its own length plus a fixed framing overhead. */
module BoundedQueue {
  import opened Common

  datatype Queue = Queue(items: seq<seq<Byte>>, capacity: nat, overhead: nat)

  /** Bytes of the buffer that the given items occupy. */
  function Used(items: seq<seq<Byte>>, overhead: nat): nat
  {
    if |items| == 0 then 0 else Used(items[..|items| - 1], overhead) + |items[|items| - 1]| + overhead
  }

  ghost predicate Valid(q: Queue)
  {
    Used(q.items, q.overhead) <= q.capacity
  }

  function Empty(capacity: nat, overhead: nat): (q: Queue)
    ensures Valid(q) && q.items == []
  {
    Queue([], capacity, overhead)
  }

  /** Room for one more item of the given size. */
  predicate Fits(q: Queue, size: nat)
  {
    Used(q.items, q.overhead) + size + q.overhead <= q.capacity
  }

  datatype PutResult = PutResult(queue: Queue, ok: bool)

  /** `bc_queue_put`: append the item if it fits, otherwise refuse and
      leave the queue as it was. */
  function Put(q: Queue, item: seq<Byte>): (r: PutResult)
    ensures r.ok <==> Fits(q, |item|)
    ensures r.ok ==> r.queue.items == q.items + [item]
    ensures !r.ok ==> r.queue == q
    ensures r.queue.capacity == q.capacity && r.queue.overhead == q.overhead
    ensures Valid(q) ==> Valid(r.queue)
  {
    if Fits(q, |item|) then
      var items := q.items + [item];
      assert items[..|items| - 1] == q.items;
      PutResult(q.(items := items), true)
    else
      PutResult(q, false)
  }

  /** `bc_queue_get`: the oldest item, if any, and the queue without it. */
  function Get(q: Queue): (r: Option<(seq<Byte>, Queue)>)
    ensures r.None? <==> q.items == []
    ensures r.Some? ==> r.value.0 == q.items[0] && r.value.1.items == q.items[1..]
    ensures r.Some? ==> r.value.1.capacity == q.capacity && r.value.1.overhead == q.overhead
    ensures r.Some? && Valid(q) ==> Valid(r.value.1)
  {
    if q.items == [] then None
    else
      UsedSuffix(q.items, q.overhead);
      Some((q.items[0], q.(items := q.items[1..])))
  }

  /** Dropping the oldest item frees its bytes. */
  lemma {:induction false} UsedSuffix(items: seq<seq<Byte>>, overhead: nat)
    requires |items| > 0
    ensures Used(items[1..], overhead) + |items[0]| + overhead == Used(items, overhead)
  {
    if |items| > 1 {
      var init := items[..|items| - 1];
      assert init[1..] == items[1..][..|items[1..]| - 1];
      assert init[0] == items[0];
      UsedSuffix(init, overhead);
    }
  }

  /** The queue is first-in first-out: an item put behind the current
      contents comes out after all of them, unchanged. */
  lemma FifoOrder(q: Queue, item: seq<Byte>)
    requires Fits(q, |item|) && q.items != []
    ensures Get(Put(q, item).queue).Some?
    ensures Get(Put(q, item).queue).value.0 == q.items[0]
    ensures Get(Put(q, item).queue).value.1.items == q.items[1..] + [item]
  {
  }
}

=== FILE: button.dfy ===
/** The push-button driver of src/bc_button.c: a task sampled every scan
    interval that debounces the input level and reports press, click and
    hold events to the registered handler. Ticks are unbounded here; the
    driver's own clock is a 64-bit counter whose wrap-around is not
    modelled. The level read from the pin is a parameter of each run. */
module Button {

  /** `BC_BUTTON_EVENT_*`. */
  datatype Event = Press | Click | Hold

  const SCAN_INTERVAL: nat := 20
  const DEBOUNCE_TIME: nat := 50
  const CLICK_TIMEOUT: nat := 500
  const HOLD_TIME: nat := 2000

  /** The settings of one button: the level the pin shows at rest, the
      four intervals, and whether an event handler is installed. */
  datatype Config = Config(
    idleState: bool,
    scanInterval: nat,
    debounceTime: nat,
    clickTimeout: nat,
    holdTime: nat,
    hasHandler: bool)

  /** The debounced state (true while pressed) and the three deadlines the
      task compares the clock against. */
  datatype Button = Button(
    config: Config,
    state: bool,
    tickDebounce: nat,
    tickClickTimeout: nat,
    tickHoldThreshold: nat,
    holdSignalized: bool)

  /** What one run of the task leaves behind: the button, the events passed
      to the handler in order, and the tick the task asks to run again at. */
  datatype Run = Run(button: Button, events: seq<Event>, next: nat)

  /** `bc_button_init`: a released button with the default intervals and
      every deadline at zero. */
  function Init(idleState: bool): (b: Button)
    ensures !b.state && !b.holdSignalized && !b.config.hasHandler
    ensures b.config.idleState == idleState
    ensures b.config == Config(idleState, 20, 50, 500, 2000, false)
  {
    Button(Config(idleState, SCAN_INTERVAL, DEBOUNCE_TIME, CLICK_TIMEOUT, HOLD_TIME, false), false, 0, 0, 0, false)
  }

  /** The level read from the pin, inverted when the button rests high:
      the button reads as pressed exactly when the pin differs from its
      idle level. */
  function PressedLevel(idleState: bool, level: bool): (pressed: bool)
    ensures pressed <==> level != idleState
  {
    if idleState then !level else level
  }

  /** The handler call, made only when a handler is installed. */
  function Signal(c: Config, e: Event): seq<Event>
  {
    if c.hasHandler then [e] else []
  }

  /** `_bc_button_task`: flip the debounced state once the level has
      differed from it until the debounce deadline; a stable level pushes
      that deadline forward. A press starts the click and hold deadlines;
      a release before the click deadline is a click; a press held past
      the hold deadline is signalled once. */
  function Task(b: Button, level: bool, now: nat): (r: Run)
    // The flip happens exactly when the level differs and the debounce deadline is reached.
    ensures r.button.state != b.state <==> PressedLevel(b.config.idleState, level) != b.state && now >= b.tickDebounce
    // A stable level moves the debounce deadline to now + debounce time; a changing one keeps it.
    ensures PressedLevel(b.config.idleState, level) == b.state ==> r.button.tickDebounce == now + b.config.debounceTime
    ensures PressedLevel(b.config.idleState, level) != b.state ==> r.button.tickDebounce == b.tickDebounce
    // A press arms the click and hold deadlines from now.
    ensures !b.state && r.button.state ==>
      (&& r.button.tickClickTimeout == now + b.config.clickTimeout
       && r.button.tickHoldThreshold == now + b.config.holdTime
       && r.button.holdSignalized == (b.config.holdTime == 0))
    ensures !(!b.state && r.button.state) ==>
      (&& r.button.tickClickTimeout == b.tickClickTimeout
       && r.button.tickHoldThreshold == b.tickHoldThreshold)
    // Which events reach the handler.
    ensures Press in r.events <==> b.config.hasHandler && !b.state && r.button.state
    ensures Click in r.events <==> b.config.hasHandler && b.state && !r.button.state && now < b.tickClickTimeout
    ensures Hold in r.events <==>
      (&& b.config.hasHandler && r.button.state && now >= r.button.tickHoldThreshold
       && (!b.holdSignalized || !b.state))
    ensures |r.events| <= 2
    // Hold is remembered, and forgotten only by a new press.
    ensures Hold in r.events ==> r.button.holdSignalized
    ensures b.holdSignalized && !r.button.holdSignalized ==> !b.state && r.button.state
    ensures r.button.config == b.config
    ensures r.next == now + b.config.scanInterval
  {
    var c := b.config;
    var pressed := PressedLevel(c.idleState, level);
    var (b1, e1) :=
      if pressed != b.state then
        if now >= b.tickDebounce then
          if !b.state then
            (b.(state := true,
                tickClickTimeout := now + c.clickTimeout,
                tickHoldThreshold := now + c.holdTime,
                holdSignalized := false),
             Signal(c, Press))
          else
            (b.(state := false), if now < b.tickClickTimeout then Signal(c, Click) else [])
        else (b, [])
      else (b.(tickDebounce := now + c.debounceTime), []);
    var (b2, e2) :=
      if b1.state && !b1.holdSignalized && now >= b1.tickHoldThreshold then
        (b1.(holdSignalized := true), Signal(c, Hold))
      else (b1, []);
    Run(b2, e1 + e2, now + c.scanInterval)
  }

  /** One sample of the pin: the level read and the tick of the run. */
  datatype Sample = Sample(level: bool, now: nat)

  /** Consecutive runs of the task; the events of all runs in order. */
  function Trace(b: Button, samples: seq<Sample>): (r: (Button, seq<Event>))
    ensures r.0.config == b.config
    ensures !b.config.hasHandler ==> r.1 == []
    decreases |samples|
  {
    if |samples| == 0 then (b, [])
    else
      var run := Task(b, samples[0].level, samples[0].now);
      var rest := Trace(run.button, samples[1..]);
      (rest.0, run.events + rest.1)
  }

  function Count(events: seq<Event>, e: Event): (n: nat)
    ensures n <= |events|
    ensures n == 0 <==> e !in events
  {
    if |events| == 0 then 0
    else (if events[0] == e then 1 else 0) + Count(events[1..], e)
  }

  lemma {:induction false} CountAppend(a: seq<Event>, b: seq<Event>, e: Event)
    ensures Count(a + b, e) == Count(a, e) + Count(b, e)
  {
    if |a| > 0 {
      assert (a + b)[0] == a[0] && (a + b)[1..] == a[1..] + b;
      CountAppend(a[1..], b, e);
    } else {
      assert a + b == b;
    }
  }

  /** Between two presses the hold event reaches the handler at most
      once, however long the button stays down, and not at all while the
      button is released or once the hold has been signalled. */
  lemma {:induction false} HoldAtMostOncePerPress(b: Button, samples: seq<Sample>)
    requires Press !in Trace(b, samples).1
    ensures Count(Trace(b, samples).1, Hold) <= if b.state && !b.holdSignalized then 1 else 0
    decreases |samples|
  {
    if |samples| > 0 && b.config.hasHandler {
      var run := Task(b, samples[0].level, samples[0].now);
      var rest := Trace(run.button, samples[1..]);
      assert Trace(b, samples).1 == run.events + rest.1;
      CountAppend(run.events, rest.1, Hold);
      assert Press !in rest.1;
      HoldAtMostOncePerPress(run.button, samples[1..]);
      if Hold in run.events {
        assert run.events == [Hold];
      }
    }
  }

  /** A button whose level has stayed at rest reports nothing. */
  lemma RestingButtonIsSilent(b: Button, now: nat)
    requires !b.state
    ensures Task(b, b.config.idleState, now).events == []
    ensures !Task(b, b.config.idleState, now).button.state
  {
  }

  /** A release is a click exactly when it comes before the click
      deadline armed at the press: a press at tick p and a release at tick
      q, each after the debounce deadline, yield a click iff q < p + click
      timeout. */
  lemma ClickIffQuickRelease(b: Button, p: nat, q: nat)
    requires b.config.hasHandler && !b.state && b.config.holdTime > 0
    requires p >= b.tickDebounce
    requires q >= p
    ensures var pressed := Task(b, !b.config.idleState, p).button;
      var released := Task(pressed, b.config.idleState, q);
      pressed.state && (Click in released.events <==> q < p + b.config.clickTimeout)
  {
  }
}

=== FILE: common.dfy ===
/** Shared vocabulary of the model: an optional value, the fixed-width
    integer types of the firmware, and the little-endian byte codec the
    firmware relies on wherever it copies an integer with `memcpy` or
    shifts it out byte by byte. */
module Common {

  datatype Option<T> = None | Some(value: T)

  /** One register transaction of the I2C layer, as a sensor driver issues
      it: write one byte, or read one or two bytes from a register. */
  datatype Transfer =
    | Write8(register: Byte, value: Byte)
    | Read8(register: Byte)
    | Read16(register: Byte)

  type Byte = x: int | 0 <= x < 0x100
  type U16 = x: int | 0 <= x < 0x1_0000
  type U32 = x: int | 0 <= x < 0x1_0000_0000
  type U64 = x: int | 0 <= x < 0x1_0000_0000_0000_0000

  /** 256 to the power n: the number of values n bytes can hold. */
  function Pow256(n: nat): (r: nat)
    ensures r >= 1
  {
    if n == 0 then 1 else 256 * Pow256(n - 1)
  }

  /** The low n bytes of x, least significant first: what
      `buf[k] = x >> (8 * k)` for k in [0, n) stores. */
  function LeBytes(x: nat, n: nat): (r: seq<Byte>)
    ensures |r| == n
  {
    if n == 0 then [] else [x % 256] + LeBytes(x / 256, n - 1)
  }

  /** The value of a little-endian byte string: what
      `v |= buf[k] << (8 * k)` over all k assembles. */
  function LeValue(s: seq<Byte>): (r: nat)
    ensures r < Pow256(|s|)
  {
    if |s| == 0 then 0 else s[0] + 256 * LeValue(s[1..])
  }

  /** Decoding the n bytes written for x yields x truncated to n bytes. */
  lemma {:induction false} LeValueOfLeBytes(x: nat, n: nat)
    ensures LeValue(LeBytes(x, n)) == x % Pow256(n)
  {
    if n > 0 {
      var s := LeBytes(x, n);
      assert s[1..] == LeBytes(x / 256, n - 1);
      LeValueOfLeBytes(x / 256, n - 1);
      DivModStep(x, Pow256(n - 1));
    }
  }

  /** x mod 256^(k+1) splits into its low byte and the rest. */
  lemma DivModStep(x: nat, p: nat)
    requires p >= 1
    ensures x % (256 * p) == x % 256 + 256 * ((x / 256) % p)
  {
    var q := x / 256;
    var b := x % 256;
    var q2 := q / p;
    var r2 := q % p;
    assert q == p * q2 + r2;
    calc {
      x;
      256 * q + b;
      256 * (p * q2 + r2) + b;
      { MulAssoc(256, p, q2); }
      (256 * p) * q2 + (256 * r2 + b);
    }
    assert 256 * r2 + b < 256 * p by { MulLess(r2, p); }
    ModUnique(x, 256 * p, q2, 256 * r2 + b);
  }

  lemma MulAssoc(a: int, b: int, c: int)
    ensures a * (b * c) == (a * b) * c
  {
  }

  lemma MulLess(r: nat, p: nat)
    requires r < p
    ensures 256 * r + 255 < 256 * p
  {
  }

  /** Division with remainder is unique. */
  lemma ModUnique(x: int, m: int, q: int, r: int)
    requires m > 0 && 0 <= r < m && x == m * q + r
    ensures x % m == r
  {
    var q' := x / m;
    var r' := x % m;
    assert x == m * q' + r';
    MulSplit(m, q, q');
    SmallMultiple(m, q - q', r' - r);
  }

  lemma MulSplit(m: int, a: int, b: int)
    ensures m * (a - b) == m * a - m * b
  {
  }

  /** The only multiple of m strictly between -m and m is 0. */
  lemma SmallMultiple(m: int, d: int, v: int)
    requires m > 0 && m * d == v && -m < v < m
    ensures d == 0
  {
    if d >= 1 {
      assert false;
    } else if d <= -1 {
      assert false;
    }
  }

  /** A value that fits in n bytes survives encoding and decoding. */
  lemma LeRoundTrip(x: nat, n: nat)
    requires x < Pow256(n)
    ensures LeValue(LeBytes(x, n)) == x
  {
    LeValueOfLeBytes(x, n);
  }

  /** Encoding a decoded byte string reproduces it. */
  lemma {:induction false} LeBytesOfLeValue(s: seq<Byte>)
    ensures LeBytes(LeValue(s), |s|) == s
  {
    if |s| > 0 {
      LeBytesOfLeValue(s[1..]);
      var v := LeValue(s);
      assert v % 256 == s[0];
      assert v / 256 == LeValue(s[1..]);
    }
  }

  /** Two byte strings of the same length decode to the same value only if
      they are equal: comparing the assembled integers, as the firmware
      does, is comparing the bytes. */
  lemma LeValueInjective(s: seq<Byte>, t: seq<Byte>)
    requires |s| == |t|
    ensures LeValue(s) == LeValue(t) <==> s == t
  {
    if LeValue(s) == LeValue(t) {
      LeBytesOfLeValue(s);
      LeBytesOfLeValue(t);
    }
  }

  /** 2 to the power k: the mask `1 << k`. */
  function Pow2(k: nat): (r: nat)
    ensures r >= 1
  {
    if k == 0 then 1 else 2 * Pow2(k - 1)
  }

  lemma Pow2Values()
    ensures Pow2(7) == 0x80
    ensures Pow2(8) == 0x100
    ensures Pow2(16) == 0x1_0000
    ensures Pow2(31) == 0x8000_0000
    ensures Pow2(32) == 0x1_0000_0000
  {
    assert Pow2(4) == 0x10;
    assert Pow2(8) == 0x100;
    assert Pow2(12) == 0x1000;
    assert Pow2(16) == 0x1_0000;
    assert Pow2(20) == 0x10_0000;
    assert Pow2(24) == 0x100_0000;
    assert Pow2(28) == 0x1000_0000;
  }

  /** Bit k of x. */
  predicate Bit(x: nat, k: nat)
  {
    if k == 0 then x % 2 == 1 else Bit(x / 2, k - 1)
  }

  /** Bitwise and of two naturals, low bit first: `a & b`. */
  function And(a: nat, b: nat): (r: nat)
    ensures r <= a
  {
    if a == 0 || b == 0 then 0
    else 2 * And(a / 2, b / 2) + (if a % 2 == 1 && b % 2 == 1 then 1 else 0)
  }

  /** Masking with the single bit k tests bit k: `(x & (1 << k)) != 0`. */
  lemma {:induction false} AndPow2(x: nat, k: nat)
    ensures And(x, Pow2(k)) != 0 <==> Bit(x, k)
  {
    if k > 0 {
      AndPow2(x / 2, k - 1);
      assert Pow2(k) / 2 == Pow2(k - 1) && Pow2(k) % 2 == 0;
    }
  }

  /** For a value of k + 1 bits, the top bit is set exactly when the value
      reaches 2^k. */
  lemma {:induction false} BitTop(x: nat, k: nat)
    requires x < Pow2(k + 1)
    ensures Bit(x, k) <==> x >= Pow2(k)
  {
    if k > 0 {
      BitTop(x / 2, k - 1);
    }
  }
}

=== FILE: hdc2080.dfy ===
/** The HDC2080 humidity sensor driver of src/bc_hdc2080.c: a scheduler
    task that resets the sensor, triggers a measurement, waits for the
    data-ready bit and reads the humidity register, falling back to an
    error state (and a fresh reset one update interval later) whenever a
    transfer fails. The bus is a parameter of each run: the index of the
    first transfer that fails, and the values the two reads return. */
module Hdc2080 {
  import opened Common

  const DELAY_INITIALIZATION: nat := 50
  const DELAY_MEASUREMENT: nat := 50

  /** `BC_HDC2080_STATE_*`; `Other` stands for any value of the state
      variable outside the enumeration. */
  datatype State = Error | Initialize | Measure | Read | Update | Other(code: int)

  datatype Event = ErrorEvent | UpdateEvent

  datatype Hdc = Hdc(
    state: State,
    humidityValid: bool,
    regHumidity: U16,
    updateInterval: nat,
    hasHandler: bool)

  /** The transfers of one run: the first `failAt` succeed and the next
      one fails; the interrupt register and the humidity word as read. */
  datatype Bus = Bus(failAt: nat, interrupt: Byte, humidity: U16)

  datatype Run = Run(hdc: Hdc, events: seq<Event>, transfers: seq<Transfer>, next: nat)

  /** `bc_hdc2080_init`: a zeroed instance, whose state is the first
      enumerator of the state type (initialise). */
  function Init(): (h: Hdc)
    ensures h.state == Initialize && !h.humidityValid && h.updateInterval == 0
  {
    Hdc(Initialize, false, 0, 0, false)
  }

  /** The handler call, made only when a handler is installed. */
  function Signal(h: Hdc, e: Event): seq<Event>
  {
    if h.hasHandler then [e] else []
  }

  /** The two bytes of a 16-bit word exchanged: `x << 8 | x >> 8` kept to
      16 bits. */
  function Swap(x: U16): (y: U16)
    ensures y % 256 == x / 256 && y / 256 == x % 256
  {
    (x % 256) * 256 + x / 256
  }

  lemma SwapInvolution(x: U16)
    ensures Swap(Swap(x)) == x
  {
  }

  /** Bit 7 of the interrupt register, `DRDY_STATUS`. */
  predicate DataReady(interrupt: Byte)
  {
    And(interrupt, 0x80) != 0
  }

  lemma DataReadyIsTopBit(interrupt: Byte)
    ensures DataReady(interrupt) <==> interrupt >= 0x80
  {
    Pow2Values();
    AndPow2(interrupt, 7);
    BitTop(interrupt, 7);
  }

  /** The error state: invalidate the reading, report the error, and try
      a reset one update interval later. */
  function ErrorRun(h: Hdc, transfers: seq<Transfer>, now: nat): (r: Run)
  {
    Run(h.(humidityValid := false, state := Initialize), Signal(h, ErrorEvent), transfers, now + h.updateInterval)
  }

  /** Whether a run in this state, on this bus, ends in the error state. */
  predicate Fails(h: Hdc, bus: Bus)
  {
    match h.state
    case Error => true
    case Other(_) => true
    case Initialize => bus.failAt == 0
    case Measure => bus.failAt == 0
    case Read => bus.failAt == 0 || !DataReady(bus.interrupt) || bus.failAt == 1
    case Update => false
  }

  /** `_bc_hdc2080_task`. Each state first assumes the error state, so a
      failing transfer falls through to it within the same run. */
  function Task(h: Hdc, bus: Bus, now: nat): (r: Run)
    // Every failure is reported once and schedules a reset one update interval later.
    ensures Fails(h, bus) ==>
      (&& r.hdc.state == Initialize && !r.hdc.humidityValid
       && r.events == Signal(h, ErrorEvent) && r.next == now + h.updateInterval)
    ensures ErrorEvent in r.events <==> h.hasHandler && Fails(h, bus)
    // Reset, then trigger, each followed by a 50-tick wait.
    ensures h.state == Initialize && !Fails(h, bus) ==>
      r.hdc.state == Measure && r.next == now + DELAY_INITIALIZATION && r.events == []
    ensures h.state == Measure && !Fails(h, bus) ==>
      r.hdc.state == Read && r.next == now + DELAY_MEASUREMENT && r.events == []
    // A completed read stores the byte-swapped word and reports an update.
    ensures h.state == Read && !Fails(h, bus) ==>
      (&& r.hdc.humidityValid && r.hdc.regHumidity == Swap(bus.humidity)
       && r.hdc.state == Measure && r.events == Signal(h, UpdateEvent)
       && r.next == now + h.updateInterval)
    ensures h.state == Update ==>
      r.hdc == h.(state := Measure) && r.events == Signal(h, UpdateEvent) && r.next == now + h.updateInterval
    // Only a completed read changes the stored word.
    ensures !(h.state == Read && !Fails(h, bus)) ==> r.hdc.regHumidity == h.regHumidity
    ensures r.hdc.state in {Initialize, Measure, Read}
    ensures r.hdc.updateInterval == h.updateInterval && r.hdc.hasHandler == h.hasHandler
  {
    match h.state
    case Error => ErrorRun(h, [], now)
    case Other(_) => ErrorRun(h, [], now)
    case Initialize =>
      var t := [Write8(0x0e, 0x80)];
      if bus.failAt == 0 then ErrorRun(h, t, now)
      else Run(h.(state := Measure), [], t, now + DELAY_INITIALIZATION)
    case Measure =>
      var t := [Write8(0x0f, 0x05)];
      if bus.failAt == 0 then ErrorRun(h, t, now)
      else Run(h.(state := Read), [], t, now + DELAY_MEASUREMENT)
    case Read =>
      if bus.failAt == 0 then ErrorRun(h, [Read8(0x04)], now)
      else if !DataReady(bus.interrupt) then ErrorRun(h, [Read8(0x04)], now)
      else if bus.failAt == 1 then ErrorRun(h, [Read8(0x04), Read16(0x02)], now)
      else
        var h' := h.(regHumidity := Swap(bus.humidity), humidityValid := true);
        Run(h'.(state := Measure), Signal(h, UpdateEvent), [Read8(0x04), Read16(0x02)], now + h.updateInterval)
    case Update =>
      Run(h.(state := Measure), Signal(h, UpdateEvent), [], now + h.updateInterval)
  }

  /** `bc_hdc2080_get_humidity_raw`: the stored word, once a read has
      completed since the last error. */
  function GetHumidityRaw(h: Hdc): (r: Option<U16>)
    ensures r.Some? <==> h.humidityValid
    ensures r.Some? ==> r.value == h.regHumidity
  {
    if h.humidityValid then Some(h.regHumidity) else None
  }

  /** The measurement cycle on a healthy bus: from a reset, two runs 50
      ticks apart reach the read, and the third delivers the humidity word
      the sensor holds at registers 0x02 (low byte) and 0x03 (high byte),
      read as a big-endian word and swapped back. */
  lemma MeasurementCycle(h: Hdc, lo: Byte, hi: Byte, interrupt: Byte, t0: nat)
    requires h.state == Initialize && interrupt >= 0x80
    ensures var bus := Bus(2, interrupt, hi + 256 * lo);
      var r1 := Task(h, bus, t0);
      var r2 := Task(r1.hdc, bus, r1.next);
      var r3 := Task(r2.hdc, bus, r2.next);
      && r1.next == t0 + 50 && r2.next == t0 + 100
      && r1.transfers + r2.transfers + r3.transfers
         == [Write8(0x0e, 0x80), Write8(0x0f, 0x05), Read8(0x04), Read16(0x02)]
      && GetHumidityRaw(r3.hdc) == Some(lo + 256 * hi)
      && r3.hdc.state == Measure
  {
    DataReadyIsTopBit(interrupt);
  }

  /** Without the data-ready bit the word is never read: the run ends in
      the error state with the reading invalidated. */
  lemma NotReadyIsError(h: Hdc, bus: Bus, now: nat)
    requires h.state == Read && bus.failAt > 0 && bus.interrupt < 0x80
    ensures Task(h, bus, now).transfers == [Read8(0x04)]
    ensures GetHumidityRaw(Task(h, bus, now).hdc).None?
  {
    DataReadyIsTopBit(bus.interrupt);
  }
}

=== FILE: i2c.dfy ===
/** The I2C layer of hio/src/hio_i2c.c: three channels (the two STM32
    I2C peripherals and an I2C bus bridged over 1-Wire by a DS28E17), each
    reference-counted so that the hardware is set up on the first init and
    torn down on the last deinit; transfers refused on an uninitialised
    channel; a timeout derived from the transfer length and the bus speed;
    and the byte layout of register-addressed transfers. Register polling,
    the bus-restore bit-banging and the bridge itself are outside the
    model: whether a transfer succeeds, and the bytes a read returns, are
    parameters, and what the driver asks of the hardware is an effect. */
module I2c {
  import opened Common

  /** `HIO_I2C_I2C0` (peripheral I2C2), `HIO_I2C_I2C1` (peripheral I2C1)
      and `HIO_I2C_I2C_1W` (the 1-Wire bridge). */
  datatype Channel = I2c0 | I2c1 | I2c1W

  /** `HIO_I2C_SPEED_100_KHZ` and `HIO_I2C_SPEED_400_KHZ`. */
  datatype Speed = Speed100 | Speed400

  const BYTE_TRANSFER_TIME_US_100: nat := 80
  const BYTE_TRANSFER_TIME_US_400: nat := 20

  /** `HIO_I2C_MEMORY_ADDRESS_16_BIT`: the flag, in the 32-bit memory
      address argument, that asks for a two-byte register address. */
  const MEMORY_ADDRESS_16_BIT: U32 := 0x8000_0000

  const TIMING_400: nat := 0x301d1d
  const TIMING_100: nat := 0x709595

  /** One entry of the channel table: the reference count, the recorded
      speed, and for the two peripherals the enable bit (CR1.PE), the
      clock enable and the timing register. */
  datatype Port = Port(semaphore: int, speed: Speed, enabled: bool, clock: bool, timing: nat)

  datatype Bus = Bus(i2c0: Port, i2c1: Port, i2c1w: Port)

  datatype Effect =
    | ConfigurePins(channel: Channel)
    | ReleasePins(channel: Channel)
    | BridgePowerUp
    | BridgeInit
    | BridgeSpeed(speed: Speed)
    | BridgeDeinit
    | SensorPullsOff
    /** One transaction on the wire: the address byte, the bytes sent
        after it, the number of bytes read back, and the timeout. */
    | Transaction(address: Byte, sent: seq<Byte>, received: nat, timeoutMs: nat)
    | ResetPeripheral(channel: Channel)
    | RestoreBus(channel: Channel)

  function Get(b: Bus, c: Channel): Port
  {
    match c
    case I2c0 => b.i2c0
    case I2c1 => b.i2c1
    case I2c1W => b.i2c1w
  }

  function Put(b: Bus, c: Channel, p: Port): (r: Bus)
    ensures Get(r, c) == p
    ensures forall d :: d != c ==> Get(r, d) == Get(b, d)
  {
    match c
    case I2c0 => b.(i2c0 := p)
    case I2c1 => b.(i2c1 := p)
    case I2c1W => b.(i2c1w := p)
  }

  /** `hio_i2c_set_speed`: nothing while the channel is uninitialised;
      otherwise the bridge's speed for the 1-Wire channel, or the timing
      register (written with the peripheral briefly disabled) for the
      other two; the speed is recorded in every case. */
  function SetSpeed(b: Bus, c: Channel, speed: Speed): (r: (Bus, seq<Effect>))
    ensures Get(b, c).semaphore == 0 ==> r == (b, [])
    ensures Get(b, c).semaphore != 0 ==>
      Get(r.0, c).speed == speed && Get(r.0, c).semaphore == Get(b, c).semaphore
    ensures Get(b, c).semaphore != 0 && c != I2c1W ==>
      && Get(r.0, c).timing == (if speed == Speed400 then TIMING_400 else TIMING_100)
      && Get(r.0, c).enabled && r.1 == []
    ensures Get(b, c).semaphore != 0 && c == I2c1W ==> r.1 == [BridgeSpeed(speed)]
    ensures forall d :: d != c ==> Get(r.0, d) == Get(b, d)
    ensures Get(r.0, c).clock == Get(b, c).clock
  {
    var p := Get(b, c);
    if p.semaphore == 0 then (b, [])
    else if c == I2c1W then (Put(b, c, p.(speed := speed)), [BridgeSpeed(speed)])
    else
      var timing := if speed == Speed400 then TIMING_400 else TIMING_100;
      (Put(b, c, p.(timing := timing, enabled := true, speed := speed)), [])
  }

  /** `hio_i2c_get_speed`. */
  function GetSpeed(b: Bus, c: Channel): Speed
  {
    Get(b, c).speed
  }

  /** `hio_i2c_init`: count the call; only the call that brings the count
      to 1 sets the channel up (pins, clock and enable for a peripheral;
      the sensor module's 1-Wire power, a 500 ms wait and the bridge for
      the 1-Wire channel) and then sets the speed. */
  function Init(b: Bus, c: Channel, speed: Speed): (r: (Bus, seq<Effect>))
    ensures Get(r.0, c).semaphore == Get(b, c).semaphore + 1
    ensures forall d :: d != c ==> Get(r.0, d) == Get(b, d)
    ensures Get(b, c).semaphore != 0 ==> r.1 == [] && Get(r.0, c) == Get(b, c).(semaphore := Get(b, c).semaphore + 1)
    ensures Get(b, c).semaphore == 0 ==> |r.1| > 0 && GetSpeed(r.0, c) == speed
    ensures Get(b, c).semaphore == 0 && c != I2c1W ==> Get(r.0, c).enabled && Get(r.0, c).clock
  {
    var p := Get(b, c).(semaphore := Get(b, c).semaphore + 1);
    if p.semaphore != 1 then (Put(b, c, p), [])
    else if c == I2c1W then
      var s := SetSpeed(Put(b, c, p), c, speed);
      (s.0, [BridgePowerUp, BridgeInit] + s.1)
    else
      var s := SetSpeed(Put(b, c, p.(clock := true, enabled := true)), c, speed);
      (s.0, [ConfigurePins(c)] + s.1)
  }

  /** `hio_i2c_deinit` as written: count the call; only the call that
      brings the count to 0 tears the channel down. For channel I2C0 the
      "disable" step sets the enable bit (`|= I2C_CR1_PE`) instead of
      clearing it, so the peripheral stays enabled. */
  function DeinitAsWritten(b: Bus, c: Channel): (r: (Bus, seq<Effect>))
  {
    var p := Get(b, c).(semaphore := Get(b, c).semaphore - 1);
    if p.semaphore != 0 then (Put(b, c, p), [])
    else if c == I2c1W then (Put(b, c, p), [BridgeDeinit, SensorPullsOff])
    else if c == I2c0 then (Put(b, c, p.(enabled := true, clock := false)), [ReleasePins(c)])
    else (Put(b, c, p.(enabled := false, clock := false)), [ReleasePins(c)])
  }

  /** `hio_i2c_deinit` as intended: both peripherals are disabled on the
      last deinit, as channel I2C1's branch does. */
  function Deinit(b: Bus, c: Channel): (r: (Bus, seq<Effect>))
    ensures Get(r.0, c).semaphore == Get(b, c).semaphore - 1
    ensures forall d :: d != c ==> Get(r.0, d) == Get(b, d)
    ensures Get(b, c).semaphore != 1 ==> r.1 == [] && Get(r.0, c) == Get(b, c).(semaphore := Get(b, c).semaphore - 1)
    ensures Get(b, c).semaphore == 1 && c != I2c1W ==>
      !Get(r.0, c).enabled && !Get(r.0, c).clock && r.1 == [ReleasePins(c)]
    ensures Get(b, c).semaphore == 1 && c == I2c1W ==> r.1 == [BridgeDeinit, SensorPullsOff]
  {
    var p := Get(b, c).(semaphore := Get(b, c).semaphore - 1);
    if p.semaphore != 0 then (Put(b, c, p), [])
    else if c == I2c1W then (Put(b, c, p), [BridgeDeinit, SensorPullsOff])
    else (Put(b, c, p.(enabled := false, clock := false)), [ReleasePins(c)])
  }

  /** A peripheral that is off before its first init is off again after
      the matching deinit; only the recorded speed and timing remain. */
  lemma InitDeinitRestores(b: Bus, c: Channel, speed: Speed)
    requires c != I2c1W && Get(b, c).semaphore == 0 && !Get(b, c).enabled && !Get(b, c).clock
    ensures var r := Deinit(Init(b, c, speed).0, c).0;
      && Get(r, c).semaphore == 0 && !Get(r, c).enabled && !Get(r, c).clock
      && forall d :: d != c ==> Get(r, d) == Get(b, d)
  {
  }

  /** The same sequence with the deinit as written leaves channel I2C0's
      peripheral enabled. */
  lemma DeinitAsWrittenLeavesI2c0Enabled(b: Bus, speed: Speed)
    requires Get(b, I2c0).semaphore == 0 && !Get(b, I2c0).enabled
    ensures Get(DeinitAsWritten(Init(b, I2c0, speed).0, I2c0).0, I2c0).enabled
    ensures !Get(Deinit(Init(b, I2c0, speed).0, I2c0).0, I2c0).enabled
  {
  }

  /** Nested users: only the outermost init and deinit touch the
      hardware; the inner pair leaves the channel as it was. */
  lemma NestedInitDeinit(b: Bus, c: Channel, speed: Speed)
    requires Get(b, c).semaphore >= 1
    ensures Init(b, c, speed).1 == []
    ensures Deinit(Init(b, c, speed).0, c) == (b, [])
  {
    var i := Init(b, c, speed).0;
    assert Put(i, c, Get(b, c)) == b;
  }

  /** The worst-case transfer time of `length` data bytes plus address
      and register bytes, in microseconds. */
  function TimeoutUs(speed: Speed, length: nat): (us: nat)
    ensures us >= 3 * BYTE_TRANSFER_TIME_US_400
  {
    if speed == Speed100 then BYTE_TRANSFER_TIME_US_100 * (length + 3)
    else BYTE_TRANSFER_TIME_US_400 * (length + 3)
  }

  /** At 100 kHz every byte takes four times as long as at 400 kHz. */
  lemma TimeoutUsRatio(length: nat)
    ensures TimeoutUs(Speed100, length) == 4 * TimeoutUs(Speed400, length)
  {
  }

  /** The same in milliseconds, truncated, plus 10 ms of margin. */
  function TimeoutMs(speed: Speed, length: nat): (ms: nat)
    ensures ms >= 10
    ensures 1000 * ms >= TimeoutUs(speed, length) + 9001
  {
    TimeoutUs(speed, length) / 1000 + 10
  }

  /** The timeout the transfers start: the millisecond timeout times the
      adjust factor 1.5, truncated; for a natural m the product m * 1.5
      truncates to m + m / 2. */
  function AdjustedTimeout(speed: Speed, length: nat): (ms: nat)
    ensures 2 * ms <= 3 * TimeoutMs(speed, length) < 2 * ms + 2
  {
    var m := TimeoutMs(speed, length);
    m + m / 2
  }

  /** A longer transfer never gets a shorter timeout, and a faster bus
      never a longer one. */
  lemma TimeoutMonotone(speed: Speed, m: nat, n: nat)
    requires m <= n
    ensures TimeoutMs(speed, m) <= TimeoutMs(speed, n)
    ensures TimeoutMs(Speed400, n) <= TimeoutMs(Speed100, n)
  {
    MulMonotone(if speed == Speed100 then 80 else 20, m + 3, n + 3);
    DivMonotone(TimeoutUs(speed, m), TimeoutUs(speed, n));
    DivMonotone(TimeoutUs(Speed400, n), TimeoutUs(Speed100, n));
  }

  lemma MulMonotone(k: nat, a: nat, b: nat)
    requires a <= b
    ensures k * a <= k * b
  {
  }

  lemma DivMonotone(a: nat, b: nat)
    requires a <= b
    ensures a / 1000 <= b / 1000
  {
  }

  /** The address byte on the wire: the 7-bit device address shifted
      left, as a byte (`device_address << 1` into a `uint8_t`). */
  function AddressByte(device: Byte): (a: Byte)
    ensures a % 2 == 0
    ensures device < 128 ==> a / 2 == device
  {
    (device * 2) % 256
  }

  /** `hio_i2c_transfer_t`: device address and the bytes to send, or the
      number to receive. */
  datatype Transfer = Transfer(device: Byte, data: seq<Byte>)

  /** `hio_i2c_memory_transfer_t`: also the register address, whose
      16-bit flag chooses a one- or two-byte address. */
  datatype MemoryTransfer = MemoryTransfer(device: Byte, memoryAddress: U32, data: seq<Byte>)

  /** The length of the register address: 2 with the 16-bit flag, else 1. */
  function AddressLength(memoryAddress: U32): (n: nat)
    ensures n == 2 <==> memoryAddress >= MEMORY_ADDRESS_16_BIT
    ensures n == 1 || n == 2
  {
    AddressLengthIsFlag(memoryAddress);
    if And(memoryAddress, MEMORY_ADDRESS_16_BIT) != 0 then 2 else 1
  }

  lemma AddressLengthIsFlag(memoryAddress: U32)
    ensures And(memoryAddress, MEMORY_ADDRESS_16_BIT) != 0 <==> memoryAddress >= MEMORY_ADDRESS_16_BIT
  {
    Pow2Values();
    AndPow2(memoryAddress, 31);
    BitTop(memoryAddress, 31);
  }

  /** The register address bytes sent: the register address argument is a
      `uint16_t`, so only its low 16 bits remain; high byte first when two
      bytes are sent. */
  function AddressBytes(memoryAddress: U32): (s: seq<Byte>)
    ensures |s| == AddressLength(memoryAddress)
    ensures s[|s| - 1] == memoryAddress % 256
    ensures |s| == 2 ==> s[0] == memoryAddress / 256 % 256
  {
    var low16 := memoryAddress % 0x1_0000;
    Low16Bytes(memoryAddress);
    if AddressLength(memoryAddress) == 2 then [low16 / 256, low16 % 256] else [low16 % 256]
  }

  /** The two bytes of the low 16 bits of x are its two lowest bytes. */
  lemma Low16Bytes(x: nat)
    ensures x % 0x1_0000 % 256 == x % 256
    ensures x % 0x1_0000 / 256 == x / 256 % 256
  {
    var r := x % 0x1_0000;
    DivModStep(x, 256);
    ModUnique(r, 256, x / 256 % 256, x % 256);
  }

  /** `hio_i2c_write`: refused on an uninitialised channel; the bridge's
      result on the 1-Wire channel; otherwise one transaction, followed by
      a peripheral reset when it fails. `ok` is the hardware's outcome. */
  function Write(b: Bus, c: Channel, t: Transfer, ok: bool): (r: (bool, seq<Effect>))
    ensures Get(b, c).semaphore == 0 ==> r == (false, [])
    ensures Get(b, c).semaphore != 0 ==> r.0 == ok
    ensures Get(b, c).semaphore != 0 && c != I2c1W ==>
      && |r.1| > 0 && r.1[0] == Transaction(AddressByte(t.device), t.data, 0, AdjustedTimeout(GetSpeed(b, c), |t.data|))
      && r.1[1..] == (if ok then [] else [ResetPeripheral(c)])
  {
    if Get(b, c).semaphore == 0 then (false, [])
    else if c == I2c1W then (ok, [])
    else
      var tx := Transaction(AddressByte(t.device), t.data, 0, AdjustedTimeout(GetSpeed(b, c), |t.data|));
      (ok, [tx] + (if ok then [] else [ResetPeripheral(c)]))
  }

  /** `hio_i2c_read`: as `Write`, with the bus restore on failure; the
      bytes are the hardware's `reply`, exactly `length` of them on
      success. */
  function Read(b: Bus, c: Channel, device: Byte, length: nat, reply: Option<seq<Byte>>): (r: (Option<seq<Byte>>, seq<Effect>))
    requires reply.Some? ==> |reply.value| == length
    ensures Get(b, c).semaphore == 0 ==> r == (None, [])
    ensures Get(b, c).semaphore != 0 ==> r.0 == reply
    ensures Get(b, c).semaphore != 0 && c != I2c1W ==>
      && |r.1| > 0 && r.1[0] == Transaction(AddressByte(device), [], length, AdjustedTimeout(GetSpeed(b, c), length))
      && r.1[1..] == (if reply.Some? then [] else [RestoreBus(c)])
  {
    if Get(b, c).semaphore == 0 then (None, [])
    else if c == I2c1W then (reply, [])
    else
      var rx := Transaction(AddressByte(device), [], length, AdjustedTimeout(GetSpeed(b, c), length));
      (reply, [rx] + (if reply.Some? then [] else [RestoreBus(c)]))
  }

  /** `hio_i2c_memory_write`: the register address bytes then the data in
      one transaction. */
  function MemoryWrite(b: Bus, c: Channel, t: MemoryTransfer, ok: bool): (r: (bool, seq<Effect>))
    ensures Get(b, c).semaphore == 0 ==> r == (false, [])
    ensures Get(b, c).semaphore != 0 ==> r.0 == ok
    ensures Get(b, c).semaphore != 0 && c != I2c1W ==>
      && |r.1| > 0 && r.1[0] == Transaction(AddressByte(t.device), AddressBytes(t.memoryAddress) + t.data, 0,
                               AdjustedTimeout(GetSpeed(b, c), |t.data|))
      && r.1[1..] == (if ok then [] else [ResetPeripheral(c)])
  {
    if Get(b, c).semaphore == 0 then (false, [])
    else if c == I2c1W then (ok, [])
    else
      var tx := Transaction(AddressByte(t.device), AddressBytes(t.memoryAddress) + t.data, 0,
                            AdjustedTimeout(GetSpeed(b, c), |t.data|));
      (ok, [tx] + (if ok then [] else [ResetPeripheral(c)]))
  }

  /** `hio_i2c_memory_read`: the register address written, then `length`
      bytes read back. */
  function MemoryRead(b: Bus, c: Channel, device: Byte, memoryAddress: U32, length: nat, reply: Option<seq<Byte>>)
    : (r: (Option<seq<Byte>>, seq<Effect>))
    requires reply.Some? ==> |reply.value| == length
    ensures Get(b, c).semaphore == 0 ==> r == (None, [])
    ensures Get(b, c).semaphore != 0 ==> r.0 == reply
    ensures Get(b, c).semaphore != 0 && c != I2c1W ==>
      && |r.1| > 0 && r.1[0] == Transaction(AddressByte(device), AddressBytes(memoryAddress), length,
                               AdjustedTimeout(GetSpeed(b, c), length))
      && r.1[1..] == (if reply.Some? then [] else [RestoreBus(c)])
  {
    if Get(b, c).semaphore == 0 then (None, [])
    else if c == I2c1W then (reply, [])
    else
      var rx := Transaction(AddressByte(device), AddressBytes(memoryAddress), length,
                            AdjustedTimeout(GetSpeed(b, c), length));
      (reply, [rx] + (if reply.Some? then [] else [RestoreBus(c)]))
  }

  /** `hio_i2c_memory_write_8b`: the register address bytes, then the one
      data byte. */
  function MemoryWrite8(b: Bus, c: Channel, device: Byte, memoryAddress: U32, data: Byte, ok: bool): (r: (bool, seq<Effect>))
    ensures Get(b, c).semaphore == 0 ==> r == (false, [])
    ensures Get(b, c).semaphore != 0 ==> r.0 == ok
    ensures Get(b, c).semaphore != 0 && c != I2c1W ==>
      && |r.1| > 0 && r.1[0].Transaction? && r.1[0].address == AddressByte(device)
      && r.1[0].sent == AddressBytes(memoryAddress) + [data] && r.1[0].received == 0
  {
    MemoryWrite(b, c, MemoryTransfer(device, memoryAddress, [data]), ok)
  }

  /** The two bytes `hio_i2c_memory_write_16b` sends: high byte first. */
  function Encode16(data: U16): (s: seq<Byte>)
    ensures |s| == 2
  {
    [data / 256, data % 256]
  }

  /** What `hio_i2c_memory_read_16b` assembles: `b[0] << 8 | b[1]`. */
  function Decode16(s: seq<Byte>): (v: U16)
    requires |s| == 2
  {
    var high: int := s[0];
    high * 256 + s[1]
  }

  lemma Decode16Encode16(data: U16)
    ensures Decode16(Encode16(data)) == data
  {
  }

  lemma Encode16Decode16(s: seq<Byte>)
    requires |s| == 2
    ensures Encode16(Decode16(s)) == s
  {
  }

  /** `hio_i2c_memory_write_16b`: the register address bytes, then the
      data's high byte and low byte. */
  function MemoryWrite16(b: Bus, c: Channel, device: Byte, memoryAddress: U32, data: U16, ok: bool): (r: (bool, seq<Effect>))
    ensures Get(b, c).semaphore == 0 ==> r == (false, [])
    ensures Get(b, c).semaphore != 0 ==> r.0 == ok
    ensures Get(b, c).semaphore != 0 && c != I2c1W ==>
      && |r.1| > 0 && r.1[0].Transaction? && r.1[0].address == AddressByte(device)
      && r.1[0].sent == AddressBytes(memoryAddress) + [data / 256, data % 256] && r.1[0].received == 0
  {
    MemoryWrite(b, c, MemoryTransfer(device, memoryAddress, Encode16(data)), ok)
  }

  /** `hio_i2c_memory_read_8b`. */
  function MemoryRead8(b: Bus, c: Channel, device: Byte, memoryAddress: U32, reply: Option<seq<Byte>>): (r: Option<Byte>)
    requires reply.Some? ==> |reply.value| == 1
    ensures r.Some? <==> Get(b, c).semaphore != 0 && reply.Some?
    ensures r.Some? ==> r.value == reply.value[0]
  {
    match MemoryRead(b, c, device, memoryAddress, 1, reply).0
    case None => None
    case Some(s) => Some(s[0])
  }

  /** `hio_i2c_memory_read_16b`: two bytes read, the first the high one. */
  function MemoryRead16(b: Bus, c: Channel, device: Byte, memoryAddress: U32, reply: Option<seq<Byte>>): (r: Option<U16>)
    requires reply.Some? ==> |reply.value| == 2
    ensures r.Some? <==> Get(b, c).semaphore != 0 && reply.Some?
    ensures r.Some? ==> Encode16(r.value) == reply.value
  {
    match MemoryRead(b, c, device, memoryAddress, 2, reply).0
    case None => None
    case Some(s) => Encode16Decode16(s); Some(Decode16(s))
  }

  /** A register written with `MemoryWrite8` and read back with
      `MemoryRead8` from a device that returns what it stored yields the
      byte written. */
  lemma MemoryRoundTrip8(b: Bus, c: Channel, device: Byte, memoryAddress: U32, data: Byte)
    requires Get(b, c).semaphore != 0 && c != I2c1W
    ensures var w := MemoryWrite8(b, c, device, memoryAddress, data, true);
      var sent := w.1[0].sent;
      var n := AddressLength(memoryAddress);
      && w.0 && |sent| == n + 1
      && MemoryRead8(b, c, device, memoryAddress, Some(sent[n..])) == Some(data)
  {
    var w := MemoryWrite8(b, c, device, memoryAddress, data, true);
    var n := AddressLength(memoryAddress);
    assert w.1[0].sent[n..] == [data];
  }

  /** A register written with `MemoryWrite16` and read back with
      `MemoryRead16` from a device that returns what it stored yields the
      value written: the data bytes of the write are the reply of the
      read. */
  lemma MemoryRoundTrip16(b: Bus, c: Channel, device: Byte, memoryAddress: U32, data: U16)
    requires Get(b, c).semaphore != 0 && c != I2c1W
    ensures var w := MemoryWrite16(b, c, device, memoryAddress, data, true);
      var sent := w.1[0].sent;
      var n := AddressLength(memoryAddress);
      && w.0 && |sent| == n + 2
      && MemoryRead16(b, c, device, memoryAddress, Some(sent[n..])) == Some(data)
  {
    var w := MemoryWrite16(b, c, device, memoryAddress, data, true);
    var n := AddressLength(memoryAddress);
    assert w.1[0].sent[n..] == Encode16(data);
  }

  /** Every transfer is refused, with no effect, on an uninitialised
      channel. */
  lemma UninitialisedRefuses(b: Bus, c: Channel, t: Transfer, m: MemoryTransfer, ok: bool, reply: Option<seq<Byte>>)
    requires Get(b, c).semaphore == 0
    requires reply.Some? ==> |reply.value| == |t.data|
    ensures Write(b, c, t, ok) == (false, [])
    ensures Read(b, c, t.device, |t.data|, reply) == (None, [])
    ensures MemoryWrite(b, c, m, ok) == (false, [])
    ensures MemoryRead(b, c, m.device, m.memoryAddress, |t.data|, reply) == (None, [])
    ensures SetSpeed(b, c, Speed400) == (b, [])
  {
  }
}

=== FILE: led.dfy ===
/** The LED driver of src/bc_led.c: a 32-slot blink pattern shifted out
    one bit per slot, most significant first, and a one-shot pulse that
    overrides the pattern until its own task restores the idle level. The
    scheduler is outside the model: what the driver asks of it appears as
    effects, and the current tick is a parameter. */
module Led {
  import opened Common

  const DEFAULT_SLOT_INTERVAL: nat := 100

  /** `BC_LED_MODE_*`, in declaration order. */
  datatype Mode = Off | On | Blink | BlinkSlow | BlinkFast | Flash

  /** What a call asks of the pin and of the scheduler. */
  datatype Effect =
    | Drive(level: bool)
    | Plan(taskId: nat, tick: nat)
    | Register(tick: nat)
    | Unregister(taskId: nat)

  /** The value a task returns to the scheduler: a delay, or never. */
  datatype Next = After(ticks: nat) | Never

  /** The pattern register, the one-hot slot selector (0 before the first
      slot of a period) and the pulse in progress, if any. */
  datatype Led = Led(
    idleState: bool,
    slotInterval: nat,
    pattern: U32,
    selector: U32,
    pulseActive: bool,
    pulseTaskId: nat)

  /** The selector is zero or a single bit. */
  ghost predicate Valid(l: Led)
  {
    l.selector == 0 || exists k: nat | k < 32 :: l.selector == Pow2(k)
  }

  /** The level that lights the LED and the level that darkens it. */
  function Lit(l: Led): bool { !l.idleState }

  /** `bc_led_init`: dark, no pattern, default slot interval. */
  function Init(idleState: bool): (r: (Led, seq<Effect>))
    ensures Valid(r.0) && r.0.pattern == 0 && !r.0.pulseActive
    ensures r.1 == [Drive(idleState), Register(DEFAULT_SLOT_INTERVAL)]
  {
    (Led(idleState, DEFAULT_SLOT_INTERVAL, 0, 0, false, 0), [Drive(idleState), Register(DEFAULT_SLOT_INTERVAL)])
  }

  /** The pattern each mode of `bc_led_set_mode` selects. */
  function ModePattern(m: Mode): (p: U32)
    ensures m == Off <==> p == 0
    ensures m == On <==> p == 0xffff_ffff
  {
    match m
    case Off => 0
    case On => 0xffff_ffff
    case Blink => 0xf0f0_f0f0
    case BlinkSlow => 0xffff_0000
    case BlinkFast => 0xaaaa_aaaa
    case Flash => 0x8000_0000
  }

  /** `bc_led_set_pattern`: a new pattern restarts the period; the same
      pattern leaves the LED where it is. */
  function SetPattern(l: Led, pattern: U32): (r: Led)
    requires Valid(l)
    ensures Valid(r) && r.pattern == pattern
    ensures pattern != l.pattern ==> r.selector == 0
    ensures pattern == l.pattern ==> r == l
    ensures r.(pattern := l.pattern, selector := l.selector) == l
  {
    if l.pattern != pattern then l.(pattern := pattern, selector := 0) else l
  }

  /** `bc_led_set_mode`: the pattern of the mode, through the same
      comparison as `bc_led_set_pattern`. */
  function SetMode(l: Led, m: Mode): (r: Led)
    requires Valid(l)
    ensures r == SetPattern(l, ModePattern(m))
  {
    var pattern := ModePattern(m);
    if l.pattern != pattern then l.(pattern := pattern, selector := 0) else l
  }

  /** Setting the mode twice is setting it once: the second call does not
      restart the period. */
  lemma SetModeIdempotent(l: Led, m: Mode)
    requires Valid(l)
    ensures SetMode(SetMode(l, m), m) == SetMode(l, m)
  {
  }

  /** `_bc_led_task`: while a pulse is active only the default interval is
      returned; otherwise start a period at bit 31 when the selector is
      zero, drive the LED from the selected bit, and move to the next
      lower bit. */
  function Task(l: Led): (r: (Led, seq<Effect>, Next))
    requires Valid(l)
    ensures Valid(r.0)
    ensures l.pulseActive ==> r == (l, [], After(DEFAULT_SLOT_INTERVAL))
    ensures !l.pulseActive ==> r.2 == After(l.slotInterval) && |r.1| == 1 && r.1[0].Drive?
    ensures r.0.(selector := l.selector) == l
  {
    if l.pulseActive then (l, [], After(DEFAULT_SLOT_INTERVAL))
    else
      var selector := if l.selector == 0 then 0x8000_0000 else l.selector;
      var level := if And(l.pattern, selector) != 0 then Lit(l) else l.idleState;
      var l' := l.(selector := selector / 2);
      assert Valid(l') by {
        if l.selector == 0 {
          Pow2Values();
          assert selector == Pow2(31);
        }
        SelectorHalves(selector);
      }
      (l', [Drive(level)], After(l.slotInterval))
  }

  /** Halving a one-bit selector leaves a one-bit selector or zero. */
  lemma SelectorHalves(selector: nat)
    requires exists k: nat | k < 32 :: selector == Pow2(k)
    ensures selector / 2 == 0 || exists k: nat | k < 32 :: selector / 2 == Pow2(k)
  {
    var k: nat :| k < 32 && selector == Pow2(k);
    if k > 0 {
      assert selector == 2 * Pow2(k - 1);
      assert selector / 2 == Pow2(k - 1);
    }
  }

  /** One slot: the selector at bit k lights the LED iff bit k of the
      pattern is set, and moves on to bit k - 1 (to 0 after bit 0). */
  lemma SlotShowsBit(l: Led, k: nat)
    requires Valid(l) && !l.pulseActive && k < 32
    requires l.selector == Pow2(k) || (k == 31 && l.selector == 0)
    ensures Task(l).1 == [Drive(if Bit(l.pattern, k) then Lit(l) else l.idleState)]
    ensures Task(l).0.selector == if k == 0 then 0 else Pow2(k - 1)
  {
    Pow2Values();
    AndPow2(l.pattern, k);
  }

  /** The levels n consecutive runs of the task drive. */
  function Slots(l: Led, n: nat): (r: (Led, seq<bool>))
    requires Valid(l)
    ensures Valid(r.0)
    decreases n
  {
    if n == 0 then (l, [])
    else
      var t := Task(l);
      var level := if |t.1| > 0 && t.1[0].Drive? then [t.1[0].level] else [];
      var rest := Slots(t.0, n - 1);
      (rest.0, level + rest.1)
  }

  /** The levels bits k, k - 1, ..., 0 of a pattern drive. */
  function Levels(l: Led, k: nat): (s: seq<bool>)
    requires k <= 32
    ensures |s| == k
  {
    if k == 0 then []
    else [if Bit(l.pattern, k - 1) then Lit(l) else l.idleState] + Levels(l, k - 1)
  }

  /** From bit k down: k + 1 slots show bits k to 0 and end with the
      selector back at zero. */
  lemma {:induction false} SlotsFromBit(l: Led, k: nat)
    requires Valid(l) && !l.pulseActive && k < 32
    requires l.selector == Pow2(k) || (k == 31 && l.selector == 0)
    ensures Slots(l, k + 1).1 == Levels(l, k + 1)
    ensures Slots(l, k + 1).0 == l.(selector := 0)
    decreases k
  {
    SlotShowsBit(l, k);
    var t := Task(l);
    if k > 0 {
      SlotsFromBit(t.0, k - 1);
      assert Levels(t.0, k) == Levels(l, k) by { LevelsSamePattern(t.0, l, k); }
    }
  }

  lemma {:induction false} LevelsSamePattern(a: Led, b: Led, k: nat)
    requires k <= 32 && a.pattern == b.pattern && a.idleState == b.idleState
    ensures Levels(a, k) == Levels(b, k)
  {
    if k > 0 {
      LevelsSamePattern(a, b, k - 1);
    }
  }

  /** The blink period: from the start of a period, 32 slots drive the 32
      bits of the pattern from bit 31 down to bit 0, and the LED is back at
      the start of the next period. */
  lemma PatternPeriod(l: Led)
    requires Valid(l) && !l.pulseActive && l.selector == 0
    ensures Slots(l, 32).1 == Levels(l, 32)
    ensures Slots(l, 32).0 == l
  {
    SlotsFromBit(l, 31);
  }

  /** `bc_led_pulse`: a pulse in progress only has its end moved to
      now + duration; otherwise the LED is lit and a task registered to
      end the pulse, under the id the scheduler hands out. */
  function Pulse(l: Led, now: nat, duration: nat, newTaskId: nat): (r: (Led, seq<Effect>))
    ensures l.pulseActive ==> r == (l, [Plan(l.pulseTaskId, now + duration)])
    ensures !l.pulseActive ==> r.1 == [Drive(Lit(l)), Register(now + duration)]
    ensures r.0.pulseActive
    ensures r.0.(pulseActive := l.pulseActive, pulseTaskId := l.pulseTaskId) == l
  {
    if l.pulseActive then (l, [Plan(l.pulseTaskId, now + duration)])
    else (l.(pulseActive := true, pulseTaskId := newTaskId), [Drive(Lit(l)), Register(now + duration)])
  }

  /** `_bc_led_task_pulse`: darken the LED, end the pulse and remove its
      own task. */
  function PulseTask(l: Led): (r: (Led, seq<Effect>, Next))
    ensures !r.0.pulseActive && r.2 == Never
    ensures r.1 == [Drive(l.idleState), Unregister(l.pulseTaskId)]
    ensures r.0.(pulseActive := l.pulseActive) == l
  {
    (l.(pulseActive := false), [Drive(l.idleState), Unregister(l.pulseTaskId)], Never)
  }

  /** A pulse leaves the pattern where it was: once its task has run, the
      LED is as before the pulse, apart from the remembered task id. */
  lemma PulseRestores(l: Led, now: nat, duration: nat, id: nat)
    requires !l.pulseActive
    ensures PulseTask(Pulse(l, now, duration, id).0).0 == l.(pulseTaskId := id)
    ensures PulseTask(Pulse(l, now, duration, id).0).1[0] == Drive(l.idleState)
  {
  }

  /** While a pulse is active the pattern does not advance. */
  lemma PulseFreezesPattern(l: Led, now: nat, duration: nat, id: nat)
    requires Valid(l)
    ensures var p := Pulse(l, now, duration, id).0;
      Valid(p) && Task(p).0 == p && Task(p).1 == []
  {
  }
}

=== FILE: lis2dh12.dfy ===
/** The LIS2DH12 accelerometer driver of src/bc_lis2dh12.c: a scheduler
    task that checks the chip identity, powers it down, starts a
    conversion, reads the six output registers and reports the result,
    with an optional motion alarm signalled through an interrupt line. Any
    failing transfer sends the task to the error state, which reports the
    error and retries one update interval later. The bus is a parameter of
    each run: the index of the first transfer that fails and the bytes the
    reads return. */
module Lis2dh12 {
  import opened Common

  const DELAY_READ: nat := 10
  const WHO_AM_I_VALUE: Byte := 0x33

  /** `BC_LIS2DH12_STATE_*`; `Other` stands for any value of the state
      variable outside the enumeration. */
  datatype State = Error | Initialize | Measure | Read | Update | Other(code: int)

  datatype Event = ErrorEvent | UpdateEvent | AlarmEvent

  /** The six output registers OUT_X_L to OUT_Z_H. */
  type Axes = s: seq<Byte> | |s| == 6 witness [0, 0, 0, 0, 0, 0]

  datatype Lis = Lis(
    state: State,
    accelerometerValid: bool,
    out: Axes,
    alarmActive: bool,
    irqFlag: bool,
    updateInterval: nat,
    hasHandler: bool)

  /** The transfers of one run: the first `failAt` succeed and the next
      one fails. `whoAmI` is what the identity register reads, `axes` what
      the output registers read, in register order. */
  datatype Bus = Bus(failAt: nat, whoAmI: Byte, axes: Axes)

  datatype Run = Run(lis: Lis, events: seq<Event>, transfers: seq<Transfer>, next: nat)

  /** `bc_lis2dh12_init`: a zeroed instance (whose state is the first
      enumerator, initialise) with an update interval of 50 ticks. */
  function Init(): (l: Lis)
    ensures l.state == Initialize && !l.accelerometerValid && !l.alarmActive && !l.irqFlag
    ensures l.updateInterval == 50
  {
    Lis(Initialize, false, [0, 0, 0, 0, 0, 0], false, false, 50, false)
  }

  function Signal(l: Lis, e: Event): seq<Event>
  {
    if l.hasHandler then [e] else []
  }

  /** `_bc_lis2dh12_power_down`: CTRL_REG1 = 0x07, all axes enabled, no
      output data rate. */
  const POWER_DOWN: seq<Transfer> := [Write8(0x20, 0x07)]

  /** `_bc_lis2dh12_continuous_conversion`: CTRL_REG4 = 0x98 (block data
      update, high resolution, 4 g), then CTRL_REG1 = 0x57 (100 Hz). */
  const CONTINUOUS_CONVERSION: seq<Transfer> := [Write8(0x23, 0x98), Write8(0x20, 0x57)]

  /** `_bc_lis2dh12_read_result`: the six output registers, one byte at a
      time. */
  const READ_RESULT: seq<Transfer> :=
    [Read8(0x28), Read8(0x29), Read8(0x2a), Read8(0x2b), Read8(0x2c), Read8(0x2d)]

  /** The transfers issued until the first failure, inclusive. */
  function Issued(planned: seq<Transfer>, failAt: nat): (t: seq<Transfer>)
    ensures t <= planned
    ensures |t| == if failAt < |planned| then failAt + 1 else |planned|
  {
    if failAt < |planned| then planned[..failAt + 1] else planned
  }

  /** The error state: invalidate the result, report, retry after the
      update interval. */
  function ErrorRun(l: Lis, events: seq<Event>, transfers: seq<Transfer>, now: nat): (r: Run)
  {
    Run(l.(accelerometerValid := false, state := Initialize), events + Signal(l, ErrorEvent), transfers, now + l.updateInterval)
  }

  /** The output registers after a read that stopped at `failAt`: the
      bytes read before the failure are stored, the rest keep their old
      values. */
  function StoreAxes(previous: Axes, axes: Axes, failAt: nat): (r: Axes)
    ensures failAt >= 6 ==> r == axes
    ensures forall i :: 0 <= i < 6 ==> r[i] == if i < failAt then axes[i] else previous[i]
  {
    seq(6, i requires 0 <= i < 6 => if i < failAt then axes[i] else previous[i])
  }

  /** The update state, entered from a completed read in the same run:
      report the update; with the alarm armed, read INT1_SRC (which clears
      the latched interrupt) and report an alarm if the interrupt line
      fired since the last time. `index` is the position of the INT1_SRC
      read among the run's transfers. */
  function UpdateRun(l: Lis, bus: Bus, index: nat, transfers: seq<Transfer>, now: nat): (r: Run)
    ensures r.transfers == transfers + (if l.alarmActive then [Read8(0x31)] else [])
    ensures l.hasHandler ==> |r.events| > 0 && r.events[0] == UpdateEvent
    ensures !l.alarmActive ==> r.events == Signal(l, UpdateEvent)
    ensures AlarmEvent in r.events <==> l.hasHandler && l.alarmActive && l.irqFlag && bus.failAt != index
    ensures AlarmEvent in r.events ==> !r.lis.irqFlag
    ensures ErrorEvent in r.events <==> l.hasHandler && r.lis.state == Initialize
    ensures r.lis.state == Initialize <==> l.alarmActive && bus.failAt == index
    ensures r.lis.state == Initialize ==> !r.lis.accelerometerValid
    ensures r.lis.state != Initialize ==> r.lis.state == Measure && r.lis.accelerometerValid == l.accelerometerValid
    ensures r.next == now + l.updateInterval
    ensures r.lis.out == l.out && r.lis.alarmActive == l.alarmActive
    ensures r.lis.updateInterval == l.updateInterval && r.lis.hasHandler == l.hasHandler
  {
    var events := Signal(l, UpdateEvent);
    if l.alarmActive then
      var t := transfers + [Read8(0x31)];
      if bus.failAt == index then ErrorRun(l, events, t, now)
      else if l.irqFlag then
        Run(l.(irqFlag := false, state := Measure), events + Signal(l, AlarmEvent), t, now + l.updateInterval)
      else Run(l.(state := Measure), events, t, now + l.updateInterval)
    else Run(l.(state := Measure), events, transfers, now + l.updateInterval)
  }

  /** Whether a read run completes: all six reads succeed, and so does the
      power-down that follows them when no alarm is armed. */
  predicate ReadCompletes(l: Lis, bus: Bus)
  {
    bus.failAt >= (if l.alarmActive then 6 else 7)
  }

  /** `_bc_lis2dh12_task`. */
  function Task(l: Lis, bus: Bus, now: nat): (r: Run)
    // The identity check: a reply other than 0x33, or a failed transfer, is an error.
    ensures l.state == Initialize ==>
      (r.lis.state == Measure <==> bus.failAt >= 2 && bus.whoAmI == WHO_AM_I_VALUE)
    ensures l.state == Initialize && r.lis.state == Measure ==>
      r.transfers == [Read8(0x0f)] + POWER_DOWN && r.next == now + l.updateInterval
    // The measurement: start a conversion and read 10 ticks later.
    ensures l.state == Measure ==> (r.lis.state == Read <==> bus.failAt >= 2)
    ensures l.state == Measure && r.lis.state == Read ==>
      r.transfers == CONTINUOUS_CONVERSION && r.next == now + DELAY_READ
    // A completed read stores the six bytes and goes on to the update.
    ensures l.state == Read && ReadCompletes(l, bus) ==>
      (&& r.lis.out == bus.axes
       && |r.transfers| >= 7 && r.transfers[..7] == READ_RESULT + (if l.alarmActive then [Read8(0x31)] else POWER_DOWN)
       && (l.hasHandler ==> |r.events| > 0 && r.events[0] == UpdateEvent))
    ensures l.state == Read && ReadCompletes(l, bus) && !l.alarmActive ==>
      r.lis.accelerometerValid && r.lis.state == Measure && r.events == Signal(l, UpdateEvent)
    // An alarm is reported exactly when the interrupt line fired and the status read succeeded.
    ensures AlarmEvent in r.events <==>
      (&& l.hasHandler && l.alarmActive && l.irqFlag
       && ((l.state == Update && bus.failAt > 0) || (l.state == Read && bus.failAt > 6)))
    ensures AlarmEvent in r.events ==> !r.lis.irqFlag
    // Every failure ends in an error report and a retry after the update interval.
    ensures ErrorEvent in r.events <==> l.hasHandler && r.lis.state == Initialize
    ensures r.lis.state == Initialize ==> !r.lis.accelerometerValid && r.next == now + l.updateInterval
    ensures r.lis.state in {Initialize, Measure, Read}
    ensures r.lis.alarmActive == l.alarmActive && r.lis.updateInterval == l.updateInterval
    ensures r.lis.hasHandler == l.hasHandler
  {
    match l.state
    case Error => ErrorRun(l, [], [], now)
    case Other(_) => ErrorRun(l, [], [], now)
    case Initialize =>
      var planned := [Read8(0x0f)] + POWER_DOWN;
      if bus.failAt == 0 then ErrorRun(l, [], Issued(planned, 0), now)
      else if bus.whoAmI != WHO_AM_I_VALUE then ErrorRun(l, [], [Read8(0x0f)], now)
      else if bus.failAt == 1 then ErrorRun(l, [], planned, now)
      else Run(l.(state := Measure), [], planned, now + l.updateInterval)
    case Measure =>
      if bus.failAt < 2 then ErrorRun(l, [], Issued(CONTINUOUS_CONVERSION, bus.failAt), now)
      else Run(l.(state := Read), [], CONTINUOUS_CONVERSION, now + DELAY_READ)
    case Read => ReadRun(l, bus, now)
    case Update => UpdateRun(l, bus, 0, [], now)
  }

  /** The read state: six register reads, a power-down unless the alarm
      is armed, then the update state in the same run. */
  function ReadRun(l: Lis, bus: Bus, now: nat): (r: Run)
    requires l.state == Read
    ensures ReadCompletes(l, bus) ==>
      (&& r.lis.out == bus.axes
       && |r.transfers| >= 7 && r.transfers[..7] == READ_RESULT + (if l.alarmActive then [Read8(0x31)] else POWER_DOWN)
       && (l.hasHandler ==> |r.events| > 0 && r.events[0] == UpdateEvent))
    ensures ReadCompletes(l, bus) && !l.alarmActive ==>
      r.lis.accelerometerValid && r.lis.state == Measure && r.events == Signal(l, UpdateEvent)
    ensures !ReadCompletes(l, bus) ==> r.lis.state == Initialize && r.events == Signal(l, ErrorEvent)
    ensures AlarmEvent in r.events <==> l.hasHandler && l.alarmActive && l.irqFlag && bus.failAt > 6
    ensures AlarmEvent in r.events ==> !r.lis.irqFlag
    ensures ErrorEvent in r.events <==> l.hasHandler && r.lis.state == Initialize
    ensures r.lis.state == Initialize ==> !r.lis.accelerometerValid
    ensures r.lis.state in {Initialize, Measure}
    ensures r.next == now + l.updateInterval
    ensures r.lis.alarmActive == l.alarmActive && r.lis.updateInterval == l.updateInterval
    ensures r.lis.hasHandler == l.hasHandler
  {
    var l1 := l.(out := StoreAxes(l.out, bus.axes, bus.failAt));
    if bus.failAt < 6 then ErrorRun(l1, [], Issued(READ_RESULT, bus.failAt), now)
    else if !l.alarmActive && bus.failAt == 6 then ErrorRun(l1, [], READ_RESULT + POWER_DOWN, now)
    else
      var t := READ_RESULT + (if l.alarmActive then [] else POWER_DOWN);
      UpdateRun(l1.(accelerometerValid := true), bus, |t|, t, now)
  }

  /** `bc_lis2dh12_signalize`: the interrupt line has fired. */
  function Signalize(l: Lis): (r: Lis)
    ensures r.irqFlag && r.(irqFlag := l.irqFlag) == l
  {
    l.(irqFlag := true)
  }

  /** The alarm of `bc_lis2dh12_set_alarm`: which of the six direction
      events raise it, and the threshold and duration register values (the
      float conversion of the threshold is not modelled). */
  datatype Alarm = Alarm(
    thresholdRegister: Byte,
    durationRegister: Byte,
    zHigh: bool, zLow: bool, yHigh: bool, yLow: bool, xHigh: bool, xLow: bool)

  function Flag(b: bool): nat
  {
    if b then 1 else 0
  }

  /** INT1_CFG: one enable bit per direction event, XLIE at bit 0 up to
      ZHIE at bit 5, combined with OR (AOI = 0, 6D = 0). The bits are
      distinct, so the OR of the shifted flags is their positional sum,
      written here least significant bit first. */
  function InterruptConfig(a: Alarm): (cfg: Byte)
  {
    Flag(a.xLow) + 2 * (Flag(a.xHigh) + 2 * (Flag(a.yLow) + 2 * (Flag(a.yHigh)
      + 2 * (Flag(a.zLow) + 2 * Flag(a.zHigh)))))
  }

  /** Each enabled direction sets exactly its own bit of INT1_CFG, and the
      two top bits stay clear. */
  lemma InterruptConfigBits(a: Alarm)
    ensures Bit(InterruptConfig(a), 5) == a.zHigh && Bit(InterruptConfig(a), 4) == a.zLow
    ensures Bit(InterruptConfig(a), 3) == a.yHigh && Bit(InterruptConfig(a), 2) == a.yLow
    ensures Bit(InterruptConfig(a), 1) == a.xHigh && Bit(InterruptConfig(a), 0) == a.xLow
    ensures InterruptConfig(a) < 64
  {
    var m4 := Flag(a.zLow) + 2 * Flag(a.zHigh);
    var m3 := Flag(a.yHigh) + 2 * m4;
    var m2 := Flag(a.yLow) + 2 * m3;
    var m1 := Flag(a.xHigh) + 2 * m2;
    var cfg := Flag(a.xLow) + 2 * m1;
    assert cfg / 2 == m1 && m1 / 2 == m2 && m2 / 2 == m3 && m3 / 2 == m4 && m4 / 2 == Flag(a.zHigh);
    assert Bit(cfg, 5) == Bit(m1, 4) == Bit(m2, 3) == Bit(m3, 2) == Bit(m4, 1) == Bit(Flag(a.zHigh), 0);
    assert Bit(cfg, 4) == Bit(m1, 3) == Bit(m2, 2) == Bit(m3, 1) == Bit(m4, 0);
    assert Bit(cfg, 3) == Bit(m1, 2) == Bit(m2, 1) == Bit(m3, 0);
    assert Bit(cfg, 2) == Bit(m1, 1) == Bit(m2, 0);
  }

  /** The register writes of `bc_lis2dh12_set_alarm`: with an alarm,
      disable the interrupt, set threshold and duration, route the
      interrupt to INT1, invert its polarity, leave it unlatched, and
      enable the chosen directions; without one, only disable it. */
  function AlarmWrites(alarm: Option<Alarm>): (t: seq<Transfer>)
    ensures alarm.None? ==> t == [Write8(0x30, 0x00)]
    ensures alarm.Some? ==> |t| == 7 && t[0] == Write8(0x30, 0x00) && t[6] == Write8(0x30, InterruptConfig(alarm.value))
  {
    match alarm
    case None => [Write8(0x30, 0x00)]
    case Some(a) =>
      [ Write8(0x30, 0x00), Write8(0x32, a.thresholdRegister), Write8(0x33, a.durationRegister),
        Write8(0x22, 0x40), Write8(0x25, 0x02), Write8(0x24, 0x00), Write8(0x30, InterruptConfig(a)) ]
  }

  /** `bc_lis2dh12_set_alarm`: arm or disarm the alarm flag first, then
      write the registers, stopping at the first failed write. */
  function SetAlarm(l: Lis, alarm: Option<Alarm>, failAt: nat): (r: (Lis, bool, seq<Transfer>))
    ensures r.0 == l.(alarmActive := alarm.Some?)
    ensures r.1 <==> failAt >= |AlarmWrites(alarm)|
    ensures r.2 == Issued(AlarmWrites(alarm), failAt)
  {
    var planned := AlarmWrites(alarm);
    (l.(alarmActive := alarm.Some?), failAt >= |planned|, Issued(planned, failAt))
  }

  /** A healthy start: identity check and power-down, conversion, read
      and update, with the delays 'update interval', 10 and 'update
      interval' between the runs. */
  lemma HealthyCycle(axes: Axes, t0: nat)
    ensures var l := Init();
      var bus := Bus(100, WHO_AM_I_VALUE, axes);
      var r1 := Task(l, bus, t0);
      var r2 := Task(r1.lis, bus, r1.next);
      var r3 := Task(r2.lis, bus, r2.next);
      && r1.lis.state == Measure && r1.next == t0 + 50
      && r2.lis.state == Read && r2.next == t0 + 60
      && r3.lis.state == Measure && r3.lis.accelerometerValid && r3.lis.out == axes
      && r3.next == t0 + 110
  {
  }

  /** An alarm is reported once per interrupt: after it has been reported
      the next update reports none until the line fires again. */
  lemma AlarmOncePerInterrupt(l: Lis, bus: Bus, now: nat, bus2: Bus, now2: nat)
    requires l.state == Update && l.alarmActive && l.irqFlag && l.hasHandler && bus.failAt > 0
    ensures var r := Task(l, bus, now);
      && AlarmEvent in r.events
      && AlarmEvent !in Task(r.lis.(state := Update), bus2, now2).events
  {
  }
}

=== FILE: module_sensor.dfy ===
/** The Sensor Module driver of bcl/src/bc_module_sensor.c. Two sensor
    channels share a TCA9534A I/O expander whose direction register
    switches each channel's supply and pull-up: bits 4 and 5 for channel A
    (supply, 4.7 kOhm enable), bits 7 and 6 for channel B. A direction bit
    of 1 leaves the expander pin as a high-impedance input; clearing it
    makes the expander drive the pin. The expander and GPIO calls are
    effects; whether the expander accepts a write is a parameter. */
module ModuleSensor {
  import opened Common
  import Button

  /** `bc_module_channel_t`: channel A is 0 and channel B is 1; a channel
      is passed as an integer because the driver handles other values. */
  const CHANNEL_A: int := 0
  const CHANNEL_B: int := 1

  /** `bc_module_pull_t`. */
  datatype Pull = PullNone | Pull4k7 | Pull56

  /** `_BC_MODULE_SENSOR_CH_*`. */
  const CH_A_VDD: bv8 := 0x10
  const CH_A_EN: bv8 := 0x20
  const CH_B_EN: bv8 := 0x40
  const CH_B_VDD: bv8 := 0x80

  /** The GPIO pins of the two channels. */
  datatype Pin = P4 | P5

  datatype Effect =
    | ExpanderInit(address: nat)
    | WritePort(value: bv8)
    | SetDirection(value: bv8)
    | GpioInit(pin: Pin)
    | GpioOutputMode(pin: Pin)
    | GpioSet(pin: Pin, level: bool)

  /** The cached direction register and the buttons attached to each
      channel, if any. */
  datatype Sensor = Sensor(direction: bv8, buttonA: Option<Button.Button>, buttonB: Option<Button.Button>)

  /** `bc_module_sensor_init`: initialise the expander at address 0x3e,
      drive all its outputs low, then make every pin an input. Each step
      stops the sequence on failure; the cached direction becomes 0xff
      once the port write has succeeded. */
  function Init(s: Sensor, initOk: bool, writeOk: bool, directionOk: bool): (r: (Sensor, bool, seq<Effect>))
    ensures r.1 <==> initOk && writeOk && directionOk
    ensures r.0.direction == (if initOk && writeOk then 0xff else s.direction)
    ensures r.2 <= [ExpanderInit(0x3e), WritePort(0x00), SetDirection(0xff)]
    ensures |r.2| == if !initOk then 1 else if !writeOk then 2 else 3
    ensures r.0.buttonA == s.buttonA && r.0.buttonB == s.buttonB
  {
    if !initOk then (s, false, [ExpanderInit(0x3e)])
    else if !writeOk then (s, false, [ExpanderInit(0x3e), WritePort(0x00)])
    else (s.(direction := 0xff), directionOk, [ExpanderInit(0x3e), WritePort(0x00), SetDirection(0xff)])
  }

  /** The direction register after `bc_module_sensor_set_pull`: both bits
      of the channel set, then the enable bit cleared for the 4.7 kOhm
      pull-up, or the supply bit cleared for the 56 Ohm one. Any channel
      other than A is treated as channel B. */
  function PullDirection(direction: bv8, channel: int, pull: Pull): (d: bv8)
  {
    if channel == CHANNEL_A then
      var d := direction | CH_A_VDD | CH_A_EN;
      if pull == Pull4k7 then d & !CH_A_EN
      else if pull == Pull56 then d & !CH_A_VDD
      else d
    else
      var d := direction | CH_B_EN | CH_B_VDD;
      if pull == Pull4k7 then d & !CH_B_EN
      else if pull == Pull56 then d & !CH_B_VDD
      else d
  }

  /** The enable bit is driven (cleared) exactly for the 4.7 kOhm pull-up,
      the supply bit exactly for the 56 Ohm one; every other bit of the
      register is kept. */
  lemma PullDirectionBits(direction: bv8, channel: int, pull: Pull)
    ensures var d := PullDirection(direction, channel, pull);
      var (en, vdd) := if channel == CHANNEL_A then (CH_A_EN, CH_A_VDD) else (CH_B_EN, CH_B_VDD);
      && ((d & en == 0) <==> pull == Pull4k7)
      && ((d & vdd == 0) <==> pull == Pull56)
      && d & !(en | vdd) == direction & !(en | vdd)
  {
  }

  /** `bc_module_sensor_set_pull`: update the cached register and write it
      to the expander; the result is the expander's. */
  function SetPull(s: Sensor, channel: int, pull: Pull, ok: bool): (r: (Sensor, bool, seq<Effect>))
    ensures r.0 == s.(direction := PullDirection(s.direction, channel, pull))
    ensures r.1 == ok
    ensures r.2 == [SetDirection(r.0.direction)]
  {
    var d := PullDirection(s.direction, channel, pull);
    (s.(direction := d), ok, [SetDirection(d)])
  }

  /** Setting the same pull twice is setting it once. */
  lemma SetPullIdempotent(s: Sensor, channel: int, pull: Pull, ok: bool)
    ensures SetPull(SetPull(s, channel, pull, ok).0, channel, pull, ok).0 == SetPull(s, channel, pull, ok).0
  {
  }

  /** The two channels' bits are disjoint: setting the pull of one channel
      leaves what the other channel's pull selected. */
  lemma PullChannelsIndependent(direction: bv8, pa: Pull, pb: Pull)
    ensures PullDirection(PullDirection(direction, CHANNEL_A, pa), CHANNEL_B, pb)
         == PullDirection(PullDirection(direction, CHANNEL_B, pb), CHANNEL_A, pa)
  {
  }

  /** The button the driver attaches to a channel: active low with the
      pin's pull-up, so idle at the high level. */
  function ChannelButton(hasHandler: bool): (b: Button.Button)
    ensures b.config.idleState && b.config.hasHandler == hasHandler && !b.state
  {
    var b := Button.Init(true);
    b.(config := b.config.(hasHandler := hasHandler))
  }

  /** `bc_module_sensor_set_button_input_mode`: the 4.7 kOhm pull-up on
      the channel and a button on its pin (P4 for A, P5 for B); false, and
      nothing done, for any other channel. The result of the pull-up write
      is not looked at. */
  function SetButtonInputMode(s: Sensor, channel: int, hasHandler: bool, ok: bool): (r: (Sensor, bool, seq<Effect>))
    ensures r.1 <==> channel == CHANNEL_A || channel == CHANNEL_B
    ensures !r.1 ==> r.0 == s && r.2 == []
    ensures r.1 ==> r.0.direction == PullDirection(s.direction, channel, Pull4k7)
    ensures channel == CHANNEL_A ==> r.0.buttonA == Some(ChannelButton(hasHandler)) && r.0.buttonB == s.buttonB
    ensures channel == CHANNEL_B ==> r.0.buttonB == Some(ChannelButton(hasHandler)) && r.0.buttonA == s.buttonA
  {
    if channel == CHANNEL_A then
      var p := SetPull(s, CHANNEL_A, Pull4k7, ok);
      (p.0.(buttonA := Some(ChannelButton(hasHandler))), true, p.2)
    else if channel == CHANNEL_B then
      var p := SetPull(s, CHANNEL_B, Pull4k7, ok);
      (p.0.(buttonB := Some(ChannelButton(hasHandler))), true, p.2)
    else (s, false, [])
  }

  /** The pin of a channel: P4 for A, P5 for B, none otherwise. */
  function ChannelPin(channel: int): (p: Option<Pin>)
    ensures p.Some? <==> channel == CHANNEL_A || channel == CHANNEL_B
    ensures channel == CHANNEL_A ==> p == Some(P4)
    ensures channel == CHANNEL_B ==> p == Some(P5)
  {
    if channel == CHANNEL_A then Some(P4)
    else if channel == CHANNEL_B then Some(P5)
    else None
  }

  /** `bc_module_sensor_set_digital_output_mode`: the channel's pin as an
      output; false for any other channel. */
  function SetDigitalOutputMode(channel: int): (r: (bool, seq<Effect>))
    ensures r.1 == (match ChannelPin(channel) case Some(p) => [GpioInit(p), GpioOutputMode(p)] case None => [])
    ensures r.0 <==> ChannelPin(channel).Some?
  {
    if channel == CHANNEL_A then (true, [GpioInit(P4), GpioOutputMode(P4)])
    else if channel == CHANNEL_B then (true, [GpioInit(P5), GpioOutputMode(P5)])
    else (false, [])
  }

  /** `bc_module_sensor_set_digital_output` as written: the cases of its
      switch have no `break`, so every channel falls through to the
      default and the pin set is always P4. */
  function SetDigitalOutputAsWritten(channel: int, value: bool): (e: Effect)
  {
    // Case A assigns P4 and falls into case B, which assigns P5 and falls
    // into the default, which assigns P4: the last assignment wins.
    GpioSet(P4, value)
  }

  /** Channel B's output goes to channel A's pin. */
  lemma DigitalOutputAsWrittenMissesB(value: bool)
    ensures SetDigitalOutputAsWritten(CHANNEL_B, value) == GpioSet(P4, value)
    ensures SetDigitalOutputMode(CHANNEL_B).1 == [GpioInit(P5), GpioOutputMode(P5)]
  {
  }

  /** `bc_module_sensor_set_digital_output` as intended: the pin of the
      channel, P4 for any other channel (the default case). */
  function SetDigitalOutput(channel: int, value: bool): (e: Effect)
    ensures e.GpioSet? && e.level == value
    ensures ChannelPin(channel).Some? ==> e.pin == ChannelPin(channel).value
    ensures ChannelPin(channel).None? ==> e.pin == P4
  {
    if channel == CHANNEL_B then GpioSet(P5, value) else GpioSet(P4, value)
  }

  /** Corrected, an output set through a channel goes to the pin its
      output mode configured. */
  lemma DigitalOutputUsesConfiguredPin(channel: int, value: bool)
    requires SetDigitalOutputMode(channel).0
    ensures SetDigitalOutputMode(channel).1[1] == GpioOutputMode(SetDigitalOutput(channel, value).pin)
  {
  }
}

=== FILE: peer_directory.dfy ===
/** The radio's peer directory (`peer_devices` and `peer_devices_lenght`
    in bcl/src/bc_radio.c): a dense array of peer records, here a
    sequence. This module holds the pure list operations; the radio module
    adds the events and persistence that the source wraps around them. */
module PeerDirectory {
  import opened Common

  /** `bc_radio_peer_device_t`. */
  datatype Peer = Peer(address: U64, messageId: U16, synced: bool)

  type Directory = seq<Peer>

  predicate Contains(dir: Directory, address: U64)
  {
    exists i :: 0 <= i < |dir| && dir[i].address == address
  }

  /** No address occurs twice. */
  ghost predicate Unique(dir: Directory)
  {
    forall i, j :: 0 <= i < j < |dir| ==> dir[i].address != dir[j].address
  }

  function Addresses(dir: Directory): (r: seq<U64>)
    ensures |r| == |dir|
    ensures forall i :: 0 <= i < |dir| ==> r[i] == dir[i].address
  {
    seq(|dir|, i requires 0 <= i < |dir| => dir[i].address)
  }

  /** `bc_radio_is_peer_device`: a linear scan from the front. */
  method IsPeerDevice(dir: Directory, address: U64) returns (found: bool)
    ensures found <==> Contains(dir, address)
  {
    var i := 0;
    while i < |dir|
      invariant 0 <= i <= |dir|
      invariant forall k :: 0 <= k < i ==> dir[k].address != address
    {
      if address == dir[i].address {
        return true;
      }
      i := i + 1;
    }
    return false;
  }

  /** Index of the first record with the address, as the loops in the
      remove and receive paths find it. */
  function Find(dir: Directory, address: U64): (r: Option<nat>)
    ensures r.None? <==> !Contains(dir, address)
    ensures r.Some? ==> r.value < |dir| && dir[r.value].address == address
    ensures r.Some? ==> forall k :: 0 <= k < r.value ==> dir[k].address != address
  {
    if |dir| == 0 then None
    else if dir[0].address == address then Some(0)
    else
      var rest := Find(dir[1..], address);
      assert Contains(dir, address) ==> Contains(dir[1..], address) by {
        if Contains(dir, address) {
          var i :| 0 <= i < |dir| && dir[i].address == address;
          assert dir[1..][i - 1].address == address;
        }
      }
      match rest
      case None => None
      case Some(k) => Some(k + 1)
  }

  /** The new record that `_bc_radio_peer_device_add` writes: the id is
      not written by the source, which does not matter because an unsynced
      record accepts its first frame whatever the id. */
  function Fresh(address: U64): Peer
  {
    Peer(address, 0, false)
  }

  /** The swap-remove of `_bc_radio_peer_device_remove`: the last record
      moves into the freed slot and the length drops by one. */
  function SwapRemove(dir: Directory, i: nat): (r: Directory)
    requires i < |dir|
    ensures |r| == |dir| - 1
    ensures i < |r| ==> r[i] == dir[|dir| - 1]
    ensures forall k :: 0 <= k < |r| && k != i ==> r[k] == dir[k]
  {
    var last := |dir| - 1;
    if i != last then dir[..last][i := dir[last]] else dir[..last]
  }

  /** Swap-remove keeps every other record and drops exactly the removed
      one from the multiset of records. */
  lemma SwapRemoveMultiset(dir: Directory, i: nat)
    requires i < |dir|
    ensures multiset(SwapRemove(dir, i)) + multiset{dir[i]} == multiset(dir)
  {
    var last := |dir| - 1;
    assert dir == dir[..last] + [dir[last]];
    if i != last {
      var pre := dir[..last];
      assert pre == pre[..i] + [dir[i]] + pre[i + 1..];
      assert SwapRemove(dir, i) == pre[..i] + [dir[last]] + pre[i + 1..];
    }
  }

  /** Swap-remove keeps the directory free of duplicates and removes the
      address completely. */
  lemma SwapRemoveUnique(dir: Directory, i: nat)
    requires i < |dir| && Unique(dir)
    ensures Unique(SwapRemove(dir, i))
    ensures !Contains(SwapRemove(dir, i), dir[i].address)
  {
    var r := SwapRemove(dir, i);
    var last := |dir| - 1;
    forall a, b | 0 <= a < b < |r|
      ensures r[a].address != r[b].address
    {
      var a' := if a == i then last else a;
      var b' := if b == i then last else b;
      assert r[a] == dir[a'] && r[b] == dir[b'];
    }
    forall k | 0 <= k < |r|
      ensures r[k].address != dir[i].address
    {
      var k' := if k == i then last else k;
      assert r[k] == dir[k'] && k' != i;
    }
  }

  /** Appending an absent address keeps the directory free of duplicates. */
  lemma AppendUnique(dir: Directory, p: Peer)
    requires Unique(dir) && !Contains(dir, p.address)
    ensures Unique(dir + [p])
  {
    var r := dir + [p];
    forall a, b | 0 <= a < b < |r|
      ensures r[a].address != r[b].address
    {
      if b == |dir| {
        assert r[a] == dir[a];
      }
    }
  }

  /** `bc_radio_get_peer_devices_address`: the first `length` slots of the
      caller's array receive the directory's addresses in order, and the
      slots past the directory's end receive 0. A negative length writes
      nothing. */
  method GetAddresses(dir: Directory, length: int) returns (out: seq<U64>)
    ensures |out| == if length < 0 then 0 else length
    ensures forall i :: 0 <= i < |out| && i < |dir| ==> out[i] == dir[i].address
    ensures forall i :: |dir| <= i < |out| ==> out[i] == 0
  {
    out := [];
    var i := 0;
    while i < |dir| && i < length
      invariant 0 <= i <= |dir| && |out| == i
      invariant i == 0 || i <= length
      invariant forall k :: 0 <= k < i ==> out[k] == dir[k].address
    {
      out := out + [dir[i].address];
      i := i + 1;
    }
    while i < length
      invariant |out| == i
      invariant i == 0 || i <= length
      invariant forall k :: 0 <= k < i && k < |dir| ==> out[k] == dir[k].address
      invariant forall k :: |dir| <= k < i ==> out[k] == 0
    {
      out := out + [0];
      i := i + 1;
    }
  }
}

=== FILE: peer_store.dfy ===
/** Persistence of the peer directory in bcl/src/bc_radio.c
    (`_bc_radio_save_peer_devices`, `_bc_radio_load_peer_devices`,
    `_bc_radio_load_old_peer_devices`). The EEPROM's last byte holds the
    number of peers; below the 8-byte tail, record i occupies the 24 bytes
    ending 24 * i bytes lower. A record holds three little-endian copies of
    the address, with the 32-bit words 2 and 5 (the low half of the second
    copy and the high half of the third) stored inverted. An older firmware
    kept a plain array of addresses at offset 0, closed by a word that makes
    the XOR of the whole array zero. */
module PeerStore {
  import opened Common
  import opened RadioFrame
  import opened PeerDirectory

  const RECORD_SIZE: nat := 24
  const TAIL_SIZE: nat := 8

  /** The EEPROM contents and the offsets at which a write operation fails
      (a hardware outcome). A failed write leaves the contents as they
      were; reads always succeed. */
  datatype Eeprom = Eeprom(mem: seq<Byte>, faulty: set<nat>)

  datatype Written = Written(eeprom: Eeprom, ok: bool)

  /** The bytes of mem with data stored from offset on. */
  function Overwrite(mem: seq<Byte>, offset: nat, data: seq<Byte>): (m: seq<Byte>)
    requires offset + |data| <= |mem|
    ensures |m| == |mem|
    ensures forall j :: 0 <= j < |data| ==> m[offset + j] == data[j]
    ensures forall k {:trigger m[k]} :: 0 <= k < |mem| && !(offset <= k < offset + |data|) ==> m[k] == mem[k]
    decreases |data|
  {
    if |data| == 0 then mem else Overwrite(mem[offset := data[0]], offset + 1, data[1..])
  }

  /** `bc_eeprom_write`. */
  function Write(e: Eeprom, offset: nat, data: seq<Byte>): (r: Written)
    requires offset + |data| <= |e.mem|
    ensures r.ok <==> offset !in e.faulty
    ensures r.eeprom.faulty == e.faulty && |r.eeprom.mem| == |e.mem|
    ensures r.ok ==> forall j :: 0 <= j < |data| ==> r.eeprom.mem[offset + j] == data[j]
    ensures forall k {:trigger r.eeprom.mem[k]} :: 0 <= k < |e.mem| && !(offset <= k < offset + |data|) ==>
      r.eeprom.mem[k] == e.mem[k]
    ensures !r.ok ==> r.eeprom == e
  {
    if offset in e.faulty then Written(e, false)
    else Written(e.(mem := Overwrite(e.mem, offset, data)), true)
  }

  /** The stored bytes from offset on equal data. */
  predicate Matches(mem: seq<Byte>, offset: nat, data: seq<Byte>)
    requires offset + |data| <= |mem|
    decreases |data|
  {
    |data| == 0 || (mem[offset] == data[0] && Matches(mem, offset + 1, data[1..]))
  }

  lemma {:induction false} MatchesSlice(mem: seq<Byte>, offset: nat, data: seq<Byte>)
    requires offset + |data| <= |mem|
    ensures Matches(mem, offset, data) <==> mem[offset..offset + |data|] == data
    decreases |data|
  {
    if |data| > 0 {
      MatchesSlice(mem, offset + 1, data[1..]);
      assert mem[offset..offset + |data|] == [mem[offset]] + mem[offset + 1..offset + |data|];
      assert data == [data[0]] + data[1..];
    }
  }

  /** Lower end of the area taken by the first n records. */
  function Low(size: nat, n: nat): int
  {
    size - TAIL_SIZE - RECORD_SIZE * n
  }

  /** The EEPROM has room for n records below its tail. */
  predicate Room(size: nat, n: nat)
  {
    Low(size, n) >= 0
  }

  lemma RoomMonotone(size: nat, m: nat, n: nat)
    requires m <= n && Room(size, n)
    ensures Room(size, m)
  {
  }

  /** The 24 stored bytes of record i. */
  function RecordAt(mem: seq<Byte>, i: nat): (rec: seq<Byte>)
    requires Room(|mem|, i + 1)
    ensures |rec| == RECORD_SIZE
  {
    mem[Low(|mem|, i + 1)..Low(|mem|, i)]
  }

  /** Inversion of 32-bit words 2 and 5 of a record: bytes 8-11 and 20-23. */
  predicate Inverted(j: int)
  {
    8 <= j < 12 || 20 <= j < 24
  }

  function Flip(rec: seq<Byte>): (r: seq<Byte>)
    requires |rec| == RECORD_SIZE
    ensures |r| == RECORD_SIZE
    ensures forall j :: 0 <= j < RECORD_SIZE ==> r[j] == if Inverted(j) then 255 - rec[j] else rec[j]
  {
    seq(RECORD_SIZE, j requires 0 <= j < RECORD_SIZE => if Inverted(j) then 255 - rec[j] else rec[j])
  }

  /** Inverting the same words twice restores the record, so load undoes
      exactly what save applies. */
  lemma FlipInvolution(rec: seq<Byte>)
    requires |rec| == RECORD_SIZE
    ensures Flip(Flip(rec)) == rec
  {
  }

  /** The record save writes for an address. */
  function EncodeRecord(address: U64): (rec: seq<Byte>)
    ensures |rec| == RECORD_SIZE
  {
    var w := LeBytes(address, 8);
    Flip(w + w + w)
  }

  /** Outcome of reading one record. */
  datatype Vote = Accept(address: U64, repaired: bool) | Reject

  /** The majority rule of the load loop: the first copy wins if another
      copy agrees with it; otherwise the second copy wins, with a repair
      requested, if the last two agree; otherwise the record is skipped. */
  function MajorityOf(c0: U64, c1: U64, c2: U64): (v: Vote)
    ensures v.Accept? <==> c0 == c1 || c0 == c2 || c1 == c2
    ensures v.Accept? ==> Agreeing(c0, c1, c2, v.address) >= 2
    ensures v.Accept? ==> (v.repaired <==> v.address != c0)
  {
    if c0 == c1 || c0 == c2 then Accept(c0, false)
    else if c1 == c2 then Accept(c1, true)
    else Reject
  }

  /** How many of the copies equal an address. */
  function Agreeing(c0: U64, c1: U64, c2: U64, a: U64): nat
  {
    (if c0 == a then 1 else 0) + (if c1 == a then 1 else 0) + (if c2 == a then 1 else 0)
  }

  /** The vote over the three copies stored in a record. */
  function ReadRecord(rec: seq<Byte>): Vote
    requires |rec| == RECORD_SIZE
  {
    var x := Flip(rec);
    MajorityOf(Word64(x[..8]), Word64(x[8..16]), Word64(x[16..24]))
  }

  /** A record as save writes it reads back as its address, with no repair. */
  lemma ReadEncodedRecord(address: U64)
    ensures ReadRecord(EncodeRecord(address)) == Accept(address, false)
  {
    var w := LeBytes(address, 8);
    FlipInvolution(w + w + w);
    var x := Flip(EncodeRecord(address));
    assert x[..8] == w && x[8..16] == w && x[16..24] == w;
    Pow256Values();
    LeRoundTrip(address, 8);
  }

  /** Damage confined to one of the three copies of a record is outvoted:
      the record still reads as the saved address. */
  lemma OneCopyDamaged(address: U64, rec: seq<Byte>, k: nat)
    requires |rec| == RECORD_SIZE && k < 3
    requires forall j :: 0 <= j < RECORD_SIZE && !(8 * k <= j < 8 * k + 8) ==> rec[j] == EncodeRecord(address)[j]
    ensures ReadRecord(rec).Accept? && ReadRecord(rec).address == address
  {
    var w := LeBytes(address, 8);
    var good := w + w + w;
    FlipInvolution(good);
    var x := Flip(rec);
    forall j | 0 <= j < RECORD_SIZE && !(8 * k <= j < 8 * k + 8)
      ensures x[j] == good[j]
    {
      assert Flip(EncodeRecord(address))[j] == good[j];
    }
    Pow256Values();
    LeRoundTrip(address, 8);
    if k != 0 {
      assert x[..8] == w;
    }
    if k != 1 {
      assert x[8..16] == w;
    }
    if k != 2 {
      assert x[16..24] == w;
    }
  }

  datatype Loaded = Loaded(addresses: seq<U64>, repaired: bool)

  /** The load loop over the first n records, in order: a rejected record
      is skipped, a zero address is not added, and any repair is
      remembered. */
  function LoadRecords(mem: seq<Byte>, n: nat): (r: Loaded)
    requires Room(|mem|, n)
    ensures |r.addresses| <= n
    ensures forall i :: 0 <= i < |r.addresses| ==> r.addresses[i] != 0
  {
    if n == 0 then Loaded([], false)
    else
      var prev := LoadRecords(mem, n - 1);
      match ReadRecord(RecordAt(mem, n - 1))
      case Reject => prev
      case Accept(a, repaired) =>
        Loaded(if a != 0 then prev.addresses + [a] else prev.addresses, prev.repaired || repaired)
  }

  /** The votes of the first n records, in record order. */
  function Votes(mem: seq<Byte>, n: nat): (vs: seq<Vote>)
    requires Room(|mem|, n)
    ensures |vs| == n
  {
    seq(n, i requires 0 <= i < n => ReadRecord(RecordAt(mem, i)))
  }

  /** The load loop over a list of votes: the loop of `LoadRecords` with the
      reading of each record factored out. */
  function Collect(vs: seq<Vote>): Loaded
  {
    if |vs| == 0 then Loaded([], false)
    else
      var prev := Collect(vs[..|vs| - 1]);
      match vs[|vs| - 1]
      case Reject => prev
      case Accept(a, repaired) =>
        Loaded(if a != 0 then prev.addresses + [a] else prev.addresses, prev.repaired || repaired)
  }

  /** The load loop is the collection of the records' votes. */
  lemma {:induction false} LoadRecordsCollects(mem: seq<Byte>, n: nat)
    requires Room(|mem|, n)
    ensures LoadRecords(mem, n) == Collect(Votes(mem, n))
  {
    if n > 0 {
      RoomMonotone(|mem|, n - 1, n);
      LoadRecordsCollects(mem, n - 1);
      assert Votes(mem, n)[..n - 1] == Votes(mem, n - 1);
    }
  }

  /** Collecting keeps exactly the nonzero addresses some vote accepts: a
      rejected record contributes nothing. */
  lemma {:induction false} CollectContents(vs: seq<Vote>, a: U64)
    ensures a in Collect(vs).addresses <==> a != 0 && exists i :: 0 <= i < |vs| && vs[i].Accept? && vs[i].address == a
  {
    if |vs| > 0 {
      var init := vs[..|vs| - 1];
      CollectContents(init, a);
      if exists i :: 0 <= i < |vs| && vs[i].Accept? && vs[i].address == a {
        var i :| 0 <= i < |vs| && vs[i].Accept? && vs[i].address == a;
        if i < |vs| - 1 {
          assert init[i] == vs[i];
        }
      }
      if exists i :: 0 <= i < |init| && init[i].Accept? && init[i].address == a {
        var i :| 0 <= i < |init| && init[i].Accept? && init[i].address == a;
        assert vs[i] == init[i];
      }
    }
  }

  /** One vote won by the second and third copies marks the whole
      collection as repaired. */
  lemma {:induction false} CollectRepaired(vs: seq<Vote>, i: nat)
    requires i < |vs| && vs[i].Accept? && vs[i].repaired
    ensures Collect(vs).repaired
  {
    if i < |vs| - 1 {
      assert vs[..|vs| - 1][i] == vs[i];
      CollectRepaired(vs[..|vs| - 1], i);
    }
  }

  /** The 64-bit words of the legacy table at offset 0. */
  function OldWords(mem: seq<Byte>, n: nat): (ws: seq<U64>)
    requires 8 * n <= |mem|
    ensures |ws| == n
  {
    if n == 0 then [] else OldWords(mem, n - 1) + [Word64(mem[8 * (n - 1)..8 * n])]
  }

  /** Bitwise exclusive or, bit by bit from the lowest. */
  function Xor(a: nat, b: nat): nat
    decreases a + b
  {
    if a == 0 then b
    else if b == 0 then a
    else 2 * Xor(a / 2, b / 2) + (if a % 2 == b % 2 then 0 else 1)
  }

  /** The lowest bit of a XOR is the XOR of the lowest bits, and the higher
      bits are the XOR of the higher bits. */
  lemma XorHalves(a: nat, b: nat)
    ensures Xor(a, b) % 2 == if a % 2 == b % 2 then 0 else 1
    ensures Xor(a, b) / 2 == Xor(a / 2, b / 2)
  {
    if a == 0 {
      assert a / 2 == 0;
    } else if b == 0 {
      assert b / 2 == 0;
    } else {
      HalfAndParity(Xor(a / 2, b / 2), if a % 2 == b % 2 then 0 else 1);
    }
  }

  lemma HalfAndParity(q: nat, r: nat)
    requires r < 2
    ensures (2 * q + r) % 2 == r && (2 * q + r) / 2 == q
  {
  }

  lemma {:induction false} XorSelf(a: nat)
    ensures Xor(a, a) == 0
    decreases a
  {
    if a > 0 {
      XorSelf(a / 2);
    }
  }

  /** Equality of two naturals from their lowest bit and the rest. */
  lemma BitsEqual(x: nat, y: nat)
    requires x % 2 == y % 2 && x / 2 == y / 2
    ensures x == y
  {
  }

  lemma {:induction false} XorAssoc(a: nat, b: nat, c: nat)
    ensures Xor(Xor(a, b), c) == Xor(a, Xor(b, c))
    decreases a + b + c
  {
    if a + b + c > 0 {
      XorHalves(a, b);
      XorHalves(Xor(a, b), c);
      XorHalves(b, c);
      XorHalves(a, Xor(b, c));
      XorAssoc(a / 2, b / 2, c / 2);
      BitsEqual(Xor(Xor(a, b), c), Xor(a, Xor(b, c)));
    }
  }

  /** XOR of a run of words into an accumulator, first to last, as the
      checksum loop computes it. */
  function XorInto(acc: nat, ws: seq<U64>): nat
    decreases |ws|
  {
    if |ws| == 0 then acc else XorInto(Xor(acc, ws[0]), ws[1..])
  }

  /** The nonzero words, in order. */
  function NonZero(ws: seq<U64>): (r: seq<U64>)
    ensures |r| <= |ws|
    ensures forall i :: 0 <= i < |r| ==> r[i] != 0
    ensures forall a :: a in ws && a != 0 ==> a in r
  {
    if |ws| == 0 then []
    else
      var rest := NonZero(ws[1..]);
      assert forall a :: a in ws && a != ws[0] ==> a in ws[1..];
      (if ws[0] != 0 then [ws[0]] else []) + rest
  }

  /** `_bc_radio_load_old_peer_devices`: the legacy table of `max` words
      plus a checksum word is accepted when the XOR of all of them is zero;
      its nonzero words are then the peers. */
  function LoadOld(mem: seq<Byte>, max: nat): (r: seq<U64>)
    requires 8 * (max + 1) <= |mem|
    ensures |r| <= max
    ensures forall i :: 0 <= i < |r| ==> r[i] != 0
  {
    var ws := OldWords(mem, max + 1);
    if XorInto(ws[max], ws[..max]) == 0 then NonZero(ws[..max]) else []
  }

  /** Folding into an accumulator is XOR-ing the accumulator with the fold
      from zero. */
  lemma {:induction false} XorIntoSplit(acc: nat, ws: seq<U64>)
    ensures XorInto(acc, ws) == Xor(acc, XorInto(0, ws))
    decreases |ws|
  {
    if |ws| > 0 {
      var w, rest := ws[0], ws[1..];
      XorIntoSplit(Xor(acc, w), rest);
      XorIntoSplit(w, rest);
      XorAssoc(acc, w, XorInto(0, rest));
    }
  }

  /** A legacy table whose closing word is the XOR of the others passes the
      checksum, and every nonzero address in it is loaded. */
  lemma LoadOldAcceptsChecksummed(mem: seq<Byte>, max: nat)
    requires 8 * (max + 1) <= |mem|
    requires OldWords(mem, max + 1)[max] == XorInto(0, OldWords(mem, max + 1)[..max])
    ensures LoadOld(mem, max) == NonZero(OldWords(mem, max + 1)[..max])
  {
    var ws := OldWords(mem, max + 1);
    XorIntoSplit(ws[max], ws[..max]);
    XorSelf(ws[max]);
  }

  datatype LoadResult = LoadResult(peers: Directory, save: bool)

  /** The peers of a list of addresses as load creates them: unsynced. */
  function FreshAll(addresses: seq<U64>): (dir: Directory)
    ensures |dir| == |addresses|
    ensures forall i :: 0 <= i < |dir| ==> dir[i] == Fresh(addresses[i])
  {
    seq(|addresses|, i requires 0 <= i < |addresses| => Fresh(addresses[i]))
  }

  /** The EEPROM is large enough for `max` records and for the legacy
      table. */
  predicate Sized(size: nat, max: nat)
  {
    size >= 1 && Room(size, max) && 8 * (max + 1) <= size
  }

  /** The number of records load reads: the count in the last byte, but
      never more than the directory holds. */
  function LoadCount(mem: seq<Byte>, max: nat): (n: nat)
    requires |mem| >= 1
    ensures n <= max && n <= mem[|mem| - 1]
    ensures n == mem[|mem| - 1] || n == max
  {
    var count := mem[|mem| - 1];
    if count < max then count else max
  }

  /** `_bc_radio_load_peer_devices`: read the count from the last byte,
      load at most `max` records, and when that yields no peer fall back to
      the legacy table and ask for the directory to be saved in the current
      format. */
  function Load(mem: seq<Byte>, max: nat): (r: LoadResult)
    requires Sized(|mem|, max)
    ensures |r.peers| <= max
    ensures forall i :: 0 <= i < |r.peers| ==> r.peers[i].address != 0 && !r.peers[i].synced
    ensures |r.peers| == 0 ==> r.save
  {
    var n := LoadCount(mem, max);
    RoomMonotone(|mem|, n, max);
    var l := LoadRecords(mem, n);
    if |l.addresses| == 0 then LoadResult(FreshAll(LoadOld(mem, max)), true)
    else LoadResult(FreshAll(l.addresses), l.repaired)
  }

  /** A record that needed repair makes load ask for the directory to be
      saved again, whatever the other records hold. */
  lemma LoadRepairSaves(mem: seq<Byte>, max: nat, i: nat)
    requires Sized(|mem|, max) && i < LoadCount(mem, max)
    requires ReadRecord(RecordAt(mem, i)).Accept? && ReadRecord(RecordAt(mem, i)).repaired
    ensures Load(mem, max).save
  {
    var n := LoadCount(mem, max);
    RoomMonotone(|mem|, n, max);
    LoadRecordsCollects(mem, n);
    CollectRepaired(Votes(mem, n), i);
  }

  /** When some record yields a peer, the legacy table is not consulted:
      the peers are the nonzero addresses that the first records' votes
      accept, and a rejected record adds none. */
  lemma LoadFromRecords(mem: seq<Byte>, max: nat, a: U64)
    requires Sized(|mem|, max)
    requires |LoadRecords(mem, LoadCount(mem, max)).addresses| > 0
    ensures Load(mem, max).peers == FreshAll(LoadRecords(mem, LoadCount(mem, max)).addresses)
    ensures var vs := Votes(mem, LoadCount(mem, max));
      (a in LoadRecords(mem, LoadCount(mem, max)).addresses
       <==> a != 0 && exists i :: 0 <= i < |vs| && vs[i].Accept? && vs[i].address == a)
  {
    LoadRecordsCollects(mem, LoadCount(mem, max));
    CollectContents(Votes(mem, LoadCount(mem, max)), a);
  }

  datatype Saved = Saved(eeprom: Eeprom, ok: bool, writes: seq<nat>)

  type Record = s: seq<Byte> | |s| == RECORD_SIZE
    witness [0, 0, 0, 0, 0, 0, 0, 0, 0, 0, 0, 0, 0, 0, 0, 0, 0, 0, 0, 0, 0, 0, 0, 0]

  /** The records save writes for a directory, in directory order. */
  function Records(dir: Directory): (recs: seq<Record>)
    ensures |recs| == |dir|
    ensures forall i :: 0 <= i < |dir| ==> recs[i] == EncodeRecord(dir[i].address)
  {
    seq(|dir|, i requires 0 <= i < |dir| => EncodeRecord(dir[i].address))
  }

  /** Records from..to of the EEPROM hold the given records. */
  ghost predicate Holds(mem: seq<Byte>, recs: seq<Record>, from: nat, to: nat)
    requires from <= to <= |recs| && Room(|mem|, |recs|)
  {
    forall j :: from <= j < to ==> RecordAt(mem, j) == recs[j]
  }

  /** The save loop from record i on: a record is rewritten only when its
      stored bytes differ from the encoding; the first failed write ends the
      save; after the last record the count's low byte is written to the
      last EEPROM byte. `writes` lists the offsets written, in order. */
  function SaveRecords(e: Eeprom, recs: seq<Record>, i: nat): (r: Saved)
    requires i <= |recs| && Room(|e.mem|, |recs|) && |e.mem| >= 1
    ensures |r.eeprom.mem| == |e.mem| && r.eeprom.faulty == e.faulty
    decreases |recs| - i
  {
    var size := |e.mem|;
    if i == |recs| then
      var w := Write(e, size - 1, [|recs| % 256]);
      Saved(w.eeprom, w.ok, [size - 1])
    else
      var offset := Low(size, i + 1);
      var same := Matches(e.mem, offset, recs[i]);
      var w := SaveOne(e, recs, i);
      if !w.ok then Saved(e, false, [offset])
      else
        var rest := SaveRecords(w.eeprom, recs, i + 1);
        Saved(rest.eeprom, rest.ok, (if same then [] else [offset]) + rest.writes)
  }

  /** One pass of the save loop: record i is written unless its stored
      bytes already equal its encoding. When the step succeeds the record
      is in place, and no byte outside it has changed. */
  function SaveOne(e: Eeprom, recs: seq<Record>, i: nat): (w: Written)
    requires i < |recs| && Room(|e.mem|, |recs|)
    ensures w.eeprom.faulty == e.faulty && |w.eeprom.mem| == |e.mem|
    ensures w.ok <==> Matches(e.mem, Low(|e.mem|, i + 1), recs[i]) || Low(|e.mem|, i + 1) !in e.faulty
    ensures !w.ok ==> w.eeprom == e
    ensures w.ok ==> RecordAt(w.eeprom.mem, i) == recs[i]
    ensures forall k {:trigger w.eeprom.mem[k]} :: 0 <= k < |e.mem| && !(Low(|e.mem|, i + 1) <= k < Low(|e.mem|, i)) ==>
      w.eeprom.mem[k] == e.mem[k]
  {
    var offset := Low(|e.mem|, i + 1);
    if Matches(e.mem, offset, recs[i]) then
      MatchesSlice(e.mem, offset, recs[i]);
      Written(e, true)
    else
      var w := Write(e, offset, recs[i]);
      assert w.ok ==> RecordAt(w.eeprom.mem, i) == recs[i] by {
        if w.ok {
          assert forall j :: 0 <= j < RECORD_SIZE ==> RecordAt(w.eeprom.mem, i)[j] == recs[i][j];
        }
      }
      w
  }

  /** `_bc_radio_save_peer_devices`. */
  function Save(e: Eeprom, dir: Directory): (r: Saved)
    requires Room(|e.mem|, |dir|) && |e.mem| >= 1
    ensures |r.eeprom.mem| == |e.mem| && r.eeprom.faulty == e.faulty
    ensures r.ok <==> forall w :: w in r.writes ==> w !in e.faulty
  {
    SaveOutcome(e, Records(dir), 0);
    SaveRecords(e, Records(dir), 0)
  }

  /** A save succeeds exactly when none of the writes it issued failed. */
  lemma {:induction false} SaveOutcome(e: Eeprom, recs: seq<Record>, i: nat)
    requires i <= |recs| && Room(|e.mem|, |recs|) && |e.mem| >= 1
    ensures var r := SaveRecords(e, recs, i);
      r.ok <==> forall w :: w in r.writes ==> w !in e.faulty
    decreases |recs| - i
  {
    if i < |recs| {
      var w := SaveOne(e, recs, i);
      if w.ok {
        SaveOutcome(w.eeprom, recs, i + 1);
      }
    }
  }

  /** A save changes nothing below the records it covers, and nothing
      between record i and the count byte. */
  lemma {:induction false} SaveFrame(e: Eeprom, recs: seq<Record>, i: nat, k: nat)
    requires i <= |recs| && Room(|e.mem|, |recs|) && |e.mem| >= 1
    requires k < |e.mem| - 1 && (k < Low(|e.mem|, |recs|) || Low(|e.mem|, i) <= k)
    ensures SaveRecords(e, recs, i).eeprom.mem[k] == e.mem[k]
    decreases |recs| - i
  {
    if i < |recs| {
      var w := SaveOne(e, recs, i);
      if w.ok {
        assert w.eeprom.mem[k] == e.mem[k];
        SaveFrame(w.eeprom, recs, i + 1, k);
      }
    }
  }

  /** A save that succeeds leaves every record from i on in place, and the
      count in the last byte. */
  ghost predicate Placed(e: Eeprom, recs: seq<Record>, i: nat, r: Saved)
    requires i <= |recs| && Room(|e.mem|, |recs|) && |e.mem| >= 1
    requires |r.eeprom.mem| == |e.mem|
  {
    r.ok ==> Holds(r.eeprom.mem, recs, i, |recs|) && r.eeprom.mem[|e.mem| - 1] == |recs| % 256
  }

  lemma {:induction false} SavePlacesRecords(e: Eeprom, recs: seq<Record>, i: nat)
    requires i <= |recs| && Room(|e.mem|, |recs|) && |e.mem| >= 1
    ensures Placed(e, recs, i, SaveRecords(e, recs, i))
    decreases |recs| - i
  {
    if i == |recs| {
      CountWritten(e, recs);
    } else {
      var w := SaveOne(e, recs, i);
      if w.ok {
        var rest := SaveRecords(w.eeprom, recs, i + 1);
        SavePlacesRecords(w.eeprom, recs, i + 1);
        RecordKept(w.eeprom, recs, i);
        HoldsExtend(rest, recs, i);
        var r := SaveRecords(e, recs, i);
        assert r.eeprom == rest.eeprom && r.ok == rest.ok;
        PlacedSameOutcome(rest.eeprom, e, recs, i, rest, r);
      } else {
        assert !SaveRecords(e, recs, i).ok;
      }
    }
  }

  /** Placement depends only on the EEPROM size and the outcome, not on
      the writes listed. */
  lemma PlacedSameOutcome(e: Eeprom, e': Eeprom, recs: seq<Record>, i: nat, r: Saved, r': Saved)
    requires i <= |recs| && Room(|e.mem|, |recs|) && |e.mem| >= 1 && |e'.mem| == |e.mem|
    requires |r.eeprom.mem| == |e.mem| && r'.eeprom == r.eeprom && r'.ok == r.ok
    requires Placed(e, recs, i, r)
    ensures Placed(e', recs, i, r')
  {
  }

  lemma CountWritten(e: Eeprom, recs: seq<Record>)
    requires Room(|e.mem|, |recs|) && |e.mem| >= 1
    ensures Placed(e, recs, |recs|, SaveRecords(e, recs, |recs|))
  {
    var size := |e.mem|;
    var w := Write(e, size - 1, [|recs| % 256]);
  }

  lemma RecordKept(e: Eeprom, recs: seq<Record>, i: nat)
    requires i < |recs| && Room(|e.mem|, |recs|) && |e.mem| >= 1
    requires RecordAt(e.mem, i) == recs[i]
    ensures var r := SaveRecords(e, recs, i + 1);
      RecordAt(r.eeprom.mem, i) == recs[i]
  {
    var r := SaveRecords(e, recs, i + 1);
    var m := r.eeprom.mem;
    var lo, hi := Low(|e.mem|, i + 1), Low(|e.mem|, i);
    forall k | lo <= k < hi
      ensures m[k] == e.mem[k]
    {
      SaveFrame(e, recs, i + 1, k);
    }
    assert m[lo..hi] == e.mem[lo..hi];
  }

  lemma HoldsExtend(r: Saved, recs: seq<Record>, i: nat)
    requires i < |recs| && Room(|r.eeprom.mem|, |recs|) && |r.eeprom.mem| >= 1
    requires RecordAt(r.eeprom.mem, i) == recs[i]
    requires Placed(r.eeprom, recs, i + 1, r)
    ensures Placed(r.eeprom, recs, i, r)
  {
  }

  /** Reading records that each read back as a nonzero address without
      repair yields those addresses, in order, with no repair. */
  lemma {:induction false} LoadEncodedRecords(mem: seq<Byte>, addresses: seq<U64>, n: nat)
    requires n <= |addresses| && Room(|mem|, n)
    requires forall j :: 0 <= j < n ==> ReadRecord(RecordAt(mem, j)) == Accept(addresses[j], false)
    requires forall j :: 0 <= j < n ==> addresses[j] != 0
    ensures LoadRecords(mem, n) == Loaded(addresses[..n], false)
  {
    if n > 0 {
      RoomMonotone(|mem|, n - 1, n);
      LoadEncodedRecords(mem, addresses, n - 1);
      assert addresses[..n] == addresses[..n - 1] + [addresses[n - 1]];
    }
  }

  /** Load of an EEPROM whose count byte and records hold a nonempty list
      of nonzero addresses. */
  lemma LoadStored(mem: seq<Byte>, dir: Directory, max: nat)
    requires Sized(|mem|, max) && 0 < |dir| <= max && |dir| < 256
    requires mem[|mem| - 1] == |dir| % 256
    requires Room(|mem|, |dir|) && Holds(mem, Records(dir), 0, |dir|)
    requires forall j :: 0 <= j < |dir| ==> dir[j].address != 0
    ensures Load(mem, max) == LoadResult(FreshAll(Addresses(dir)), false)
  {
    var addresses := Addresses(dir);
    var n := |dir|;
    forall j | 0 <= j < n
      ensures ReadRecord(RecordAt(mem, j)) == Accept(addresses[j], false)
    {
      ReadEncodedRecord(addresses[j]);
    }
    LoadEncodedRecords(mem, addresses, n);
    assert addresses[..n] == addresses;
    assert mem[|mem| - 1] == n;
    assert LoadRecords(mem, n).addresses == addresses && !LoadRecords(mem, n).repaired;
  }

  /** Saving a directory of nonzero addresses to a healthy EEPROM and
      loading it back yields the same addresses in the same order, as
      unsynced peers, with no repair requested. */
  lemma SaveLoadRoundTrip(e: Eeprom, dir: Directory, max: nat)
    requires Sized(|e.mem|, max) && e.faulty == {}
    requires 0 < |dir| <= max && |dir| < 256
    requires forall i :: 0 <= i < |dir| ==> dir[i].address != 0
    ensures Save(e, dir).ok
    ensures Load(Save(e, dir).eeprom.mem, max) == LoadResult(FreshAll(Addresses(dir)), false)
  {
    RoomMonotone(|e.mem|, |dir|, max);
    SavePlacesRecords(e, Records(dir), 0);
    assert Placed(e, Records(dir), 0, Save(e, dir));
    LoadStored(Save(e, dir).eeprom.mem, dir, max);
  }

  /** Saving again what is already stored rewrites no record: the only
      write is the count byte, and the contents stay the same. */
  lemma {:induction false} SaveUnchangedWritesCountOnly(e: Eeprom, recs: seq<Record>, i: nat)
    requires i <= |recs| && Room(|e.mem|, |recs|) && |e.mem| >= 1
    requires Holds(e.mem, recs, i, |recs|)
    requires e.mem[|e.mem| - 1] == |recs| % 256 && |e.mem| - 1 !in e.faulty
    ensures SaveRecords(e, recs, i) == Saved(e, true, [|e.mem| - 1])
    decreases |recs| - i
  {
    if i == |recs| {
      assert Write(e, |e.mem| - 1, [|recs| % 256]).eeprom.mem == e.mem;
    } else {
      assert RecordAt(e.mem, i) == recs[i];
      MatchesSlice(e.mem, Low(|e.mem|, i + 1), recs[i]);
      SaveUnchangedWritesCountOnly(e, recs, i + 1);
    }
  }

  /** Two saves in a row: the second finds everything in place. */
  lemma SaveTwice(e: Eeprom, dir: Directory)
    requires Room(|e.mem|, |dir|) && |e.mem| >= 1 && e.faulty == {}
    ensures var first := Save(e, dir);
      Save(first.eeprom, dir) == Saved(first.eeprom, true, [|e.mem| - 1])
  {
    SavePlacesRecords(e, Records(dir), 0);
    SaveUnchangedWritesCountOnly(Save(e, dir).eeprom, Records(dir), 0);
  }
}

=== FILE: radio.dfy ===
/** The radio layer of bcl/src/bc_radio.c as a state machine. The static
    `_bc_radio` structure is a `Radio` value; every entry point and every
    callback of the source is a function from a radio to its next value and
    the ordered list of effects it has on the world: scheduler requests,
    SPIRIT1 transmit and receive requests, the ATSHA204 serial-number read,
    calls of the application's event handler and of the `bc_radio_on_*`
    handlers. Hardware outcomes (an EEPROM write failing, the serial number
    read, the value of `rand()`) come in as parameters. */
module Radio {
  import opened Common
  import opened RadioFrame
  import opened PeerDirectory
  import opened PeerStore
  import Q = BoundedQueue
  import SC = ScanCache

  /** `bc_radio_state_t`. */
  datatype State = Sleep | Tx | Rx

  /** `bc_radio_event_t`, with the address the handler reads back through
      `bc_radio_get_event_device_address` at the time of the call. */
  datatype Event =
    | InitDone
    | InitFailure
    | Attach
    | Detach
    | AttachFailure
    | ScanFindDevice

  datatype Effect =
    | PlanNow                      // bc_scheduler_plan_now of the radio task
    | PlanCurrentNow               // bc_scheduler_plan_current_now
    | PlanRelative(delay: nat)     // bc_scheduler_plan_relative of the radio task
    | Transmit(frame: seq<Byte>)   // a new frame in the TX buffer, then bc_spirit1_tx
    | Retransmit                   // bc_spirit1_tx of the frame already in the buffer
    | Receive                      // infinite RX timeout, then bc_spirit1_rx
    | ReadSerialNumber             // bc_atsha204_read_serial_number
    | Notify(event: Event, address: U64)
    | Deliver(sender: U64, message: Message)

  /** The size of each queue's buffer. */
  const QUEUE_SIZE: nat := 128

  /** Transmissions of an enrollment frame and of a published frame. */
  const ENROLL_TRANSMISSIONS: nat := 10
  const PUB_TRANSMISSIONS: nat := 6

  /** The compile-time constants `BC_RADIO_MAX_DEVICES` and
      `BC_SPIRIT1_MAX_PACKET_SIZE`, and whether an event handler is set. */
  datatype Config = Config(maxDevices: nat, maxPacketSize: nat, handler: bool)

  /** The transmit side of `_bc_radio`; `txFrame` is the content of the
      SPIRIT1 transmit buffer. */
  datatype Link = Link(
    state: State,
    deviceAddress: U64,
    messageId: U16,
    transmitCount: nat,
    txFrame: seq<Byte>,
    listening: bool,
    enrollToGateway: bool)

  /** The peer directory with its persistent copy and the save flag. */
  datatype Store = Store(peers: Directory, eeprom: Eeprom, savePeerDevices: bool)

  /** The pairing switches and the scan cache. */
  datatype Pairing = Pairing(enrollmentMode: bool, scan: bool, cache: SC.Cache, automaticPairing: bool)

  /** `_bc_radio`. `eventAddress` is `peer_device_address`, the address
      the event handler reads back. */
  datatype Radio = Radio(
    config: Config,
    link: Link,
    pubQueue: Q.Queue,
    rxQueue: Q.Queue,
    store: Store,
    pairing: Pairing,
    eventAddress: U64)

  /** The EEPROM holds the record area and the legacy table, and the
      directory never outgrows its array. */
  ghost predicate StoreValid(max: nat, s: Store)
  {
    Sized(|s.eeprom.mem|, max) && |s.peers| <= max
  }

  /** A transmit budget is only pending while transmitting. */
  ghost predicate LinkValid(l: Link)
  {
    l.transmitCount <= ENROLL_TRANSMISSIONS && (l.transmitCount != 0 ==> l.state == Tx)
  }

  ghost predicate QueueValid(q: Q.Queue)
  {
    Q.Valid(q) && q.capacity == QUEUE_SIZE
  }

  /** What every reachable radio satisfies. */
  ghost predicate Valid(r: Radio)
  {
    && r.config.maxPacketSize > 9
    && StoreValid(r.config.maxDevices, r.store)
    && LinkValid(r.link)
    && QueueValid(r.pubQueue) && QueueValid(r.rxQueue)
    && SC.Valid(r.pairing.cache)
  }

  datatype Step = Step(radio: Radio, effects: seq<Effect>)

  /** A step of an entry point that answers true or false. */
  datatype Answer = Answer(radio: Radio, effects: seq<Effect>, ok: bool)

  /** The effect of calling the event handler, if one is set. */
  function NotifyIf(c: Config, event: Event, address: U64): (effects: seq<Effect>)
    ensures effects == [] <==> !c.handler
  {
    if c.handler then [Notify(event, address)] else []
  }

  /** `peer_device_address` after an event about `address`: the source
      sets it only when it calls the handler. */
  function EventAddress(r: Radio, address: U64): U64
  {
    if r.config.handler then address else r.eventAddress
  }

  /** `bc_radio_init`: a zeroed structure with empty queues, the serial
      number read requested, and the directory loaded from the EEPROM. */
  function Init(eeprom: Eeprom, maxDevices: nat, maxPacketSize: nat, overhead: nat): (s: Step)
    requires Sized(|eeprom.mem|, maxDevices) && maxPacketSize > 9
    ensures Valid(s.radio)
    ensures s.radio.store.peers == Load(eeprom.mem, maxDevices).peers
    ensures s.radio.store.savePeerDevices == Load(eeprom.mem, maxDevices).save
    ensures s.radio.link.deviceAddress == 0 && s.radio.link.state == Sleep && s.radio.link.transmitCount == 0
    ensures s.effects == [ReadSerialNumber]
  {
    var loaded := Load(eeprom.mem, maxDevices);
    var r := Radio(
      Config(maxDevices, maxPacketSize, false),
      Link(Sleep, 0, 0, 0, [], false, false),
      Q.Empty(QUEUE_SIZE, overhead), Q.Empty(QUEUE_SIZE, overhead),
      Store(loaded.peers, eeprom, loaded.save),
      Pairing(false, false, SC.Cache([0, 0, 0, 0], 0, 0), false),
      0);
    Step(r, [ReadSerialNumber])
  }

  datatype StoreStep = StoreStep(store: Store, effects: seq<Effect>)

  /** `_bc_radio_save_peer_devices`: on a failed write the save flag is
      raised and the task is planned, so that it retries. The flag is never
      lowered. */
  function SavePeers(max: nat, s: Store): (t: StoreStep)
    requires StoreValid(max, s)
    ensures StoreValid(max, t.store)
    ensures t.store.peers == s.peers && t.store.eeprom == Save(s.eeprom, s.peers).eeprom
    ensures !Save(s.eeprom, s.peers).ok ==> t.store.savePeerDevices && t.effects == [PlanNow]
    ensures Save(s.eeprom, s.peers).ok ==> t.effects == [] && t.store.savePeerDevices == s.savePeerDevices
  {
    RoomMonotone(|s.eeprom.mem|, |s.peers|, max);
    var saved := Save(s.eeprom, s.peers);
    StoreStep(Store(s.peers, saved.eeprom, s.savePeerDevices || !saved.ok), if saved.ok then [] else [PlanNow])
  }

  /** The length guard of `_bc_radio_peer_device_add` as written: refuse
      only when one more peer makes exactly `BC_RADIO_MAX_DEVICES`. */
  predicate AddRefusedAsWritten(length: nat, max: nat)
  {
    length + 1 == max
  }

  /** The guard the rest of this model uses: refuse from that length on,
      so that a directory filled by load is not overrun. */
  predicate AddRefused(length: nat, max: nat)
  {
    length + 1 >= max
  }

  /** `_bc_radio_peer_device_add`. */
  function AddPeer(r: Radio, address: U64): (a: Answer)
    requires Valid(r)
    ensures Valid(a.radio)
    ensures a.ok <==> !AddRefused(|r.store.peers|, r.config.maxDevices) && !Contains(r.store.peers, address)
    ensures AddRefused(|r.store.peers|, r.config.maxDevices) ==>
      a.radio == r.(eventAddress := EventAddress(r, address))
      && a.effects == NotifyIf(r.config, AttachFailure, address)
    ensures !AddRefused(|r.store.peers|, r.config.maxDevices) && Contains(r.store.peers, address) ==>
      a.radio == r && a.effects == []
    ensures a.ok ==> a.radio.store.peers == r.store.peers + [Fresh(address)]
    ensures !AddRefused(|r.store.peers|, r.config.maxDevices) ==> Contains(a.radio.store.peers, address)
    ensures a.ok ==> a.radio.eventAddress == EventAddress(r, address)
    ensures a.ok ==> var saved := SavePeers(r.config.maxDevices, r.store.(peers := r.store.peers + [Fresh(address)]));
      a.radio.store == saved.store && a.effects == saved.effects + NotifyIf(r.config, Attach, address)
    ensures a.radio.link == r.link && a.radio.pubQueue == r.pubQueue && a.radio.rxQueue == r.rxQueue
      && a.radio.pairing == r.pairing && a.radio.config == r.config
  {
    var peers := r.store.peers;
    if AddRefused(|peers|, r.config.maxDevices) then
      Answer(r.(eventAddress := EventAddress(r, address)), NotifyIf(r.config, AttachFailure, address), false)
    else if Contains(peers, address) then
      Answer(r, [], false)
    else
      var saved := SavePeers(r.config.maxDevices, r.store.(peers := peers + [Fresh(address)]));
      assert saved.store.peers[|peers|].address == address;
      Answer(r.(store := saved.store, eventAddress := EventAddress(r, address)),
        saved.effects + NotifyIf(r.config, Attach, address), true)
  }

  /** Adding keeps the directory free of duplicates. */
  lemma AddPeerUnique(r: Radio, address: U64)
    requires Valid(r) && Unique(r.store.peers)
    ensures Unique(AddPeer(r, address).radio.store.peers)
  {
    if AddPeer(r, address).ok {
      AppendUnique(r.store.peers, Fresh(address));
    }
  }

  /** `_bc_radio_peer_device_remove`: swap-remove of the first record with
      the address, then save and the DETACH event. */
  function RemovePeer(r: Radio, address: U64): (a: Answer)
    requires Valid(r)
    ensures Valid(a.radio)
    ensures a.ok <==> Contains(r.store.peers, address)
    ensures !a.ok ==> a.radio == r && a.effects == []
    ensures a.ok ==> a.radio.store.peers == SwapRemove(r.store.peers, Find(r.store.peers, address).value)
    ensures a.ok ==> |a.radio.store.peers| == |r.store.peers| - 1
    ensures a.ok ==> a.radio.eventAddress == EventAddress(r, address)
    ensures a.ok ==> var saved := SavePeers(r.config.maxDevices,
        r.store.(peers := SwapRemove(r.store.peers, Find(r.store.peers, address).value)));
      a.radio.store == saved.store && a.effects == saved.effects + NotifyIf(r.config, Detach, address)
    ensures a.radio.link == r.link && a.radio.pubQueue == r.pubQueue && a.radio.rxQueue == r.rxQueue
      && a.radio.pairing == r.pairing && a.radio.config == r.config
  {
    match Find(r.store.peers, address)
    case None => Answer(r, [], false)
    case Some(i) =>
      var saved := SavePeers(r.config.maxDevices, r.store.(peers := SwapRemove(r.store.peers, i)));
      Answer(r.(store := saved.store, eventAddress := EventAddress(r, address)),
        saved.effects + NotifyIf(r.config, Detach, address), true)
  }

  /** Removing an address of a duplicate-free directory removes it
      completely and keeps the directory free of duplicates. */
  lemma RemovePeerUnique(r: Radio, address: U64)
    requires Valid(r) && Unique(r.store.peers)
    ensures Unique(RemovePeer(r, address).radio.store.peers)
    ensures !Contains(RemovePeer(r, address).radio.store.peers, address)
  {
    match Find(r.store.peers, address)
    case None =>
    case Some(i) =>
      SwapRemoveUnique(r.store.peers, i);
  }

  /** `bc_radio_peer_device_add` and `bc_radio_peer_device_remove`: after
      a successful change, an ATTACH or DETACH item with the peer's full
      address is queued for transmission (whether it fits or not) and the
      task is planned. */
  function PeerDeviceChange(r: Radio, attach: bool, address: U64): (a: Answer)
    requires Valid(r)
    ensures Valid(a.radio)
    ensures var inner := if attach then AddPeer(r, address) else RemovePeer(r, address);
      a.ok == inner.ok && a.radio.store == inner.radio.store
      && (!a.ok ==> a == inner)
      && (a.ok ==> (a.effects == inner.effects + [PlanNow]
                && a.radio.pubQueue == Q.Put(r.pubQueue, AttachItem(attach, address)).queue))
  {
    var inner := if attach then AddPeer(r, address) else RemovePeer(r, address);
    if !inner.ok then inner
    else
      var put := Q.Put(inner.radio.pubQueue, AttachItem(attach, address));
      Answer(inner.radio.(pubQueue := put.queue), inner.effects + [PlanNow], true)
  }

  /** The loop of `bc_radio_peer_device_purge_all` from index n - 1 down
      to 0: every nonzero address met is removed through the public
      remove, whose answer is always true because the address is present. */
  function PurgeFrom(r: Radio, n: nat): (s: Step)
    requires Valid(r) && n <= |r.store.peers|
    ensures Valid(s.radio)
    decreases n
  {
    if n == 0 then Step(r, [])
    else
      var address := r.store.peers[n - 1].address;
      if address == 0 then PurgeFrom(r, n - 1)
      else
        assert Contains(r.store.peers, address);
        var removed := PeerDeviceChange(r, false, address);
        var rest := PurgeFrom(removed.radio, n - 1);
        Step(rest.radio, removed.effects + rest.effects)
  }

  /** `bc_radio_peer_device_purge_all`, which always answers true. */
  function Purge(r: Radio): (a: Answer)
    requires Valid(r)
    ensures Valid(a.radio) && a.ok
  {
    var s := PurgeFrom(r, |r.store.peers|);
    Answer(s.radio, s.effects, true)
  }

  /** Every record from index n on has address 0. */
  predicate ZeroFrom(dir: Directory, n: nat)
  {
    forall k :: n <= k < |dir| ==> dir[k].address == 0
  }

  /** After purging a duplicate-free directory no nonzero address is
      left. */
  lemma PurgeClears(r: Radio)
    requires Valid(r) && Unique(r.store.peers)
    ensures ZeroFrom(Purge(r).radio.store.peers, 0)
  {
    PurgeFromClears(r, |r.store.peers|);
    assert Purge(r).radio == PurgeFrom(r, |r.store.peers|).radio;
  }

  /** Purge as written on a directory that holds one address twice ahead
      of a zero entry, as load can produce and an add of address 0 can
      complete: the zero entry is skipped, removing the second copy
      swap-removes the first one, and the zero moved into its slot is
      skipped again. The purge answers true with a nonzero peer left. */
  lemma PurgeLeavesDuplicate(r: Radio, p: Peer, q: Peer, z: Peer)
    requires Valid(r) && r.store.peers == [p, q, z]
    requires p.address == q.address != 0 && z.address == 0
    ensures Purge(r).ok && Purge(r).radio.store.peers == [z, q]
    ensures !ZeroFrom(Purge(r).radio.store.peers, 0)
  {
    var peers := r.store.peers;
    assert Find(peers, q.address) == Some(0);
    assert SwapRemove(peers, 0) == [z, q];
    var removed := PeerDeviceChange(r, false, q.address).radio;
    assert removed.store.peers == [z, q];
    assert PurgeFrom(removed, 1) == PurgeFrom(removed, 0);
    assert PurgeFrom(r, 3) == PurgeFrom(r, 2);
  }

  lemma {:induction false} PurgeFromClears(r: Radio, n: nat)
    requires Valid(r) && n <= |r.store.peers| && Unique(r.store.peers)
    requires ZeroFrom(r.store.peers, n)
    ensures ZeroFrom(PurgeFrom(r, n).radio.store.peers, 0)
    decreases n
  {
    if n > 0 {
      var address := r.store.peers[n - 1].address;
      if address == 0 {
        PurgeFromClears(r, n - 1);
        assert PurgeFrom(r, n) == PurgeFrom(r, n - 1);
      } else {
        var removed := PeerDeviceChange(r, false, address).radio;
        PurgeRemovesLast(r, n);
        PurgeFromClears(removed, n - 1);
        PurgeFromStep(r, n);
      }
    }
  }

  /** One step of the purge loop on a nonzero address. */
  lemma PurgeFromStep(r: Radio, n: nat)
    requires Valid(r) && 0 < n <= |r.store.peers| && r.store.peers[n - 1].address != 0
    ensures var removed := PeerDeviceChange(r, false, r.store.peers[n - 1].address).radio;
      n - 1 <= |removed.store.peers| ==> PurgeFrom(r, n).radio == PurgeFrom(removed, n - 1).radio
  {
  }

  /** Removing the last nonzero address of a unique directory whose tail
      is zero keeps it unique and leaves a zero tail one place earlier. */
  lemma PurgeRemovesLast(r: Radio, n: nat)
    requires Valid(r) && 0 < n <= |r.store.peers| && Unique(r.store.peers)
    requires ZeroFrom(r.store.peers, n) && r.store.peers[n - 1].address != 0
    ensures var np := PeerDeviceChange(r, false, r.store.peers[n - 1].address).radio.store.peers;
      n - 1 <= |np| && Unique(np) && ZeroFrom(np, n - 1)
  {
    var peers := r.store.peers;
    var address := peers[n - 1].address;
    assert Contains(peers, address);
    assert Find(peers, address) == Some(n - 1);
    var np := PeerDeviceChange(r, false, address).radio.store.peers;
    assert np == SwapRemove(peers, n - 1);
    SwapRemoveUnique(peers, n - 1);
    SwapRemoveZeroTail(peers, n);
  }

  lemma SwapRemoveZeroTail(peers: Directory, n: nat)
    requires 0 < n <= |peers| && ZeroFrom(peers, n)
    ensures ZeroFrom(SwapRemove(peers, n - 1), n - 1)
  {
    var np := SwapRemove(peers, n - 1);
    forall k | n - 1 <= k < |np|
      ensures np[k].address == 0
    {
      if k == n - 1 {
        assert np[k] == peers[|peers| - 1];
      } else {
        assert np[k] == peers[k];
      }
    }
  }

  /** Whether a known peer's frame is new: its id differs from the last
      one accepted, or no frame of the peer has been accepted since load. */
  predicate Accepts(p: Peer, id: U16)
  {
    p.messageId != id || !p.synced
  }

  /** The known-peer branch of the RX handler: a new frame updates the
      peer's id and marks it synced; if it carries a payload it is queued
      for the task (whether it fits or not) and the task is planned. A
      repeated frame changes nothing. */
  function OnPeerFrame(r: Radio, i: nat, frame: seq<Byte>): (s: Step)
    requires Valid(r) && i < |r.store.peers| && |frame| > HEADER_SIZE
    ensures Valid(s.radio)
    ensures var p := r.store.peers[i];
      var id := MessageId(frame);
      && s.radio.store.peers == r.store.peers[i := if Accepts(p, id) then Peer(p.address, id, true) else p]
      && (s.radio.rxQueue == if Accepts(p, id) && |frame| > HEADER_SIZE + 1 then Q.Put(r.rxQueue, frame).queue else r.rxQueue)
      && (s.effects == if Accepts(p, id) && |frame| > HEADER_SIZE + 1 then [PlanNow] else [])
    ensures s.radio == r.(store := s.radio.store, rxQueue := s.radio.rxQueue)
  {
    var p := r.store.peers[i];
    var id := MessageId(frame);
    if !Accepts(p, id) then Step(r, [])
    else
      var r1 := r.(store := r.store.(peers := r.store.peers[i := Peer(p.address, id, true)]));
      if |frame| > HEADER_SIZE + 1 then Step(r1.(rxQueue := Q.Put(r1.rxQueue, frame).queue), [PlanNow])
      else Step(r1, [])
  }

  /** The unknown-sender branch of the RX handler: while scanning, with a
      handler set, an address new to the scan cache is reported; with
      automatic pairing on, the sender is added through the public add. */
  function OnStrangerFrame(r: Radio, sender: U64): (s: Step)
    requires Valid(r)
    ensures Valid(s.radio)
    ensures s.radio.config == r.config && s.radio.link == r.link && s.radio.rxQueue == r.rxQueue
    // A stranger is reported at most once per scan cache, and only while scanning with a handler.
    ensures var report := r.pairing.scan && r.config.handler && sender !in SC.Recent(r.pairing.cache);
      (|s.effects| > 0 && s.effects[0] == Notify(ScanFindDevice, sender)) <==> report
    ensures !(r.pairing.scan && r.config.handler) ==> s.radio.pairing.cache == r.pairing.cache
    // Without automatic pairing the directory is left alone; with it the stranger is added when there is room.
    ensures !r.pairing.automaticPairing ==> s.radio.store == r.store && s.radio.pubQueue == r.pubQueue
    ensures r.pairing.automaticPairing && !AddRefused(|r.store.peers|, r.config.maxDevices) ==>
      Contains(s.radio.store.peers, sender)
  {
    var push := if r.pairing.scan && r.config.handler then SC.Push(r.pairing.cache, sender)
      else SC.PushResult(r.pairing.cache, false);
    var r1 := r.(pairing := r.pairing.(cache := push.cache));
    var found := if push.isNew then [Notify(ScanFindDevice, sender)] else [];
    if r.pairing.automaticPairing then
      var added := PeerDeviceChange(r1, true, sender);
      Step(added.radio, found + added.effects)
    else Step(r1, found)
  }

  /** The 64-bit target address carried by an attach or detach frame. */
  function Target(frame: seq<Byte>): U64
    requires |frame| == 17
  {
    Word64(frame[9..17])
  }

  /** `_bc_radio_spirit1_event_handler` on RX_DONE. */
  function OnRxDone(r: Radio, frame: seq<Byte>): (s: Step)
    requires Valid(r)
    ensures Valid(s.radio)
  {
    if |frame| <= HEADER_SIZE then Step(r, [])
    else
      var sender := Sender(frame);
      var r1 := r.(eventAddress := sender);
      var tag := frame[8];
      if r.pairing.enrollmentMode && |frame| == HEADER_SIZE + 1 && tag == ENROLL then
        var added := PeerDeviceChange(r1, true, sender);
        Step(added.radio, added.effects)
      else if |frame| == 17 && (tag == ATTACH || tag == DETACH) then
        if Target(frame) != r.link.deviceAddress then Step(r1, [])
        else if tag == ATTACH then
          var added := AddPeer(r1, sender);
          Step(added.radio, added.effects)
        else
          var removed := RemovePeer(r1, sender);
          Step(removed.radio, removed.effects)
      else
        match Find(r.store.peers, sender)
        case Some(i) => OnPeerFrame(r1, i, frame)
        case None => OnStrangerFrame(r1, sender)
  }

  /** Frames too short to carry a header and a type are ignored. */
  lemma ShortFrameIgnored(r: Radio, frame: seq<Byte>)
    requires Valid(r) && |frame| < HEADER_SIZE + 1
    ensures OnRxDone(r, frame) == Step(r, [])
  {
  }

  /** An enrollment frame adds its sender, through the public add, exactly
      while enrollment mode is on; outside it, an enrollment frame of a
      stranger is treated like any other frame of a stranger. */
  lemma EnrollFrameAdds(r: Radio, frame: seq<Byte>)
    requires Valid(r) && |frame| == HEADER_SIZE + 1 && frame[8] == ENROLL
    ensures var r1 := r.(eventAddress := Sender(frame));
      OnRxDone(r, frame).radio ==
        (if r.pairing.enrollmentMode then PeerDeviceChange(r1, true, Sender(frame)).radio
         else if Contains(r.store.peers, Sender(frame)) then OnPeerFrame(r1, Find(r.store.peers, Sender(frame)).value, frame).radio
         else OnStrangerFrame(r1, Sender(frame)).radio)
  {
  }

  /** An attach or detach frame changes the directory only when it names
      this device, and then adds or removes its sender without publishing
      anything; a frame naming another device is consumed and changes
      nothing but the event address. */
  lemma AttachFrameClassified(r: Radio, frame: seq<Byte>)
    requires Valid(r) && |frame| == 17 && (frame[8] == ATTACH || frame[8] == DETACH)
    requires !(r.pairing.enrollmentMode && |frame| == HEADER_SIZE + 1)
    ensures var r1 := r.(eventAddress := Sender(frame));
      var s := OnRxDone(r, frame);
      && (Target(frame) != r.link.deviceAddress ==> s == Step(r1, []))
      && (Target(frame) == r.link.deviceAddress && frame[8] == ATTACH ==>
            s.radio == AddPeer(r1, Sender(frame)).radio)
      && (Target(frame) == r.link.deviceAddress && frame[8] == DETACH ==>
            s.radio == RemovePeer(r1, Sender(frame)).radio)
      && s.radio.pubQueue == r.pubQueue
  {
  }

  /** Anti-replay: a frame of a known peer that is not a control frame is
      accepted exactly when it is new for that peer; once accepted, the
      same frame again is dropped without a trace. */
  lemma ReplayDropped(r: Radio, frame: seq<Byte>)
    requires Valid(r) && |frame| > HEADER_SIZE + 1
    requires frame[8] !in {ENROLL, ATTACH, DETACH}
    requires Contains(r.store.peers, Sender(frame))
    ensures var s := OnRxDone(r, frame);
      OnRxDone(s.radio, frame) == Step(s.radio.(eventAddress := Sender(frame)), [])
  {
    var s := OnRxDone(r, frame);
    var i := Find(r.store.peers, Sender(frame)).value;
    assert Find(s.radio.store.peers, Sender(frame)) == Some(i) by {
      var f := Find(s.radio.store.peers, Sender(frame));
      assert s.radio.store.peers[i].address == Sender(frame);
      assert forall k :: 0 <= k < i ==> s.radio.store.peers[k] == r.store.peers[k];
    }
  }

  /** `_bc_radio_spirit1_event_handler` on TX_DONE: with the budget spent
      the task is planned at once; otherwise the budget drops by one and
      the task is planned after a random delay below 100 ticks. Either way,
      a listening radio is put back into reception. */
  function OnTxDone(r: Radio, random: nat): (s: Step)
    requires Valid(r)
    ensures Valid(s.radio)
    ensures s.radio == r.(link := r.link.(transmitCount := s.radio.link.transmitCount))
    ensures s.radio.link.transmitCount == if r.link.transmitCount == 0 then 0 else r.link.transmitCount - 1
    ensures s.effects == (if r.link.transmitCount == 0 then [PlanNow] else [PlanRelative(random % 100)])
      + (if r.link.listening then [Receive] else [])
  {
    var rx := if r.link.listening then [Receive] else [];
    if r.link.transmitCount == 0 then Step(r, [PlanNow] + rx)
    else Step(r.(link := r.link.(transmitCount := r.link.transmitCount - 1)), [PlanRelative(random % 100)] + rx)
  }

  /** `atsha204_event_handler`: a serial number read adopts it as the own
      address and reports INIT_DONE; a failed read or an ATSHA204 error
      (`None`) reports INIT_FAILURE. */
  function OnSerialNumber(r: Radio, serial: Option<U64>): (s: Step)
    requires Valid(r)
    ensures Valid(s.radio)
    ensures serial.Some? ==> (s.radio == r.(link := r.link.(deviceAddress := serial.value))
      && s.effects == NotifyIf(r.config, InitDone, r.eventAddress))
    ensures serial.None? ==> s.radio == r && s.effects == NotifyIf(r.config, InitFailure, r.eventAddress)
  {
    match serial
    case Some(a) => Step(r.(link := r.link.(deviceAddress := a)), NotifyIf(r.config, InitDone, r.eventAddress))
    case None => Step(r, NotifyIf(r.config, InitFailure, r.eventAddress))
  }

  /** A frame of the own address as transmitted: the header with the
      current message id, then the payload. */
  datatype Sent = Sent(link: Link, effect: Effect)

  /** Build a frame in the transmit buffer, transmit it, consume one
      message id and set the transmission budget. */
  function Send(l: Link, payload: seq<Byte>, budget: nat): (s: Sent)
    requires budget <= ENROLL_TRANSMISSIONS
    ensures LinkValid(s.link)
    ensures s.effect == Transmit(s.link.txFrame)
    ensures |s.link.txFrame| == HEADER_SIZE + |payload|
    ensures s.link.txFrame[..HEADER_SIZE] == Header(l.deviceAddress, l.messageId)
      && s.link.txFrame[HEADER_SIZE..] == payload
    ensures s.link.messageId == (l.messageId + 1) % 0x1_0000
    ensures s.link.state == Tx && s.link.transmitCount == budget
    ensures s.link == l.(state := Tx, messageId := s.link.messageId, transmitCount := budget, txFrame := s.link.txFrame)
  {
    var frame := Header(l.deviceAddress, l.messageId) + payload;
    var l' := l.(state := Tx, messageId := (l.messageId + 1) % 0x1_0000, transmitCount := budget, txFrame := frame);
    Sent(l', Transmit(frame))
  }

  /** The handler calls of the dispatch loop, one for each received frame
      whose type has a handler, in order of reception. */
  function Dispatch(items: seq<seq<Byte>>): (effects: seq<Effect>)
    ensures |effects| <= |items|
    ensures forall k :: 0 <= k < |effects| ==> effects[k].Deliver?
  {
    if |items| == 0 then []
    else
      var first := match Decode(items[0]) case Some(d) => [Deliver(d.0, d.1)] case None => [];
      first + Dispatch(items[1..])
  }

  /** When every received frame decodes, each one reaches its handler, in
      order. */
  lemma {:induction false} DispatchAll(items: seq<seq<Byte>>)
    requires forall k :: 0 <= k < |items| ==> Decode(items[k]).Some?
    ensures |Dispatch(items)| == |items|
    ensures forall k :: 0 <= k < |items| ==>
      Dispatch(items)[k] == Deliver(Decode(items[k]).value.0, Decode(items[k]).value.1)
  {
    if |items| > 0 {
      DispatchAll(items[1..]);
    }
  }

  /** `_bc_radio_task`. */
  function Task(r: Radio): (s: Step)
    requires Valid(r)
    ensures Valid(s.radio)
    ensures s.radio.config == r.config && s.radio.pairing == r.pairing
    ensures s.radio.link.deviceAddress == r.link.deviceAddress
    ensures s.radio.store.peers == r.store.peers
  {
    var saved := if r.store.savePeerDevices then SavePeers(r.config.maxDevices, r.store) else StoreStep(r.store, []);
    var r0 := r.(store := saved.store);
    if r0.link.deviceAddress == 0 then
      Step(r0, saved.effects + [ReadSerialNumber, PlanCurrentNow])
    else if r0.link.state == Tx && r0.link.transmitCount != 0 then
      Step(r0, saved.effects + [Retransmit])
    else
      var r1 := r0.(link := r0.link.(state := if r0.link.state == Tx then Sleep else r0.link.state));
      if r1.link.enrollToGateway then
        var sent := Send(r1.link.(enrollToGateway := false), [ENROLL], ENROLL_TRANSMISSIONS);
        Step(r1.(link := sent.link), saved.effects + [sent.effect])
      else
        var delivered := Dispatch(r1.rxQueue.items);
        var r2 := r1.(rxQueue := r1.rxQueue.(items := []));
        match Q.Get(r2.pubQueue)
        case None =>
          Step(r2, saved.effects + delivered + (if r2.link.listening then [Receive] else []))
        case Some(got) =>
          var sent := Send(r2.link, got.0, PUB_TRANSMISSIONS);
          Step(r2.(link := sent.link, pubQueue := got.1), saved.effects + delivered + [sent.effect])
  }

  /** Effects of the save at the start of the task. */
  function TaskSave(r: Radio): (t: StoreStep)
    requires Valid(r)
    ensures StoreValid(r.config.maxDevices, t.store) && t.store.peers == r.store.peers
  {
    if r.store.savePeerDevices then SavePeers(r.config.maxDevices, r.store) else StoreStep(r.store, [])
  }

  /** A save that failed is retried: the next task run writes the whole
      directory again, keeps the save flag raised until a save succeeds,
      and on another failure plans itself again. On an EEPROM without
      faulty cells the retry succeeds and leaves every record and the
      count in place. */
  lemma TaskRetriesSave(r: Radio)
    requires Valid(r) && r.store.savePeerDevices
    ensures var saved := Save(r.store.eeprom, r.store.peers);
      && Task(r).radio.store == Store(r.store.peers, saved.eeprom, true)
      && Task(r).effects[..|TaskSave(r).effects|] == TaskSave(r).effects
      && (!saved.ok ==> TaskSave(r).effects == [PlanNow])
    ensures r.store.eeprom.faulty == {} ==>
      var saved := Save(r.store.eeprom, r.store.peers);
      && saved.ok && TaskSave(r).effects == []
      && Placed(r.store.eeprom, Records(r.store.peers), 0, saved)
  {
    RoomMonotone(|r.store.eeprom.mem|, |r.store.peers|, r.config.maxDevices);
    SavePlacesRecords(r.store.eeprom, Records(r.store.peers), 0);
  }

  /** Without an own address the task only asks for the serial number
      again and runs again at once. */
  lemma TaskWithoutAddress(r: Radio)
    requires Valid(r) && r.link.deviceAddress == 0
    ensures Task(r) == Step(r.(store := TaskSave(r).store), TaskSave(r).effects + [ReadSerialNumber, PlanCurrentNow])
  {
  }

  /** While a transmission budget remains, the task only repeats the frame
      in the buffer: it neither dequeues nor builds anything. */
  lemma TaskRetransmits(r: Radio)
    requires Valid(r) && r.link.deviceAddress != 0
    requires r.link.state == Tx && r.link.transmitCount != 0
    ensures Task(r) == Step(r.(store := TaskSave(r).store), TaskSave(r).effects + [Retransmit])
  {
  }

  /** With the budget spent and an enrollment pending, the task sends the
      enrollment frame, header and type only, with a budget of ten
      transmissions, and consumes one message id. */
  lemma TaskEnrolls(r: Radio)
    requires Valid(r) && r.link.deviceAddress != 0 && r.link.transmitCount == 0 && r.link.enrollToGateway
    ensures var s := Task(r);
      var frame := Header(r.link.deviceAddress, r.link.messageId) + [ENROLL];
      && s.effects == TaskSave(r).effects + [Transmit(frame)]
      && s.radio.link == r.link.(state := Tx, enrollToGateway := false, transmitCount := ENROLL_TRANSMISSIONS,
           messageId := (r.link.messageId + 1) % 0x1_0000, txFrame := frame)
      && s.radio.pubQueue == r.pubQueue && s.radio.rxQueue == r.rxQueue
  {
    var sent := Send(r.link.(state := Sleep, enrollToGateway := false), [ENROLL], ENROLL_TRANSMISSIONS);
    assert sent.link.txFrame == Header(r.link.deviceAddress, r.link.messageId) + [ENROLL];
  }

  /** Otherwise the task hands every received frame to its handler,
      empties the receive queue, and sends the oldest published item
      behind a fresh header with a budget of six transmissions; with
      nothing to send, a listening radio is put into reception. */
  lemma TaskPublishes(r: Radio)
    requires Valid(r) && r.link.deviceAddress != 0 && r.link.transmitCount == 0 && !r.link.enrollToGateway
    ensures var s := Task(r);
      var before := TaskSave(r).effects + Dispatch(r.rxQueue.items);
      && s.radio.rxQueue.items == []
      && (r.pubQueue.items == [] ==>
            s.effects == before + (if r.link.listening then [Receive] else [])
            && s.radio.link == r.link.(state := if r.link.state == Tx then Sleep else r.link.state))
      && (r.pubQueue.items != [] ==>
            var frame := Header(r.link.deviceAddress, r.link.messageId) + r.pubQueue.items[0];
            && s.effects == before + [Transmit(frame)]
            && s.radio.pubQueue.items == r.pubQueue.items[1..]
            && s.radio.link == r.link.(state := Tx, transmitCount := PUB_TRANSMISSIONS,
                 messageId := (r.link.messageId + 1) % 0x1_0000, txFrame := frame))
  {
    if r.pubQueue.items != [] {
      var r1 := r.(link := r.link.(state := if r.link.state == Tx then Sleep else r.link.state));
      var sent := Send(r1.link, r.pubQueue.items[0], PUB_TRANSMISSIONS);
      assert sent.link.txFrame == Header(r.link.deviceAddress, r.link.messageId) + r.pubQueue.items[0];
    }
  }

  /** One TX-done interrupt followed by the task run it plans. */
  function Round(r: Radio, random: nat): (s: Step)
    requires Valid(r)
    ensures Valid(s.radio)
  {
    var done := OnTxDone(r, random);
    var task := Task(done.radio);
    Step(task.radio, done.effects + task.effects)
  }

  /** Rounds in a row, with the given random delays. */
  function Rounds(r: Radio, randoms: seq<nat>): (s: Step)
    requires Valid(r)
    ensures Valid(s.radio)
    decreases |randoms|
  {
    if |randoms| == 0 then Step(r, [])
    else
      var first := Round(r, randoms[0]);
      var rest := Rounds(first.radio, randoms[1..]);
      Step(rest.radio, first.effects + rest.effects)
  }

  function CountRetransmits(effects: seq<Effect>): nat
  {
    if |effects| == 0 then 0
    else (if effects[0] == Retransmit then 1 else 0) + CountRetransmits(effects[1..])
  }

  lemma {:induction false} CountRetransmitsAppend(a: seq<Effect>, b: seq<Effect>)
    ensures CountRetransmits(a + b) == CountRetransmits(a) + CountRetransmits(b)
    decreases |a|
  {
    if |a| == 0 {
      assert a + b == b;
    } else {
      assert (a + b)[0] == a[0] && (a + b)[1..] == a[1..] + b;
      CountRetransmitsAppend(a[1..], b);
    }
  }

  /** A round with more than one transmission left repeats the frame once
      and spends one transmission; nothing else of the link changes. */
  lemma RoundRepeats(r: Radio, random: nat)
    requires Valid(r) && r.link.deviceAddress != 0
    requires r.link.state == Tx && r.link.transmitCount >= 2
    ensures Round(r, random).radio.link == r.link.(transmitCount := r.link.transmitCount - 1)
    ensures CountRetransmits(Round(r, random).effects) == 1
    ensures Round(r, random).radio.pubQueue == r.pubQueue && Round(r, random).radio.rxQueue == r.rxQueue
  {
    var done := OnTxDone(r, random);
    TaskRetransmits(done.radio);
    var task := Task(done.radio);
    CountRetransmitsAppend(done.effects, task.effects);
    CountRetransmitsAppend(TaskSave(done.radio).effects, [Retransmit]);
    assert CountRetransmits(done.effects) == 0;
    assert CountRetransmits(TaskSave(done.radio).effects) == 0;
  }

  /** The round that spends the last transmission does not repeat the
      frame: the radio leaves TX, or enters it with a new frame. */
  lemma LastRoundMovesOn(r: Radio, random: nat)
    requires Valid(r) && r.link.deviceAddress != 0
    requires r.link.state == Tx && r.link.transmitCount == 1
    ensures Retransmit !in Round(r, random).effects
    ensures Round(r, random).radio.link.state == Tx ==>
      Transmit(Round(r, random).radio.link.txFrame) in Round(r, random).effects
  {
    var done := OnTxDone(r, random);
    assert Retransmit !in done.effects;
    var t := done.radio;
    if t.link.enrollToGateway {
      TaskEnrolls(t);
    } else {
      TaskPublishes(t);
      assert forall k :: 0 <= k < |Dispatch(t.rxQueue.items)| ==> Dispatch(t.rxQueue.items)[k].Deliver?;
    }
  }

  /** The transmission budget: a frame sent with a budget of c
      transmissions is repeated in exactly the next c - 1 rounds, unchanged
      and without anything being dequeued. */
  lemma {:induction false} BudgetRepeats(r: Radio, randoms: seq<nat>)
    requires Valid(r) && r.link.deviceAddress != 0 && r.link.state == Tx
    requires |randoms| < r.link.transmitCount
    ensures var s := Rounds(r, randoms);
      && s.radio.link == r.link.(transmitCount := r.link.transmitCount - |randoms|)
      && CountRetransmits(s.effects) == |randoms|
      && s.radio.pubQueue == r.pubQueue && s.radio.rxQueue == r.rxQueue
    decreases |randoms|
  {
    if |randoms| > 0 {
      RoundRepeats(r, randoms[0]);
      var first := Round(r, randoms[0]);
      BudgetRepeats(first.radio, randoms[1..]);
      CountRetransmitsAppend(first.effects, Rounds(first.radio, randoms[1..]).effects);
    }
  }

  /** A peer added while the EEPROM writes succeed is persisted: loading
      the EEPROM afterwards yields the new directory, as unsynced peers,
      without a repair. */
  lemma AddPersists(r: Radio, address: U64)
    requires Valid(r) && r.store.eeprom.faulty == {}
    requires AddPeer(r, address).ok && address != 0 && |r.store.peers| < 255
    requires forall i :: 0 <= i < |r.store.peers| ==> r.store.peers[i].address != 0
    ensures var s := AddPeer(r, address).radio.store;
      Load(s.eeprom.mem, r.config.maxDevices) == LoadResult(FreshAll(Addresses(s.peers)), false)
  {
    var peers := r.store.peers + [Fresh(address)];
    SaveLoadRoundTrip(r.store.eeprom, peers, r.config.maxDevices);
  }

  /** The guards of add agree on every length the add path itself
      produces, that is below `BC_RADIO_MAX_DEVICES`. */
  lemma AddGuardsAgreeBelowMax(length: nat, max: nat)
    requires length < max
    ensures AddRefused(length, max) <==> AddRefusedAsWritten(length, max)
  {
  }

  /** Load fills the whole array: with room for one peer, a saved peer is
      loaded back, and the guard as written then lets another add through,
      which would write past the array; the guard of this model refuses it. */
  lemma AddGuardAsWrittenOverruns()
    ensures var e := Eeprom(seq(40, k => 0), {});
      var loaded := Load(Save(e, [Peer(5, 0, false)]).eeprom.mem, 1);
      && |loaded.peers| == 1
      && !AddRefusedAsWritten(|loaded.peers|, 1)
      && AddRefused(|loaded.peers|, 1)
  {
    var e := Eeprom(seq(40, k => 0), {});
    var dir := [Peer(5, 0, false)];
    SaveLoadRoundTrip(e, dir, 1);
  }

  /** The length guard of `bc_radio_pub_info` as written: a name is
      refused only when longer than `BC_SPIRIT1_MAX_PACKET_SIZE - 9`. */
  predicate InfoRefusedAsWritten(maxPacketSize: nat, length: nat)
  {
    length > maxPacketSize - HEADER_SIZE - 1
  }

  /** The guard the rest of this model uses: the item, type byte and
      terminator included, must fit the `BC_SPIRIT1_MAX_PACKET_SIZE - 8`
      bytes of the local buffer. */
  predicate InfoRefused(maxPacketSize: nat, length: nat)
  {
    length > maxPacketSize - HEADER_SIZE - 2
  }

  /** The name of `BC_SPIRIT1_MAX_PACKET_SIZE - 9` bytes passes the guard
      as written, yet its item of length + 2 bytes is one byte longer than
      the buffer it is copied from, and its frame one byte longer than a
      packet. */
  lemma InfoGuardAsWrittenOverruns(maxPacketSize: nat)
    requires maxPacketSize > HEADER_SIZE + 1
    ensures var length := maxPacketSize - HEADER_SIZE - 1;
      && !InfoRefusedAsWritten(maxPacketSize, length)
      && length + 2 == (maxPacketSize - HEADER_SIZE) + 1
      && HEADER_SIZE + length + 2 == maxPacketSize + 1
      && InfoRefused(maxPacketSize, length)
  {
  }

  /** The length checks of the publishing functions: a buffer longer than
      `BC_SPIRIT1_MAX_PACKET_SIZE - 9` bytes and a firmware name the
      corrected guard refuses are not published. */
  predicate PubRefused(c: Config, m: Message)
  {
    || (m.Buffer? && |m.data| > c.maxPacketSize - HEADER_SIZE - 1)
    || (m.Info? && InfoRefused(c.maxPacketSize, |m.firmware|))
  }

  /** `bc_radio_pub_push_button`, `_thermometer`, `_humidity`,
      `_luminosity`, `_barometer`, `_co2`, `_battery`, `_buffer` and
      `_info`: the encoded item is queued if its length check passes and it
      fits, and then the task is planned. */
  function Pub(r: Radio, m: Message): (a: Answer)
    requires Valid(r) && WellFormed(m)
    ensures Valid(a.radio)
    ensures a.ok <==> !PubRefused(r.config, m) && Q.Fits(r.pubQueue, |Encode(m)|)
    ensures a.ok ==> (a.radio == r.(pubQueue := a.radio.pubQueue) && a.effects == [PlanNow]
      && a.radio.pubQueue.items == r.pubQueue.items + [Encode(m)])
    ensures !a.ok ==> a.radio == r && a.effects == []
  {
    if PubRefused(r.config, m) then Answer(r, [], false)
    else
      var put := Q.Put(r.pubQueue, Encode(m));
      if put.ok then Answer(r.(pubQueue := put.queue), [PlanNow], true)
      else Answer(r, [], false)
  }

  /** Every published frame fits a packet once the packet holds the
      largest fixed-size message. */
  lemma PubFrameFits(c: Config, m: Message)
    requires !PubRefused(c, m) && c.maxPacketSize >= HEADER_SIZE + 10
    ensures HEADER_SIZE + |Encode(m)| <= c.maxPacketSize
  {
  }

  /** End to end: a message published into an empty queue is the next
      frame the task sends, and the receiver's dispatch hands exactly that
      message to its handler, attributed to the low 48 bits of the
      sender's address. */
  lemma PublishedMessageArrives(r: Radio, m: Message)
    requires Valid(r) && WellFormed(m) && Pub(r, m).ok && r.pubQueue.items == []
    requires r.link.deviceAddress != 0 && r.link.transmitCount == 0 && !r.link.enrollToGateway
    ensures var t := Task(Pub(r, m).radio);
      var frame := Header(r.link.deviceAddress, r.link.messageId) + Encode(m);
      && Transmit(frame) in t.effects
      && Decode(frame) == Some((r.link.deviceAddress % 0x1_0000_0000_0000, m))
  {
    var p := Pub(r, m).radio;
    TaskPublishes(p);
    DecodeEncode(r.link.deviceAddress, r.link.messageId, m);
  }

  /** `bc_radio_set_event_handler`: whether a handler is set. */
  function SetEventHandler(r: Radio, present: bool): (s: Radio)
    requires Valid(r)
    ensures Valid(s) && s.config.handler == present
    ensures s == r.(config := s.config) && s.config.maxDevices == r.config.maxDevices
      && s.config.maxPacketSize == r.config.maxPacketSize
  {
    r.(config := r.config.(handler := present))
  }

  /** `bc_radio_listen` and `bc_radio_sleep`: set whether the radio keeps
      receiving between transmissions, and plan the task. */
  function SetListening(r: Radio, on: bool): (s: Step)
    requires Valid(r)
    ensures Valid(s.radio) && s.radio.link.listening == on && s.effects == [PlanNow]
    ensures s.radio == r.(link := r.link.(listening := on))
  {
    Step(r.(link := r.link.(listening := on)), [PlanNow])
  }

  /** `bc_radio_enroll_to_gateway`: request an enrollment frame and plan
      the task. */
  function EnrollToGateway(r: Radio): (s: Step)
    requires Valid(r)
    ensures Valid(s.radio) && s.radio.link.enrollToGateway && s.effects == [PlanNow]
    ensures s.radio == r.(link := r.link.(enrollToGateway := true))
  {
    Step(r.(link := r.link.(enrollToGateway := true)), [PlanNow])
  }

  /** `bc_radio_enrollment_start` and `bc_radio_enrollment_stop`. */
  function SetEnrollmentMode(r: Radio, on: bool): (s: Radio)
    requires Valid(r)
    ensures Valid(s) && s.pairing.enrollmentMode == on
    ensures s == r.(pairing := s.pairing) && s.pairing.scan == r.pairing.scan
      && s.pairing.cache == r.pairing.cache && s.pairing.automaticPairing == r.pairing.automaticPairing
  {
    r.(pairing := r.pairing.(enrollmentMode := on))
  }

  /** `bc_radio_automatic_pairing_start` and `bc_radio_automatic_pairing_stop`. */
  function SetAutomaticPairing(r: Radio, on: bool): (s: Radio)
    requires Valid(r)
    ensures Valid(s) && s.pairing.automaticPairing == on
    ensures s == r.(pairing := s.pairing) && s.pairing.scan == r.pairing.scan
      && s.pairing.cache == r.pairing.cache && s.pairing.enrollmentMode == r.pairing.enrollmentMode
  {
    r.(pairing := r.pairing.(automaticPairing := on))
  }

  /** `bc_radio_scan_stop`: scanning off; the cache is left as it is, and
      only `ScanStart` turns scanning back on. */
  function ScanStop(r: Radio): (s: Radio)
    requires Valid(r)
    ensures Valid(s) && !s.pairing.scan
    ensures s == r.(pairing := s.pairing) && s.pairing.cache == r.pairing.cache
      && s.pairing.enrollmentMode == r.pairing.enrollmentMode
      && s.pairing.automaticPairing == r.pairing.automaticPairing
  {
    r.(pairing := r.pairing.(scan := false))
  }

  /** `bc_radio_scan_start`: an empty scan cache and scanning on. */
  function ScanStart(r: Radio): (s: Radio)
    requires Valid(r)
    ensures Valid(s) && s.pairing.scan && SC.Recent(s.pairing.cache) == []
    ensures s == r.(pairing := r.pairing.(scan := true, cache := SC.Start()))
  {
    r.(pairing := r.pairing.(scan := true, cache := SC.Start()))
  }

  /** After a scan starts, the first frame of any stranger is reported to
      the handler, with the stranger's address. */
  lemma ScanReportsStranger(r: Radio, frame: seq<Byte>)
    requires Valid(r) && r.config.handler && |frame| > HEADER_SIZE
    requires !Contains(r.store.peers, Sender(frame))
    requires frame[8] !in {ENROLL, ATTACH, DETACH}
    ensures Notify(ScanFindDevice, Sender(frame)) in OnRxDone(ScanStart(r), frame).effects
  {
  }
}

=== FILE: radio_frame.dfy ===
/** The over-the-air frame of bcl/src/bc_radio.c: an 8-byte header (the
    sender's 48-bit address and a 16-bit rolling message id, both little
    endian) followed by a queue item whose first byte is a type tag. The
    `bc_radio_pub_*` functions build the items; the dispatch loop of the
    radio task decodes received frames back into typed messages. Floats are
    copied with `memcpy`, so they travel as opaque groups of four bytes; the
    16-bit and 64-bit fields copied with `memcpy` follow the little-endian
    byte order of the target. */
module RadioFrame {
  import opened Common

  /** Values of `bc_radio_header_t`. */
  const ENROLL: Byte := 0
  const PUSH_BUTTON: Byte := 1
  const THERMOMETER: Byte := 2
  const HUMIDITY: Byte := 3
  const LUX_METER: Byte := 4
  const BAROMETER: Byte := 5
  const CO2: Byte := 6
  const BUFFER: Byte := 7
  const ATTACH: Byte := 8
  const DETACH: Byte := 9
  const BATTERY: Byte := 10
  const INFO: Byte := 11

  const HEADER_SIZE: nat := 8

  /** The raw bytes of a `float`, never interpreted. */
  type Float32 = s: seq<Byte> | |s| == 4 witness [0, 0, 0, 0]

  /** Typed content of a published item, one constructor per handler
      `bc_radio_on_*`. */
  datatype Message =
    | PushButton(eventCount: U16)
    | Thermometer(channel: Byte, temperature: Float32)
    | Humidity(channel: Byte, percentage: Float32)
    | LuxMeter(channel: Byte, illuminance: Float32)
    | Barometer(channel: Byte, pascal: Float32, meter: Float32)
    | Co2(concentration: Float32)
    | Battery(format: Byte, voltage: Float32, charge: Float32)
    | Buffer(data: seq<Byte>)
    | Info(firmware: seq<Byte>)

  /** No NUL byte: what `strlen` measures is the whole string. */
  predicate NoNul(s: seq<Byte>)
  {
    forall i :: 0 <= i < |s| ==> s[i] != 0
  }

  /** A firmware name is a C string, so it holds no NUL byte. */
  predicate WellFormed(m: Message)
  {
    m.Info? ==> NoNul(m.firmware)
  }

  lemma Pow256Values()
    ensures Pow256(2) == 0x1_0000
    ensures Pow256(6) == 0x1_0000_0000_0000
    ensures Pow256(8) == 0x1_0000_0000_0000_0000
  {
    assert Pow256(1) == 0x100;
    assert Pow256(2) == 0x1_0000;
    assert Pow256(3) == 0x100_0000;
    assert Pow256(4) == 0x1_0000_0000;
    assert Pow256(5) == 0x100_0000_0000;
    assert Pow256(6) == 0x1_0000_0000_0000;
    assert Pow256(7) == 0x100_0000_0000_0000;
  }

  /** The header written before every transmitted frame: address bytes 0-5
      and id bytes 6-7, low byte first. */
  function Header(address: U64, id: U16): (h: seq<Byte>)
    ensures |h| == HEADER_SIZE
  {
    LeBytes(address, 6) + LeBytes(id, 2)
  }

  /** The sender address assembled from bytes 0-5 of a received frame. */
  function Sender(frame: seq<Byte>): (a: U64)
    requires |frame| >= 6
    ensures a < 0x1_0000_0000_0000
  {
    Pow256Values();
    LeValue(frame[..6])
  }

  /** The message id assembled from bytes 6-7 of a received frame. */
  function MessageId(frame: seq<Byte>): (id: U16)
    requires |frame| >= HEADER_SIZE
  {
    Pow256Values();
    LeValue(frame[6..8])
  }

  /** A 64-bit little-endian field of eight bytes. */
  function Word64(s: seq<Byte>): (w: U64)
    requires |s| == 8
    ensures LeBytes(w, 8) == s
  {
    Pow256Values();
    LeBytesOfLeValue(s);
    LeValue(s)
  }

  /** The receiver recovers the low 48 bits of the sender's address and the
      whole message id from any frame that starts with a header. */
  lemma HeaderRoundTrip(address: U64, id: U16, rest: seq<Byte>)
    ensures Sender(Header(address, id) + rest) == address % 0x1_0000_0000_0000
    ensures MessageId(Header(address, id) + rest) == id
  {
    var f := Header(address, id) + rest;
    assert f[..6] == LeBytes(address, 6);
    assert f[6..8] == LeBytes(id, 2);
    Pow256Values();
    LeValueOfLeBytes(address, 6);
    LeRoundTrip(id, 2);
  }

  /** The text before the first NUL byte, as a C string reader sees it. */
  function CString(s: seq<Byte>): (r: seq<Byte>)
    ensures NoNul(r) && r <= s
    ensures |r| < |s| ==> s[|r|] == 0
  {
    if |s| == 0 || s[0] == 0 then [] else [s[0]] + CString(s[1..])
  }

  /** A string without NUL is read back whole. */
  lemma {:induction false} CStringWhole(s: seq<Byte>)
    requires NoNul(s)
    ensures CString(s) == s
  {
    if |s| > 0 {
      CStringWhole(s[1..]);
    }
  }

  /** The type byte each message is sent under. */
  function Tag(m: Message): Byte
  {
    match m
    case PushButton(_) => PUSH_BUTTON
    case Thermometer(_, _) => THERMOMETER
    case Humidity(_, _) => HUMIDITY
    case LuxMeter(_, _) => LUX_METER
    case Barometer(_, _, _) => BAROMETER
    case Co2(_) => CO2
    case Battery(_, _, _) => BATTERY
    case Buffer(_) => BUFFER
    case Info(_) => INFO
  }

  /** The queue item each `bc_radio_pub_*` function puts: the tag, then the
      fields in declaration order. The firmware name is followed by the
      terminating NUL that `strncpy` copies. */
  function Encode(m: Message): (item: seq<Byte>)
    ensures |item| >= 1 && item[0] == Tag(m)
  {
    match m
    case PushButton(n) => [PUSH_BUTTON] + LeBytes(n, 2)
    case Thermometer(c, t) => [THERMOMETER, c] + t
    case Humidity(c, p) => [HUMIDITY, c] + p
    case LuxMeter(c, l) => [LUX_METER, c] + l
    case Barometer(c, p, h) => [BAROMETER, c] + p + h
    case Co2(c) => [CO2] + c
    case Battery(f, v, p) => [BATTERY, f] + v + p
    case Buffer(d) => [BUFFER] + d
    case Info(fw) => [INFO] + fw + [0]
  }

  /** The item `bc_radio_peer_device_add` and `_remove` publish: the tag and
      the full 64-bit peer address. */
  function AttachItem(attach: bool, address: U64): (item: seq<Byte>)
    ensures |item| == 9
    ensures item[0] == (if attach then ATTACH else DETACH) && item[1..] == LeBytes(address, 8)
  {
    [if attach then ATTACH else DETACH] + LeBytes(address, 8)
  }

  /** Dispatch of one received frame in the radio task. Every tag with a
      handler is decoded from the bytes after the header; enrollment,
      attach, detach and unknown tags call nothing. */
  function Decode(frame: seq<Byte>): (r: Option<(U64, Message)>)
    ensures r.Some? ==> |frame| > HEADER_SIZE && r.value.0 == Sender(frame)
    ensures r.Some? ==> frame[8] !in {ENROLL, ATTACH, DETACH} && frame[8] <= INFO
    ensures r.Some? ==> WellFormed(r.value.1) && Tag(r.value.1) == frame[8]
  {
    if |frame| <= HEADER_SIZE then None
    else
      var m := DecodeItem(frame[8], frame[9..]);
      if m.None? then None else Some((Sender(frame), m.value))
  }

  /** The message of a queue item with tag `tag` and the bytes `body`
      after it. A body shorter than its tag's layout is refused here. The
      information string is read after the last byte of the frame is
      overwritten with NUL. */
  function DecodeItem(tag: Byte, body: seq<Byte>): (m: Option<Message>)
    ensures m.Some? ==> tag != ENROLL && tag != ATTACH && tag != DETACH && tag <= INFO
    ensures m.Some? ==> WellFormed(m.value) && Tag(m.value) == tag
  {
    if tag == PUSH_BUTTON then
      if |body| < 2 then None else Some(PushButton(LeValue(body[..2]) as U16))
    else if tag == THERMOMETER then
      if |body| < 5 then None else Some(Thermometer(body[0], body[1..5]))
    else if tag == HUMIDITY then
      if |body| < 5 then None else Some(Humidity(body[0], body[1..5]))
    else if tag == LUX_METER then
      if |body| < 5 then None else Some(LuxMeter(body[0], body[1..5]))
    else if tag == BAROMETER then
      if |body| < 9 then None else Some(Barometer(body[0], body[1..5], body[5..9]))
    else if tag == CO2 then
      if |body| < 4 then None else Some(Co2(body[..4]))
    else if tag == BATTERY then
      if |body| < 9 then None else Some(Battery(body[0], body[1..5], body[5..9]))
    else if tag == BUFFER then
      Some(Buffer(body))
    else if tag == INFO then
      if |body| < 1 then None else Some(Info(CString(body[..|body| - 1])))
    else None
  }

  /** Every message a node publishes reaches the receiver's handler intact,
      attributed to the low 48 bits of the sender's address, whatever the
      message id. */
  lemma DecodeEncode(address: U64, id: U16, m: Message)
    requires WellFormed(m)
    ensures Decode(Header(address, id) + Encode(m)) == Some((address % 0x1_0000_0000_0000, m))
  {
    var item := Encode(m);
    var f := Header(address, id) + item;
    HeaderRoundTrip(address, id, item);
    assert f[8] == item[0];
    assert f[9..] == item[1..];
    DecodeItemEncode(m);
  }

  /** Each item decodes to the message it was encoded from. */
  lemma DecodeItemEncode(m: Message)
    requires WellFormed(m)
    ensures DecodeItem(Encode(m)[0], Encode(m)[1..]) == Some(m)
  {
    var body := Encode(m)[1..];
    match m
    case PushButton(n) =>
      assert body == LeBytes(n, 2);
      DecodePushButton(n);
    case Thermometer(c, t) =>
      assert body == [c] + t;
      DecodeOneFloat(c, t);
    case Humidity(c, p) =>
      assert body == [c] + p;
      DecodeOneFloat(c, p);
    case LuxMeter(c, l) =>
      assert body == [c] + l;
      DecodeOneFloat(c, l);
    case Barometer(c, p, h) =>
      assert body == [c] + p + h;
      DecodeTwoFloats(c, p, h);
    case Battery(fo, v, p) =>
      assert body == [fo] + v + p;
      DecodeTwoFloats(fo, v, p);
    case Co2(c) =>
      assert body == c;
      assert body[..4] == c;
    case Buffer(d) =>
      assert body == d;
    case Info(fw) =>
      assert body == fw + [0];
      DecodeInfo(fw);
  }

  lemma DecodePushButton(n: U16)
    ensures DecodeItem(PUSH_BUTTON, LeBytes(n, 2)) == Some(PushButton(n))
  {
    Pow256Values();
    LeRoundTrip(n, 2);
    assert LeBytes(n, 2)[..2] == LeBytes(n, 2);
  }

  /** The items made of a channel byte and one float. */
  lemma DecodeOneFloat(c: Byte, x: Float32)
    ensures DecodeItem(THERMOMETER, [c] + x) == Some(Thermometer(c, x))
    ensures DecodeItem(HUMIDITY, [c] + x) == Some(Humidity(c, x))
    ensures DecodeItem(LUX_METER, [c] + x) == Some(LuxMeter(c, x))
  {
    assert ([c] + x)[1..5] == x;
  }

  /** The items made of a channel or format byte and two floats. */
  lemma DecodeTwoFloats(c: Byte, x: Float32, y: Float32)
    ensures DecodeItem(BAROMETER, [c] + x + y) == Some(Barometer(c, x, y))
    ensures DecodeItem(BATTERY, [c] + x + y) == Some(Battery(c, x, y))
  {
    var body := [c] + x + y;
    assert body[0] == c;
    assert body[1..5] == x;
    assert body[5..9] == y;
  }

  lemma DecodeInfo(fw: seq<Byte>)
    requires NoNul(fw)
    ensures DecodeItem(INFO, fw + [0]) == Some(Info(fw))
  {
    assert (fw + [0])[..|fw|] == fw;
    CStringWhole(fw);
  }

  /** Control frames are never delivered to a handler. */
  lemma ControlFramesNotDelivered(address: U64, id: U16, attach: bool, target: U64)
    ensures Decode(Header(address, id) + AttachItem(attach, target)).None?
    ensures Decode(Header(address, id) + [ENROLL]).None?
  {
    assert (Header(address, id) + AttachItem(attach, target))[8] == AttachItem(attach, target)[0];
    assert (Header(address, id) + [ENROLL])[8] == ENROLL;
  }
}

=== FILE: relay.dfy ===
/** The bistable relay module of src/bc_module_relay.c. A TCA9534A port
    expander drives the relay coil with one of two polarities; after each
    energising pulse the coil is de-energised again. Commands (set or
    pulse) are queued by the public calls and carried out by a scheduler
    task that walks a small state machine. Whether each expander
    transaction succeeds is a parameter of the call that performs it; the
    scheduler appears as effects. */
module Relay {
  import opened Common

  /** Port values of the three coil drives. */
  const POLARITY_T: Byte := 0xC0
  const POLARITY_F: Byte := 0x30
  const POLARITY_NONE: Byte := 0x50

  /** `BC_MODULE_RELAY_TASK_STATE_*`. */
  datatype TaskState =
    | Idle
    | Set
    | SetDemagnetize
    | Pulse
    | PulseDemagnetize
    | PulseReverse
    | PulseDemagnetize2

  /** `BC_MODULE_RELAY_COMMAND_*`. */
  datatype Command = NoCommand | SetCommand | PulseCommand

  /** `bc_module_relay_state_t`: the contact position as far as the driver
      knows it. */
  datatype Position = False | True | Unknown

  /** What the driver asks of the expander and of the scheduler. */
  datatype Effect =
    | ExpanderInit
    | WritePort(value: Byte)
    | SetDirection(value: Byte)
    | Register
    | Unregister(taskId: nat)

  datatype Relay = Relay(
    state: TaskState,
    command: Command,
    desired: Position,
    position: Position,
    pulseDuration: nat,
    error: bool,
    taskActive: bool,
    taskId: nat)

  /** The outcome of the expander transactions of one task run: the
      re-initialisation tried when an error is pending, and the one coil
      write of the run. */
  datatype Hardware = Hardware(initOk: bool, writeOk: bool)

  /** A desired position is always one the coil can be driven to. */
  predicate Valid(r: Relay)
  {
    r.desired != Unknown
  }

  /** The port value that drives the coil towards a position: anything
      other than the true position is driven as false. */
  function Polarity(p: Position): (v: Byte)
    ensures v == POLARITY_T <==> p == True
    ensures v == POLARITY_F <==> p != True
  {
    if p == True then POLARITY_T else POLARITY_F
  }

  /** `_bc_module_relay_hardware_init`: initialise the expander; only if
      that succeeds, de-energise the coil, make the port an output and
      forget the contact position. The results of the two writes are not
      checked. */
  function HardwareInit(r: Relay, ok: bool): (s: (Relay, seq<Effect>))
    ensures ok ==> s.0 == r.(position := Unknown)
    ensures ok ==> s.1 == [ExpanderInit, WritePort(POLARITY_NONE), SetDirection(0)]
    ensures !ok ==> s == (r, [ExpanderInit])
  {
    if ok then (r.(position := Unknown), [ExpanderInit, WritePort(POLARITY_NONE), SetDirection(0)])
    else (r, [ExpanderInit])
  }

  /** `bc_module_relay_init`: a zeroed instance (idle, no command, no task,
      no error; the zeroed position and desired position are the first
      enumerator, false) followed by the hardware initialisation, whose
      success is returned. */
  function Init(ok: bool): (s: (Relay, seq<Effect>, bool))
    ensures Valid(s.0) && s.0.state == Idle && s.0.command == NoCommand
    ensures !s.0.taskActive && !s.0.error && s.2 == ok
    ensures s.0.position == if ok then Unknown else False
  {
    var zero := Relay(Idle, NoCommand, False, False, 0, false, false, 0);
    var (r, effects) := HardwareInit(zero, ok);
    (r, effects, ok)
  }

  /** `bc_module_relay_scheduler_register`: register the task unless it is
      already registered; the scheduler hands out `id`. */
  function RegisterTask(r: Relay, id: nat): (s: (Relay, seq<Effect>))
    ensures s.0.taskActive
    ensures r.taskActive ==> s == (r, [])
    ensures !r.taskActive ==> s == (r.(taskActive := true, taskId := id), [Register])
  {
    if r.taskActive then (r, []) else (r.(taskActive := true, taskId := id), [Register])
  }

  /** `bc_module_relay_scheduler_unregister`. */
  function UnregisterTask(r: Relay): (s: (Relay, seq<Effect>))
    ensures !s.0.taskActive
    ensures r.taskActive ==> s == (r.(taskActive := false, taskId := 0), [Unregister(r.taskId)])
    ensures !r.taskActive ==> s == (r, [])
  {
    if r.taskActive then (r.(taskActive := false, taskId := 0), [Unregister(r.taskId)]) else (r, [])
  }

  /** `bc_module_relay_set_state`: queue a set command towards the given
      position and make sure the task runs. */
  function SetState(r: Relay, closed: bool, id: nat): (s: (Relay, seq<Effect>))
    ensures Valid(s.0) && s.0.taskActive
    ensures s.0.command == SetCommand
    ensures s.0.desired == if closed then True else False
    ensures s.1 == if r.taskActive then [] else [Register]
    ensures s.0.state == r.state && s.0.position == r.position && s.0.error == r.error
    ensures s.0.pulseDuration == r.pulseDuration
  {
    RegisterTask(r.(command := SetCommand, desired := if closed then True else False), id)
  }

  /** `bc_module_relay_pulse`: queue a pulse towards the given position for
      `duration` ticks and make sure the task runs. */
  function PulseCommandOf(r: Relay, closed: bool, duration: nat, id: nat): (s: (Relay, seq<Effect>))
    ensures Valid(s.0) && s.0.taskActive
    ensures s.0.command == PulseCommand && s.0.pulseDuration == duration
    ensures s.0.desired == if closed then True else False
    ensures s.1 == if r.taskActive then [] else [Register]
    ensures s.0.state == r.state && s.0.position == r.position && s.0.error == r.error
  {
    RegisterTask(r.(command := PulseCommand, pulseDuration := duration, desired := if closed then True else False), id)
  }

  /** Queuing commands registers the task once: a second command while the
      first is pending adds no registration and simply replaces it. */
  lemma CommandsRegisterOnce(r: Relay, a: bool, b: bool, id: nat, id2: nat)
    ensures SetState(SetState(r, a, id).0, b, id2).1 == []
    ensures SetState(SetState(r, a, id).0, b, id2).0 == SetState(r, b, id).0
    ensures PulseCommandOf(SetState(r, a, id).0, b, 7, id2).1 == []
  {
  }

  /** `bc_module_relay_toggle`: set the opposite of a known position; an
      unknown position is left alone. */
  function Toggle(r: Relay, id: nat): (s: (Relay, seq<Effect>))
    ensures r.position == Unknown ==> s == (r, [])
    ensures r.position == False ==> s == SetState(r, true, id)
    ensures r.position == True ==> s == SetState(r, false, id)
  {
    match r.position
    case False => SetState(r, true, id)
    case True => SetState(r, false, id)
    case Unknown => (r, [])
  }

  /** `_bc_module_relay_set_output`: drive the coil towards a position; a
      failed write raises the error flag. */
  function SetOutput(r: Relay, p: Position, ok: bool): (s: (Relay, seq<Effect>))
    ensures s.1 == [WritePort(Polarity(p))]
    ensures s.0 == r.(error := r.error || !ok)
  {
    (if ok then r else r.(error := true), [WritePort(Polarity(p))])
  }

  /** `_bc_module_relay_set_output_disable`: de-energise the coil; a failed
      write raises the error flag. */
  function Disable(r: Relay, ok: bool): (s: (Relay, seq<Effect>))
    ensures s.1 == [WritePort(POLARITY_NONE)]
    ensures s.0 == r.(error := r.error || !ok)
  {
    (if ok then r else r.(error := true), [WritePort(POLARITY_NONE)])
  }

  /** What one run of the task leaves behind: the relay, the effects in
      order and the delay the task returns (0 once it has unregistered
      itself). */
  datatype Run = Run(relay: Relay, effects: seq<Effect>, next: nat)

  /** The position opposite to a known one; the reverse pulse drives an
      unknown position to true. */
  function Opposite(p: Position): Position
  {
    if p == True then False else True
  }

  /** The states other than idle: each performs one coil write and returns
      the delay before the next state. */
  function Step(r: Relay, writeOk: bool): (s: Run)
    requires r.state != Idle
    // Exactly one coil write per run; a failed one raises the error flag.
    ensures |s.effects| == 1 && s.effects[0].WritePort?
    ensures s.relay.error <==> r.error || !writeOk
    ensures s.relay == r.(state := s.relay.state, position := s.relay.position, error := s.relay.error)
    // Energising: towards the desired position, then 20 ticks of current.
    ensures r.state in {Set, Pulse} ==>
      s.effects == [WritePort(Polarity(r.desired))] && s.relay.position == r.desired && s.next == 20
    // The reverse pulse of a pulse command drives the opposite position.
    ensures r.state == PulseReverse ==>
      s.relay.position == Opposite(r.position) && s.effects == [WritePort(Polarity(Opposite(r.position)))] && s.next == 20
    // De-energising keeps the position.
    ensures r.state in {SetDemagnetize, PulseDemagnetize, PulseDemagnetize2} ==>
      s.effects == [WritePort(POLARITY_NONE)] && s.relay.position == r.position
    ensures r.state == PulseDemagnetize ==> s.next == r.pulseDuration
    // Only the last de-energising step returns to idle, 100 ticks later.
    ensures s.relay.state == Idle <==> r.state in {SetDemagnetize, PulseDemagnetize2}
    ensures s.relay.state == Idle ==> s.next == 100
  {
    match r.state
    case Set =>
      var (r1, e) := SetOutput(r, r.desired, writeOk);
      Run(r1.(position := r.desired, state := SetDemagnetize), e, 20)
    case SetDemagnetize =>
      var (r1, e) := Disable(r, writeOk);
      Run(r1.(state := Idle), e, 100)
    case Pulse =>
      var (r1, e) := SetOutput(r, r.desired, writeOk);
      Run(r1.(position := r.desired, state := PulseDemagnetize), e, 20)
    case PulseDemagnetize =>
      var (r1, e) := Disable(r, writeOk);
      Run(r1.(state := PulseReverse), e, r.pulseDuration)
    case PulseReverse =>
      var p := Opposite(r.position);
      var (r1, e) := SetOutput(r.(position := p), p, writeOk);
      Run(r1.(state := PulseDemagnetize2), e, 20)
    case PulseDemagnetize2 =>
      var (r1, e) := Disable(r, writeOk);
      Run(r1.(state := Idle), e, 100)
  }

  /** `_bc_module_relay_task`: in the idle state, retry the hardware
      initialisation when an error is pending, then start the queued
      command in the same run, or unregister and return 0 when there is
      none; in any other state perform that state's step. */
  function Task(r: Relay, hw: Hardware): (s: Run)
    requires Valid(r)
    ensures Valid(s.relay)
    // The idle state with nothing queued: the task removes itself.
    ensures r.state == Idle && r.command == NoCommand ==>
      (&& s.next == 0 && !s.relay.taskActive && s.relay.state == Idle
       && s.effects == (if r.error then HardwareInit(r, hw.initOk).1 else [])
          + (if r.taskActive then [Unregister(r.taskId)] else []))
    // A pending error is retried only from the idle state, and cleared only by a successful retry.
    ensures r.state == Idle && r.error ==> |s.effects| > 0 && s.effects[0] == ExpanderInit
    ensures r.state != Idle ==> ExpanderInit !in s.effects
    // Every write of a coil drive that fails leaves the error flag raised.
    ensures s.relay.error <==>
      (|| (r.error && !(r.state == Idle && hw.initOk))
       || (!hw.writeOk && !(r.state == Idle && r.command == NoCommand)))
    // A queued command is consumed exactly when the idle state starts it.
    ensures r.state == Idle ==> s.relay.command == NoCommand
    ensures r.state != Idle ==> s.relay.command == r.command
    ensures s.relay.desired == r.desired && s.relay.pulseDuration == r.pulseDuration
  {
    match r.state
    case Idle =>
      var (r1, e1) := if r.error then HardwareInit(r, hw.initOk) else (r, []);
      var r2 := if r.error && hw.initOk then r1.(error := false) else r1;
      if r2.command == SetCommand then
        var run := Step(r2.(command := NoCommand, state := Set), hw.writeOk);
        Run(run.relay, e1 + run.effects, run.next)
      else if r2.command == PulseCommand then
        var run := Step(r2.(command := NoCommand, state := Pulse), hw.writeOk);
        Run(run.relay, e1 + run.effects, run.next)
      else
        var u := UnregisterTask(r2);
        assert u.0.command == r2.command && u.0.error == r2.error;
        Run(u.0, e1 + u.1, 0)
    case _ => Step(r, hw.writeOk)
  }

  /** Runs of the task with every expander transaction succeeding. */
  function Healthy(): Hardware { Hardware(true, true) }

  /** The set sequence: the coil is energised towards the desired position
      for 20 ticks, de-energised for 100, and the next run finds nothing to
      do and unregisters the task. */
  lemma SetSequence(r: Relay, closed: bool, id: nat)
    requires Valid(r) && r.state == Idle && !r.error && r.command == NoCommand
    ensures var s0 := SetState(r, closed, id).0;
      var p := if closed then True else False;
      var run1 := Task(s0, Healthy());
      var run2 := Task(run1.relay, Healthy());
      var run3 := Task(run2.relay, Healthy());
      && run1.effects == [WritePort(Polarity(p))] && run1.next == 20
      && run1.relay.position == p
      && run2.effects == [WritePort(POLARITY_NONE)] && run2.next == 100
      && run2.relay.state == Idle && run2.relay.position == p
      && run3.effects == [Unregister(s0.taskId)] && run3.next == 0
      && !run3.relay.taskActive && !run3.relay.error
  {
  }

  /** The pulse sequence: energise towards the desired position for 20
      ticks, rest for the pulse duration, energise back towards the
      opposite position for 20 ticks, de-energise for 100. The driver ends
      believing the contact is in the opposite position. */
  lemma PulseSequence(r: Relay, closed: bool, duration: nat, id: nat)
    requires Valid(r) && r.state == Idle && !r.error && r.command == NoCommand
    ensures var s0 := PulseCommandOf(r, closed, duration, id).0;
      var p := if closed then True else False;
      var q := if closed then False else True;
      var run1 := Task(s0, Healthy());
      var run2 := Task(run1.relay, Healthy());
      var run3 := Task(run2.relay, Healthy());
      var run4 := Task(run3.relay, Healthy());
      && run1.effects == [WritePort(Polarity(p))] && run1.next == 20
      && run2.effects == [WritePort(POLARITY_NONE)] && run2.next == duration
      && run3.effects == [WritePort(Polarity(q))] && run3.next == 20
      && run4.effects == [WritePort(POLARITY_NONE)] && run4.next == 100
      && run4.relay.state == Idle && run4.relay.position == q && !run4.relay.error
  {
  }

  /** A failed write is repaired by the next idle run whose
      re-initialisation succeeds, and only then; the contact position is
      unknown afterwards. */
  lemma ErrorRecovery(r: Relay, writeOk: bool)
    requires Valid(r) && r.state == Idle && r.error && r.command == NoCommand
    ensures !Task(r, Hardware(true, writeOk)).relay.error
    ensures Task(r, Hardware(true, writeOk)).relay.position == Unknown
    ensures Task(r, Hardware(false, writeOk)).relay.error
  {
  }
}

=== FILE: scan_cache.dfy ===
/** The scan cache of bcl/src/bc_radio.c: a ring of the last four unpaired
    addresses seen while scanning, used to report each of them once. */
module ScanCache {
  import opened Common

  const LENGTH: nat := 4

  datatype Cache = Cache(entries: seq<U64>, length: nat, head: nat)

  /** Shape of the ring: four slots, a length that saturates at four, and a
      head that equals the length until the ring first fills. */
  ghost predicate Valid(c: Cache)
  {
    && |c.entries| == LENGTH
    && c.length <= LENGTH
    && c.head < LENGTH
    && (c.length < LENGTH ==> c.head == c.length)
  }

  /** The addresses the push loop compares against. */
  function Recent(c: Cache): seq<U64>
    requires c.length <= |c.entries|
  {
    c.entries[..c.length]
  }

  /** `bc_radio_scan_start` clears the ring. */
  function Start(): (c: Cache)
    ensures Valid(c) && Recent(c) == []
  {
    Cache([0, 0, 0, 0], 0, 0)
  }

  datatype PushResult = PushResult(cache: Cache, isNew: bool)

  /** `_bc_radio_scan_cache_push`: refuse an address among the first
      `length` entries; otherwise store it at the head, advance the head
      modulo four, saturate the length at four and report it as new. */
  function Push(c: Cache, address: U64): (r: PushResult)
    requires Valid(c)
    ensures Valid(r.cache)
    ensures r.isNew <==> address !in Recent(c)
    ensures !r.isNew ==> r.cache == c
    ensures r.isNew ==> address in Recent(r.cache)
    ensures r.isNew ==> r.cache.entries == c.entries[c.head := address]
    ensures r.isNew ==> r.cache.length == if c.length < LENGTH then c.length + 1 else LENGTH
    ensures r.isNew ==> r.cache.head == (c.head + 1) % LENGTH
  {
    if address in Recent(c) then PushResult(c, false)
    else
      var length := if c.length < LENGTH then c.length + 1 else c.length;
      var head := if c.head + 1 == LENGTH then 0 else c.head + 1;
      var c' := Cache(c.entries[c.head := address], length, head);
      assert c'.entries[c.head] == address && c.head < c'.length;
      PushResult(c', true)
  }

  /** An address reported once is not reported again by the very next
      push: the cache suppresses immediate duplicates. */
  lemma PushTwiceReportsOnce(c: Cache, address: U64)
    requires Valid(c)
    ensures !Push(Push(c, address).cache, address).isNew
  {
  }

  /** Until the ring has taken four addresses, every address pushed since
      the last start stays among the compared entries, so a repeat of any of
      them is not reported again; the entries already there keep their
      places. */
  lemma {:induction false} RememberedUntilFull(c: Cache, addresses: seq<U64>)
    requires Valid(c)
    requires c.length + |addresses| <= LENGTH
    ensures var c' := PushAll(c, addresses);
      forall a :: a in addresses ==> a in Recent(c')
    ensures Recent(c) <= Recent(PushAll(c, addresses))
    decreases |addresses|
  {
    if |addresses| > 0 {
      var r := Push(c, addresses[0]);
      assert r.cache.length <= c.length + 1;
      assert Recent(c) <= Recent(r.cache) by {
        if r.isNew {
          assert r.cache.entries[..c.length] == c.entries[..c.length];
        }
      }
      RememberedUntilFull(r.cache, addresses[1..]);
      forall a | a in addresses
        ensures a in Recent(PushAll(c, addresses))
      {
        if a != addresses[0] {
          assert a in addresses[1..];
        }
      }
    }
  }

  /** Pushes of a run of addresses, one after another. */
  function PushAll(c: Cache, addresses: seq<U64>): (c': Cache)
    requires Valid(c)
    ensures Valid(c')
    decreases |addresses|
  {
    if |addresses| == 0 then c else PushAll(Push(c, addresses[0]).cache, addresses[1..])
  }
}

=== FILE: usb_cdc.dfy ===
/** The USB CDC (virtual serial port) driver of src/bc_usb_cdc.c: a
    1024-byte transmit buffer that writes append to and a scheduler task
    flushes, and a receive FIFO that the USB interrupt fills and reads
    drain one byte at a time. The USB stack is outside the model: whether
    a transmission is accepted, and how many received bytes the FIFO takes
    (its implementation, bc_fifo, is not part of this model), are
    parameters. */
module UsbCdc {
  import opened Common

  /** The size of `transmit_buffer` (and of `receive_buffer`). */
  const BUFFER_SIZE: nat := 1024

  datatype Effect =
    | UsbStart
    | RegisterTask(tick: nat)
    | DisableUsbIrq
    | Transmit(data: seq<Byte>)
    | EnableUsbIrq

  /** The bytes waiting to be transmitted (`transmit_buffer` up to
      `transmit_length`) and the bytes waiting in the receive FIFO, oldest
      first. */
  datatype Cdc = Cdc(transmit: seq<Byte>, receive: seq<Byte>)

  predicate Valid(c: Cdc)
  {
    |c.transmit| <= BUFFER_SIZE && |c.receive| <= BUFFER_SIZE
  }

  /** `bc_usb_cdc_init`: both buffers empty, the USB device started and
      the task registered to run at once. */
  function Init(): (r: (Cdc, seq<Effect>))
    ensures Valid(r.0) && r.0.transmit == [] && r.0.receive == []
    ensures r.1 == [UsbStart, RegisterTask(0)]
  {
    (Cdc([], []), [UsbStart, RegisterTask(0)])
  }

  /** `bc_usb_cdc_write`: refused, with nothing changed, when the bytes do
      not fit in what is left of the buffer; otherwise appended after the
      bytes already waiting. */
  function Write(c: Cdc, data: seq<Byte>): (r: (Cdc, bool))
    requires Valid(c)
    ensures Valid(r.0)
    ensures r.1 <==> |c.transmit| + |data| <= BUFFER_SIZE
    ensures !r.1 ==> r.0 == c
    ensures r.1 ==> |r.0.transmit| == |c.transmit| + |data|
    ensures r.1 ==> r.0.transmit[..|c.transmit|] == c.transmit && r.0.transmit[|c.transmit|..] == data
    ensures r.0.receive == c.receive
  {
    if |data| > BUFFER_SIZE - |c.transmit| then (c, false)
    else (c.(transmit := c.transmit + data), true)
  }

  /** `_bc_usb_cdc_task`: nothing to do with an empty buffer; otherwise
      hand the whole buffer to the USB stack with its interrupt masked,
      and empty the buffer only if the stack accepted it. The task asks to
      run again at once either way. */
  function Task(c: Cdc, now: nat, accepted: bool): (r: (Cdc, seq<Effect>, nat))
    ensures r.2 == now
    ensures c.transmit == [] ==> r.0 == c && r.1 == []
    ensures c.transmit != [] ==> r.1 == [DisableUsbIrq, Transmit(c.transmit), EnableUsbIrq]
    ensures r.0.transmit == if accepted then [] else c.transmit
    ensures r.0.receive == c.receive
  {
    if |c.transmit| == 0 then (c, [], now)
    else (c.(transmit := if accepted then [] else c.transmit), [DisableUsbIrq, Transmit(c.transmit), EnableUsbIrq], now)
  }

  /** Bytes written before a flush go out in one transmission, in the
      order written, and a refused transmission keeps them for the next
      run of the task. */
  lemma WritesFlushInOrder(c: Cdc, a: seq<Byte>, b: seq<Byte>, now: nat)
    requires Valid(c) && c.transmit == []
    requires 0 < |a| + |b| <= BUFFER_SIZE
    ensures var w := Write(Write(c, a).0, b);
      && w.1
      && Task(w.0, now, true).1 == [DisableUsbIrq, Transmit(a + b), EnableUsbIrq]
      && Task(w.0, now, true).0.transmit == []
      && Task(Task(w.0, now, false).0, now, true).1 == Task(w.0, now, true).1
  {
    var w1 := Write(c, a).0;
    var w := Write(w1, b).0;
    assert w1.transmit == a;
    assert w.transmit == a + b;
  }

  /** `bc_usb_cdc_received_data`: the FIFO takes the first `accepted`
      bytes (all that fit). */
  function ReceivedData(c: Cdc, data: seq<Byte>, accepted: nat): (r: Cdc)
    requires Valid(c) && accepted <= |data| && |c.receive| + accepted <= BUFFER_SIZE
    ensures Valid(r)
    ensures |r.receive| == |c.receive| + accepted
    ensures r.receive[..|c.receive|] == c.receive && r.receive[|c.receive|..] == data[..accepted]
    ensures r.transmit == c.transmit
  {
    c.(receive := c.receive + data[..accepted])
  }

  function Min(a: nat, b: nat): nat
  {
    if a <= b then a else b
  }

  /** `bc_usb_cdc_read`: take bytes from the FIFO one at a time until
      `length` have been taken or a read finds it empty. The bytes
      returned are the oldest ones waiting, and no byte is lost: they and
      what stays in the FIFO make up what was there. */
  method Read(c: Cdc, length: nat) returns (r: Cdc, bytes: seq<Byte>)
    ensures |bytes| == Min(length, |c.receive|)
    ensures bytes + r.receive == c.receive
    ensures r.transmit == c.transmit
  {
    r := c;
    bytes := [];
    var remaining: nat := length;
    while remaining != 0
      invariant remaining <= length
      invariant |bytes| == length - remaining
      invariant bytes + r.receive == c.receive
      invariant r.transmit == c.transmit
      decreases remaining
    {
      if |r.receive| > 0 {
        bytes := bytes + [r.receive[0]];
        r := r.(receive := r.receive[1..]);
      } else {
        break;
      }
      remaining := remaining - 1;
    }
  }
}

=== FILE: ws2812b.dfy ===
/** The WS2812B LED strip driver of bcl/src/bc_ws2812b.c. Each colour bit
    of each pixel becomes one byte of a DMA buffer: the compare value of
    the PWM timer for that bit period, 13 timer ticks for a one and 5 for
    a zero, sent to the strip most significant bit first. The driver fills
    the buffer a nibble at a time from a 16-entry table of little-endian
    32-bit words. DMA, timer and interrupt configuration are outside the
    model; what remains is the buffer layout and the busy flag. */
module Ws2812b {
  import opened Common

  /** `_BC_WS2812_COMPARE_PULSE_LOGIC_0` and `_1`. */
  const PULSE_LOGIC_0: Byte := 5
  const PULSE_LOGIC_1: Byte := 13

  /** `BC_WS2812B_TYPE_*`: three or four colour channels per pixel. */
  datatype PixelType = Rgb | Rgbw

  /** The channel count, which is also the value of the type constant the
      buffer size is computed from. */
  function Width(kind: PixelType): (w: nat)
    ensures w == 3 || w == 4
  {
    match kind
    case Rgb => 3
    case Rgbw => 4
  }

  datatype Effect = RegisterNever | PlanNow

  datatype Event = SendDone

  /** The buffer, the pixel type and count, whether a frame is on its way,
      and whether an event handler is installed. */
  datatype Strip = Strip(kind: PixelType, count: U16, buffer: seq<Byte>, transfer: bool, hasHandler: bool)

  /** One buffer byte per colour bit of every pixel. */
  predicate Valid(s: Strip)
  {
    |s.buffer| == s.count * Width(s.kind) * 8
  }

  function Pulse(bit: nat): Byte
  {
    if bit == 1 then PULSE_LOGIC_1 else PULSE_LOGIC_0
  }

  /** Entry n of `_bc_ws2812b_pulse_tab`: the pulse for bit 3 of n in the
      low byte up to the pulse for bit 0 in the top byte, so that in memory
      (little-endian) the most significant bit of the nibble comes first.
      The four shifted pulses occupy distinct bytes, so their OR is this
      sum, written low byte first. */
  function PulseTab(n: nat): U32
    requires n < 16
  {
    Pulse(n / 8 % 2) + 0x100 * (Pulse(n / 4 % 2) + 0x100 * (Pulse(n / 2 % 2) + 0x100 * Pulse(n % 2)))
  }

  lemma LeBytesFour(a: Byte, b: Byte, c: Byte, d: Byte)
    ensures LeBytes(a + 256 * (b + 256 * (c + 256 * d)), 4) == [a, b, c, d]
  {
    var z := c + 256 * d;
    var y := b + 256 * z;
    var x := a + 256 * y;
    assert x % 256 == a && x / 256 == y;
    assert y % 256 == b && y / 256 == z;
    assert z % 256 == c && z / 256 == d;
    assert LeBytes(d, 1) == [d];
    assert LeBytes(z, 2) == [c, d];
    assert LeBytes(y, 3) == [b, c, d];
  }

  /** The four bytes a table entry puts in the buffer, in memory order. */
  lemma PulseTabBytes(n: nat)
    requires n < 16
    ensures LeBytes(PulseTab(n), 4) == [Pulse(n / 8 % 2), Pulse(n / 4 % 2), Pulse(n / 2 % 2), Pulse(n % 2)]
  {
    LeBytesFour(Pulse(n / 8 % 2), Pulse(n / 4 % 2), Pulse(n / 2 % 2), Pulse(n % 2));
  }

  /** What the strip reads from a run of pulses, most significant bit
      first: a long pulse is a one, anything else a zero. */
  function Received(pulses: seq<Byte>): (v: nat)
    ensures v < Pow2(|pulses|)
  {
    if |pulses| == 0 then 0
    else 2 * Received(pulses[..|pulses| - 1]) + (if pulses[|pulses| - 1] == PULSE_LOGIC_1 then 1 else 0)
  }

  /** Pulses sent one after the other are received as one number: the
      first run's value shifted past the second run. */
  lemma {:induction false} ReceivedAppend(a: seq<Byte>, b: seq<Byte>)
    ensures Received(a + b) == Received(a) * Pow2(|b|) + Received(b)
    decreases |b|
  {
    if |b| > 0 {
      var b' := b[..|b| - 1];
      var bit := if b[|b| - 1] == PULSE_LOGIC_1 then 1 else 0;
      assert Received(a + b) == 2 * Received(a + b') + bit by {
        assert (a + b)[..|a + b| - 1] == a + b';
        assert (a + b)[|a + b| - 1] == b[|b| - 1];
      }
      ReceivedAppend(a, b');
      ShiftStep(Received(a), Pow2(|b'|), Received(b'), bit);
    } else {
      assert a + b == a;
    }
  }

  lemma ShiftStep(ra: nat, p: nat, rb: nat, bit: nat)
    ensures 2 * (ra * p + rb) + bit == ra * (2 * p) + (2 * rb + bit)
  {
  }

  lemma ReceivedFour(p0: Byte, p1: Byte, p2: Byte, p3: Byte)
    ensures Received([p0, p1, p2, p3])
      == 8 * (if p0 == PULSE_LOGIC_1 then 1 else 0) + 4 * (if p1 == PULSE_LOGIC_1 then 1 else 0)
       + 2 * (if p2 == PULSE_LOGIC_1 then 1 else 0) + (if p3 == PULSE_LOGIC_1 then 1 else 0)
  {
    assert [p0, p1, p2, p3][..3] == [p0, p1, p2];
    assert [p0, p1, p2][..2] == [p0, p1];
    assert [p0, p1][..1] == [p0];
    assert [p0][..0] == [];
    assert Received([p0]) == if p0 == PULSE_LOGIC_1 then 1 else 0;
    assert Received([p0, p1]) == 2 * Received([p0]) + (if p1 == PULSE_LOGIC_1 then 1 else 0);
    assert Received([p0, p1, p2]) == 2 * Received([p0, p1]) + (if p2 == PULSE_LOGIC_1 then 1 else 0);
  }

  /** Every table entry is read back by the strip as the nibble it was
      chosen for. */
  lemma PulseTabReceived(n: nat)
    requires n < 16
    ensures Received(LeBytes(PulseTab(n), 4)) == n
  {
    PulseTabBytes(n);
    ReceivedFour(Pulse(n / 8 % 2), Pulse(n / 4 % 2), Pulse(n / 2 % 2), Pulse(n % 2));
  }

  /** The eight buffer bytes of one colour channel: the table entries of
      its high and its low nibble. */
  function Channel(c: Byte): (pulses: seq<Byte>)
    ensures |pulses| == 8
  {
    LeBytes(PulseTab(c / 16), 4) + LeBytes(PulseTab(c % 16), 4)
  }

  /** Each channel's pulses are received as the channel's value. */
  lemma ChannelRoundTrip(c: Byte)
    ensures Received(Channel(c)) == c
  {
    var hi, lo := LeBytes(PulseTab(c / 16), 4), LeBytes(PulseTab(c % 16), 4);
    PulseTabReceived(c / 16);
    PulseTabReceived(c % 16);
    ReceivedAppend(hi, lo);
    assert Pow2(|lo|) == 16;
    assert Received(hi) * 16 + Received(lo) == c;
  }

  /** A channel is made of short and long pulses only. */
  lemma ChannelPulses(c: Byte)
    ensures forall i :: 0 <= i < 8 ==> Channel(c)[i] == PULSE_LOGIC_0 || Channel(c)[i] == PULSE_LOGIC_1
  {
    PulseTabBytes(c / 16);
    PulseTabBytes(c % 16);
  }

  /** The bytes of one pixel: green, red, blue and, on RGBW strips, white. */
  function PixelPulses(kind: PixelType, red: Byte, green: Byte, blue: Byte, white: Byte): (pulses: seq<Byte>)
    ensures |pulses| == Width(kind) * 8
  {
    Channel(green) + Channel(red) + Channel(blue) + (if kind == Rgbw then Channel(white) else [])
  }

  /** Where pixel `position` starts in the buffer. */
  function Offset(kind: PixelType, position: nat): nat
  {
    position * Width(kind) * 8
  }

  lemma OffsetBound(kind: PixelType, position: nat, count: nat)
    requires position < count
    ensures Offset(kind, position) + Width(kind) * 8 <= count * Width(kind) * 8
  {
    var w := Width(kind) * 8;
    assert Offset(kind, position) == position * w;
    assert count * Width(kind) * 8 == count * w;
    assert (position + 1) * w <= count * w;
  }

  /** The value the strip receives for channel `k` (0 green, 1 red, 2
      blue, 3 white) of pixel `position`. */
  function Shown(s: Strip, position: nat, k: nat): nat
    requires Valid(s) && position < s.count && k < Width(s.kind)
  {
    OffsetBound(s.kind, position, s.count);
    var o := Offset(s.kind, position) + 8 * k;
    Received(s.buffer[o..o + 8])
  }

  /** `bc_ws2812b_init`: a buffer of count * type * 8 short pulses, the
      send-done task registered without a deadline, and no frame on its
      way. Init does not touch the event handler, so one installed before
      (`hasHandler`) stays installed. */
  function Init(kind: PixelType, count: U16, hasHandler: bool): (r: (Strip, seq<Effect>))
    ensures Valid(r.0) && !r.0.transfer && r.0.hasHandler == hasHandler
    ensures r.0.kind == kind && r.0.count == count
    ensures forall i :: 0 <= i < |r.0.buffer| ==> r.0.buffer[i] == PULSE_LOGIC_0
    ensures r.1 == [RegisterNever]
  {
    (Strip(kind, count, seq(count * Width(kind) * 8, _ => PULSE_LOGIC_0), false, hasHandler), [RegisterNever])
  }

  /** A fresh buffer shows every channel of every pixel at zero. */
  lemma InitShowsDark(kind: PixelType, count: U16, hasHandler: bool, position: nat, k: nat)
    requires position < count && k < Width(kind)
    ensures Shown(Init(kind, count, hasHandler).0, position, k) == 0
  {
    var s := Init(kind, count, hasHandler).0;
    OffsetBound(kind, position, count);
    var o := Offset(kind, position) + 8 * k;
    AllShortReceivedZero(s.buffer[o..o + 8]);
  }

  lemma {:induction false} AllShortReceivedZero(pulses: seq<Byte>)
    requires forall i :: 0 <= i < |pulses| ==> pulses[i] == PULSE_LOGIC_0
    ensures Received(pulses) == 0
  {
    if |pulses| > 0 {
      AllShortReceivedZero(pulses[..|pulses| - 1]);
    }
  }

  /** `bc_ws2812b_set_pixel`: the pixel's slice of the buffer is replaced
      by its pulses and nothing else changes. The driver does not check
      the position; the caller must keep it below the pixel count. */
  function SetPixel(s: Strip, position: U16, red: Byte, green: Byte, blue: Byte, white: Byte): (r: Strip)
    requires Valid(s) && position < s.count
    ensures Valid(r) && r.(buffer := s.buffer) == s
    ensures var o := Offset(s.kind, position);
      && o + Width(s.kind) * 8 <= |s.buffer|
      && r.buffer[..o] == s.buffer[..o]
      && r.buffer[o + Width(s.kind) * 8..] == s.buffer[o + Width(s.kind) * 8..]
    ensures var o := Offset(s.kind, position);
      o + Width(s.kind) * 8 <= |s.buffer| && r.buffer[o..o + Width(s.kind) * 8] == PixelPulses(s.kind, red, green, blue, white)
  {
    OffsetBound(s.kind, position, s.count);
    var o := Offset(s.kind, position);
    var pulses := PixelPulses(s.kind, red, green, blue, white);
    s.(buffer := s.buffer[..o] + pulses + s.buffer[o + |pulses|..])
  }

  /** After `SetPixel` the strip receives the pixel's colours: green, red,
      blue and, on RGBW strips, white. */
  lemma SetPixelShows(s: Strip, position: U16, red: Byte, green: Byte, blue: Byte, white: Byte)
    requires Valid(s) && position < s.count
    ensures var r := SetPixel(s, position, red, green, blue, white);
      && Shown(r, position, 0) == green && Shown(r, position, 1) == red && Shown(r, position, 2) == blue
      && (s.kind == Rgbw ==> Shown(r, position, 3) == white)
  {
    var r := SetPixel(s, position, red, green, blue, white);
    var pulses := PixelPulses(s.kind, red, green, blue, white);
    PixelPulsesChannels(s.kind, red, green, blue, white);
    ShownFromPulses(r, position, 0, pulses, Channel(green));
    ShownFromPulses(r, position, 1, pulses, Channel(red));
    ShownFromPulses(r, position, 2, pulses, Channel(blue));
    ChannelRoundTrip(green);
    ChannelRoundTrip(red);
    ChannelRoundTrip(blue);
    if s.kind == Rgbw {
      ShownFromPulses(r, position, 3, pulses, Channel(white));
      ChannelRoundTrip(white);
    }
  }

  /** Where each channel sits in a pixel's pulses. */
  lemma PixelPulsesChannels(kind: PixelType, red: Byte, green: Byte, blue: Byte, white: Byte)
    ensures var pulses := PixelPulses(kind, red, green, blue, white);
      && pulses[0..8] == Channel(green) && pulses[8..16] == Channel(red) && pulses[16..24] == Channel(blue)
      && (kind == Rgbw ==> pulses[24..32] == Channel(white))
  {
    ConcatParts(Channel(green), Channel(red), Channel(blue), if kind == Rgbw then Channel(white) else []);
  }

  lemma ConcatParts(a: seq<Byte>, b: seq<Byte>, c: seq<Byte>, d: seq<Byte>)
    requires |a| == 8 && |b| == 8 && |c| == 8
    ensures var x := a + b + c + d;
      x[0..8] == a && x[8..16] == b && x[16..24] == c && x[24..24 + |d|] == d
  {
  }

  /** A pixel whose pulses hold `ch` at channel `k` shows what the strip
      receives from `ch` there. */
  lemma ShownFromPulses(r: Strip, position: nat, k: nat, pulses: seq<Byte>, ch: seq<Byte>)
    requires Valid(r) && position < r.count && k < Width(r.kind)
    requires |pulses| == Width(r.kind) * 8 && pulses[8 * k..8 * k + 8] == ch
    requires Offset(r.kind, position) + |pulses| <= |r.buffer|
    requires r.buffer[Offset(r.kind, position)..Offset(r.kind, position) + |pulses|] == pulses
    ensures Shown(r, position, k) == Received(ch)
  {
    var o := Offset(r.kind, position);
    assert 8 * k + 8 <= |pulses| by {
      assert k + 1 <= Width(r.kind);
    }
    SliceOfSlice(r.buffer, o, pulses, 8 * k);
  }

  /** Eight bytes inside a run of the buffer known to equal `pulses`. */
  lemma SliceOfSlice(buffer: seq<Byte>, o: nat, pulses: seq<Byte>, a: nat)
    requires o + |pulses| <= |buffer| && buffer[o..o + |pulses|] == pulses && a + 8 <= |pulses|
    ensures buffer[o + a..o + a + 8] == pulses[a..a + 8]
  {
    forall i | a <= i < a + 8
      ensures buffer[o + i] == pulses[i]
    {
      assert buffer[o + i] == buffer[o..o + |pulses|][i];
    }
    assert buffer[o + a..o + a + 8] == pulses[a..a + 8];
  }

  /** Pixels other than the one set keep what they show. */
  lemma SetPixelKeepsOthers(s: Strip, position: U16, q: nat, k: nat, red: Byte, green: Byte, blue: Byte, white: Byte)
    requires Valid(s) && position < s.count && q < s.count && q != position && k < Width(s.kind)
    ensures Shown(SetPixel(s, position, red, green, blue, white), q, k) == Shown(s, q, k)
  {
    var r := SetPixel(s, position, red, green, blue, white);
    OffsetBound(s.kind, q, s.count);
    var o := Offset(s.kind, position);
    var e := o + Width(s.kind) * 8;
    var oq := Offset(s.kind, q) + 8 * k;
    if q < position {
      OffsetOrder(s.kind, q, position);
      SliceOfPrefix(r.buffer, s.buffer, o, oq, oq + 8);
    } else {
      OffsetOrder(s.kind, position, q);
      SliceOfSuffix(r.buffer, s.buffer, e, oq, oq + 8);
    }
  }

  /** Sequences with the same first `n` elements agree on any slice of
      them. */
  lemma SliceOfPrefix(a: seq<Byte>, b: seq<Byte>, n: nat, x: nat, y: nat)
    requires n <= |a| && n <= |b| && a[..n] == b[..n] && x <= y <= n
    ensures a[x..y] == b[x..y]
  {
    assert a[x..y] == a[..n][x..y];
    assert b[x..y] == b[..n][x..y];
  }

  /** Sequences of one length with the same elements from `n` on agree on
      any slice there. */
  lemma SliceOfSuffix(a: seq<Byte>, b: seq<Byte>, n: nat, x: nat, y: nat)
    requires |a| == |b| && n <= x <= y <= |a| && a[n..] == b[n..]
    ensures a[x..y] == b[x..y]
  {
    forall i | x <= i < y
      ensures a[i] == b[i]
    {
      assert a[i] == a[n..][i - n] && b[i] == b[n..][i - n];
    }
  }

  /** Distinct pixels occupy disjoint slices, in position order. */
  lemma OffsetOrder(kind: PixelType, p: nat, q: nat)
    requires p < q
    ensures Offset(kind, p) + Width(kind) * 8 <= Offset(kind, q)
  {
    var w := Width(kind) * 8;
    assert Offset(kind, p) == p * w && Offset(kind, q) == q * w;
    assert (p + 1) * w <= q * w;
  }

  /** `bc_ws2812b_send`: refused while a frame is on its way; otherwise
      the frame starts and the strip is busy until the reset pulse after
      it has ended. */
  function Send(s: Strip): (r: (Strip, bool))
    ensures r.1 <==> !s.transfer
    ensures r.0.transfer
    ensures r.0.(transfer := s.transfer) == s
  {
    if s.transfer then (s, false) else (s.(transfer := true), true)
  }

  /** The timer interrupt at the end of the reset pulse: the strip is
      free again and the send-done task runs at once. */
  function ResetDone(s: Strip): (r: (Strip, seq<Effect>))
    ensures !r.0.transfer && r.0.(transfer := s.transfer) == s
    ensures r.1 == [PlanNow]
  {
    (s.(transfer := false), [PlanNow])
  }

  /** `_bc_ws2812b_task`: report the end of the frame to the handler. */
  function Task(s: Strip): (events: seq<Event>)
    ensures events == [SendDone] <==> s.hasHandler
    ensures events == [] <==> !s.hasHandler
  {
    if s.hasHandler then [SendDone] else []
  }

  /** One frame at a time: a second send before the reset pulse has ended
      is refused, and once it has ended a send is accepted again. */
  lemma OneFrameAtATime(s: Strip)
    requires !s.transfer
    ensures Send(s).1 && !Send(Send(s).0).1
    ensures Send(ResetDone(Send(s).0).0).1
  {
  }
}
